=== FILE: README.md ===
# retcom core in Dafny

A model of the editing core of retcom, an editor for the text regions an OCR
engine finds on a scanned page. The model covers:

- **The box-file reader** (`parse_lstmbox.py`, module `LstmBox`). It turns
  the recognizer's "lstmbox" lines into records (`parseBox`) and filters
  them by writing direction (`cleanBox`). It then groups them by their
  coordinates (`segmentBox`) and builds the ordered segment list
  (`boxStringDict` / `boxList` in `processBox`).
- **The region and group model** (`retcom.py`, module `Regions`):
  - the page list `bboxes`;
  - the per-scene group registry with its counter;
  - each group's member list and each region's back-reference;
  - the group operations `add`, `remove` and `disband`;
  - `makeGroupFromSelected`, `removeSelectedFromGroup`, `removeSelected`
    and `removeFlagged`.

  Regions are integer IDs; groups are their numbers.
- **The region tree** (module `Tree`):
  - the list primitive `insertBefore`;
  - the `[[G<n>]]` header label and its parser in `getBBObjectFromItem`;
  - the drag-and-drop reconciliation of `dropEvent`.
- **The box-file writer** `createLSTMBox` (module `BoxIO`), and the fact
  that what it writes reads back through `parseBox`.
- **The box-file import** `parseLSTMBox` (module `BoxImport`):
  - the coordinate transform, the sizing of filler and text regions and
    the suspicion flag;
  - the width conversion and the initial brush;
  - the tag loop that creates groups until the tagged number exists.
- **The save check** `checkLSTMBoxChange` (module `ChangeCheck`).
- **Group collation** `collateTextEvent` / `fetchCollation` (module
  `Collation`).
- **Settings helpers** (module `Config`): `hex2int`, the
  `changeCheckThreshold` default and `updateFill`.
- **The half-width/full-width tables** of `fontspecs.py` (module
  `FontSpecs`).
- **`Translator.flattenList`** of `translator.py` (module `Translator`).

Support modules:

- `Wrappers`: `Result` and `Option`.
- `Seqs`: first occurrence, removal, selection, sorting of integer keys.
- `Strs`: `join`, `split`, `replace` and line reading.
- `PyInt`: Python's `int(text, base)` for bases 10 and 16, and `str(n)`.

Design of the state (`Regions.Session`):

- Every region object ever created stays in `regions`. A region removed
  from the page keeps existing, as a Python object does.
- The member lists of every group ever created stay in `members`.
- `registry` maps a group number to true (the slot holds the group) or
  false (the slot holds None).
- Reading a missing key of the `defaultdict` registry stores None under
  it. `Regions.Lookup` models this.
- `Regions.Valid` is the invariant the editor relies on: the live groups
  partition their members, and each member points back at its one group.

Python exceptions and loops that never exit are explicit outcomes:

- `Result.Failure` carries the exception's name.
- `BoxImport.ImportOutcome` has `Raised` and `Hangs`.

Where the code and its documentation disagree, the model follows the code:

- A non-numeric field in a box line raises `ValueError` in `parseBox`; it
  is not skipped.
- The import reads the tag as `c[4]`, so an entry with fewer than five
  numbers raises `IndexError` rather than defaulting to tag 0.

## Model

| member | source | states |
|---|---|---|
| LstmBox.ParseFields | src/main/python/parse_lstmbox.py:32-35 | Succeeds exactly when every non-empty field token is a Python integer; the values are those integers in token order, one per non-empty token, so empty tokens from repeated spaces are dropped |
| LstmBox.ParseLine | src/main/python/parse_lstmbox.py:30-37 | A line parses exactly when its fields do; the record's first element is the text before the first space once newlines are removed (empty for a line that starts with a space), and its numbers are the parsed fields |
| LstmBox.ParseBox | src/main/python/parse_lstmbox.py:28-39 | Succeeds exactly when every line parses; then it gives one record per line, in line order, each the parse of its line |
| LstmBox.CleanBox | src/main/python/parse_lstmbox.py:41-45 | The result is the order-preserving subsequence of the records that are kept (vertical: character neither "" nor "\t"; horizontal: character not "\t"), with "" replaced by " " in horizontal mode and the numbers untouched |
| LstmBox.CleanedCharacters | src/main/python/parse_lstmbox.py:42-45 | No cleaned record, in either mode, has the character "\t" or "" |
| LstmBox.SegmentBox | src/main/python/parse_lstmbox.py:47-56 | The key order has no repeats and holds exactly the keys of `segments`, which are also exactly the keys of `hashes` |
| LstmBox.SegmentByKey | src/main/python/parse_lstmbox.py:51-54 | A key has a segment exactly when some record has that key (the record minus its first and last element); its characters are those of all such records in input order; its stored fields are `el[1:]` of the last such record |
| LstmBox.SegmentOrder | src/main/python/parse_lstmbox.py:51-54 | Segment keys are listed in the order of their first record |
| LstmBox.SegmentTotal | src/main/python/parse_lstmbox.py:51-54 | The segments' character lists together hold exactly as many entries as there are cleaned records |
| LstmBox.BoxStringDict | src/main/python/parse_lstmbox.py:25 | `boxStringDict` has exactly the segment keys, and each maps to the concatenation of that key's characters |
| LstmBox.BoxList | src/main/python/parse_lstmbox.py:26 | `boxList` has one entry per key, in first-occurrence order; each entry's text is that key's `boxStringDict` value and its fields are the key's stored fields |
| LstmBox.ProcessBox | src/main/python/parse_lstmbox.py:18-26 | Processing the read lines succeeds exactly when `parseBox` does |
| LstmBox.BoxListEntries | src/main/python/parse_lstmbox.py:25-26 | Entry i of `boxList` has as text the characters of every record with the i-th key, in input order, and as fields those of the last such record |
| PyInt.ParseIntDecimal | src/main/python/parse_lstmbox.py:35 | A non-empty run of decimal digits, ASCII or full-width, reads as its value under `int()`, and with a leading "-" as the negated value |
| PyInt.ParseIntRejects | src/main/python/parse_lstmbox.py:35 | `int(text, base)` raises `ValueError` whenever the text holds a character that is not a digit of the base, `_`, whitespace, a sign, `x` or `X` |
| PyInt.SeparatorIsNotStripped | src/main/python/parse_lstmbox.py:35 | `int()` strips a leading space but raises on a leading U+001C, which `str.isspace()` counts as whitespace |
| PyInt.ParseIntToString | src/main/python/retcom.py:688 | `int(str(n)) == n` for every integer n |
| Config.Hex2Int | src/main/python/retcom.py:136-145 | A colour written `#` or `0x` followed by hexadecimal digits reads as the value of those digits |
| Config.ChangeCheckThreshold | src/main/python/retcom.py:78 | The threshold is the configured value when that is set and non-zero, and 7000 when it is absent; it is never 0 |
| Config.UpdateFill | src/main/python/retcom.py:1394-1403 | A region gets the selection brush exactly when it is selected; an unselected one gets the filler brush exactly when its text is the filler, and the flagged brush exactly when it is flagged with any other text |
| FontSpecs.TablesAreInverse | src/main/python/fontspecs.py:59-60 | Both tables map only to characters, and each maps every key of the other back to where it came from |
| FontSpecs.Half2FullWidth | src/main/python/fontspecs.py:59-63 | Keeps the length; every character in U+0021..U+007E gains 0xFEE0 and every other character is unchanged |
| FontSpecs.Full2HalfWidth | src/main/python/fontspecs.py:60-66 | Keeps the length; every character in U+FF01..U+FF5E loses 0xFEE0 and every other character is unchanged |
| FontSpecs.ConversionsArePointwise | src/main/python/fontspecs.py:62-66 | Output character i of either conversion depends only on input character i |
| FontSpecs.ConversionsAreIdempotent | src/main/python/fontspecs.py:59-66 | Applying either conversion twice is applying it once |
| FontSpecs.ConversionsAbsorb | src/main/python/fontspecs.py:59-66 | `full2halfWidth(half2fullWidth(s)) == full2halfWidth(s)` and the other way round |
| FontSpecs.ConversionsRoundTrip | src/main/python/fontspecs.py:59-66 | A text without full-width characters survives the trip to full width and back; one without half-width characters survives the reverse trip |
| Translator.FlattenList | src/main/python/translator.py:23-31 | The flattened list holds no nested lists |
| Translator.FlattenConcat | src/main/python/translator.py:25-31 | Flattening distributes over concatenation |
| Translator.FlattenFlat | src/main/python/translator.py:25-31 | A list without nested lists flattens to an element-wise copy of itself |
| Translator.FlattenIdempotent | src/main/python/translator.py:23-31 | Flattening a flattened list changes nothing |
| Translator.FlattenIterative | src/main/python/translator.py:18-31 | A work-list traversal that takes atoms in depth-first, left-to-right order produces exactly the flattened list |
| Collation.Lines | src/main/python/retcom.py:1474-1478 | Collects at most one line per member and never the filler text |
| Collation.LinesAreNonFillerTexts | src/main/python/retcom.py:1473-1480 | The collated lines are exactly the texts of the members whose text is not the filler, in member order |
| Collation.Collate | src/main/python/retcom.py:1473-1480 | A group's collation is the texts of its members other than the filler, in member order, joined by the separator |
| Collation.CollateSplits | src/main/python/retcom.py:1473-1480 | With a one-character collation string found in no member text, and at least one non-filler member, splitting the collation on that character gives back the non-filler texts |
| Collation.FetchCollation | src/main/python/retcom.py:2061-2074 | The collation window shows one block per live group, in increasing group number, each block that group's own collation, joined by blank lines |
| Collation.CollateLoopSelects | src/main/python/retcom.py:2063-2072 | The loop over registry keys collates exactly the keys whose slot holds a group, in key order |
| Collation.LiveGroupsValid | src/main/python/retcom.py:1448-1451 | On a valid state the live groups visited are those among 1 .. counter-1, in counting order |
| Regions.EmptyIsValid | src/main/python/retcom.py:1424-1425 | A fresh scene, with the counter at 1 and no groups, satisfies the invariant |
| Regions.MemberOfOneGroup | src/main/python/retcom.py:1432-1435 | On a valid state no region is listed by two groups |
| Regions.NewGroup | src/main/python/retcom.py:1427-1451 | A new group takes the counter's number, which then grows by one; it is registered, lists the given items in order and every item points back at it; the page, other groups and other slots are untouched; items are not taken out of earlier groups |
| Regions.Add | src/main/python/retcom.py:1530-1532 | `add` appends the region to the member list and points it at the group; nothing else changes |
| Regions.Remove | src/main/python/retcom.py:1534-1536 | `remove` raises exactly when the region is not a member; otherwise it drops the region's first occurrence, clears its back-reference and changes nothing else |
| Regions.Disband | src/main/python/retcom.py:1538-1540 | `disband` sets only the group's slot to None; members, regions, page, counter and every other slot stay, so the number is never reused |
| Regions.LiveGroups | src/main/python/retcom.py:2063-2064 | The sorted registry keys whose slot holds a group: increasing, and exactly the live numbers |
| Regions.Lookup | src/main/python/retcom.py:1424-1425 | Reading a registry slot stores None under a missing key and changes no group's liveness or anything else |
| Regions.NewGroupValid | src/main/python/retcom.py:1427-1451 | Grouping distinct ungrouped page regions keeps the invariant |
| Regions.AddValid | src/main/python/retcom.py:1530-1532 | Adding an ungrouped page region to a live group keeps the invariant |
| Regions.RemoveValid | src/main/python/retcom.py:1534-1536 | Removing a member from its group keeps the invariant, even when the group empties |
| Regions.DisbandValid | src/main/python/retcom.py:1538-1540 | Disbanding keeps the invariant exactly when the group has no members |
| Regions.JoinValid | src/main/python/retcom.py:1669-1676 | An ungrouped page region may join a live group at any place in its member list that keeps the list free of repeats |
| Regions.ReorderGroupValid | src/main/python/retcom.py:1676 | Reordering a group's members keeps the invariant |
| Regions.ReorderPageValid | src/main/python/retcom.py:1672 | Reordering the page list keeps the invariant |
| Regions.RemoveSelectedFromGroup | src/main/python/retcom.py:819-830 | Taking regions out of their groups leaves the page list and the counter unchanged |
| Regions.RemoveSelectedFromGroupSpec | src/main/python/retcom.py:819-830 | On a valid state, never raises and keeps the invariant; every selected region is ungrouped and gone from every member list; a group is disbanded exactly when the selection emptied it |
| Regions.RemoveSelected | src/main/python/retcom.py:761-770 | Removing regions never touches the registry or the counter: a group emptied this way stays registered |
| Regions.RemoveSelectedSpec | src/main/python/retcom.py:761-770 | With distinct selected IDs on a valid state, raises exactly when a selected region is not on the page; otherwise the selected regions leave the page and their groups, are ungrouped, and the invariant holds |
| Regions.FlaggedOnPage | src/main/python/retcom.py:777-779 | Exactly the flagged regions of the page |
| Regions.RemoveFlagged | src/main/python/retcom.py:776-785 | Removing the flagged regions leaves the registry and the counter unchanged and keeps every region and group object, so every reference stays resolvable |
| Regions.RemoveFlaggedSpec | src/main/python/retcom.py:776-785 | On a valid state, never raises and keeps the invariant and the registry; the page afterwards holds exactly the unflagged regions |
| Regions.MakeGroupFromSelected | src/main/python/retcom.py:811-812 | Raises exactly when a selected region is not on the page; otherwise a new live group holds exactly the selection, every selected region points at it and the page is unchanged |
| Regions.MakeGroupListsTwice | src/main/python/retcom.py:811-812 | A region already in group 1, grouped again, is listed by two live groups and the result breaks the invariant |
| Regions.MakeGroupDetachedSpec | src/main/python/retcom.py:811-812 | The corrected grouping raises exactly when a selected region is not on the page; otherwise it keeps the invariant and the new group lists the selection in page order |
| Regions.MakeGroupPageOrder | src/main/python/retcom.py:812 | The new group's members are sorted by their page position |
| Tree.InsertBefore | src/main/python/retcom.py:1777-1792 | Raises exactly when `a` is missing; otherwise the result holds the same elements, plus `b` once if it was absent; when `b` already stands at or before `a`, the list comes back unchanged |
| Tree.InsertBeforeMembers | src/main/python/retcom.py:1776-1792 | The result holds exactly the list's elements and `b` |
| Tree.InsertBeforeOrder | src/main/python/retcom.py:1784-1790 | For `b != a`, `b` ends before `a`; when `b` was absent or after `a`, it lands at a's old position and `a` moves one step on |
| Tree.InsertBeforeRest | src/main/python/retcom.py:1776-1792 | Taking `b` back out leaves the other elements in their original order |
| Tree.InsertBeforeNoDup | src/main/python/retcom.py:1776-1792 | A list without repeats stays without repeats |
| Tree.InsertBeforeIdempotent | src/main/python/retcom.py:1784-1785 | Doing it twice is doing it once: the second call finds `b` already before `a` |
| Tree.LabelNumber | src/main/python/retcom.py:1734 | For a text without `[`, `]` or `G`, the group number read off the text is `int()` of the text itself |
| Tree.HeaderGroupNumber | src/main/python/retcom.py:1733-1738 | The header label of a non-zero group number names that group; the label `[[G0]]` names none |
| Tree.HeaderLabelNumber | src/main/python/retcom.py:1589 | The header label `[[G<n>]]` written by `fillTree` reads back as n through the label parser of line 1734 |
| Tree.ResolveAsWritten | src/main/python/retcom.py:1716-1749 | Resolving an item changes at most the registry's None slots; a non-zero header resolves to its group when live and to None otherwise, and changes nothing when live; a child of a live group resolves to its region exactly when the group lists it and no later live group does (the region's `treeItem` is its child under the last such group), and changes nothing; any group it yields is live and any region exists |
| Tree.ResolveAgrees | src/main/python/retcom.py:1716-1749 | On a valid state, for tree items whose text cannot be taken for a group number, the lookup as written yields what the item is by kind: a header its group (or None for an empty slot), a region item its own region; and it changes nothing |
| Tree.EarlierChildRaises | src/main/python/retcom.py:1584-1600 | When two live groups list one region, its child under the later group resolves to the region, while its child under the earlier group resolves to None, and dropping that child on empty space raises `AttributeError` |
| Tree.GroupedTwiceDragRaises | src/main/python/retcom.py:1693-1697 | In the state left by grouping an already grouped region again, the region's child under the old group cannot be dragged out: the drop raises `AttributeError` |
| Tree.Detach | src/main/python/retcom.py:1643-1645 | Raises exactly when the region's group does not list it; otherwise the region is ungrouped and the page, registry and counter are unchanged |
| Tree.ReorderPage | src/main/python/retcom.py:1655 | Raises exactly when the destination is not on the page; otherwise only the page list changes, by `insertBefore` |
| Tree.ReorderGroup | src/main/python/retcom.py:1676 | Raises exactly when the destination is not a member; otherwise only that member list changes, by `insertBefore` |
| Tree.MoveRegion | src/main/python/retcom.py:1636-1698 | Every drop of a region keeps all object references pointing at existing objects |
| Tree.DropEvent | src/main/python/retcom.py:1618-1698 | Every drop as written keeps all object references pointing at existing objects; a drop on the item itself, and a drag of a live header, change nothing; a drag of any non-zero header never raises and changes at most the registry |
| Tree.DropEventByKind | src/main/python/retcom.py:1618-1698 | The corrected drop keeps all object references pointing at existing objects; a drop on the item itself and every header drag change nothing |
| Tree.DetachValid | src/main/python/retcom.py:1643-1645 | On a valid state leaving a group never raises and keeps the invariant; the region is in no member list, its old group loses only it, and no other region changes |
| Tree.DropOnRoot | src/main/python/retcom.py:1692-1698 | A drop on empty space ungroups the region and keeps the invariant, the page, the registry and the counter |
| Tree.DropOnHeader | src/main/python/retcom.py:1641-1655 | A drop on a live header detaches the region without disbanding, puts it at the front of that group and keeps the page unchanged |
| Tree.DropOnGroupedRegion | src/main/python/retcom.py:1661-1682 | A drop on a grouped region joins that group; the member list and the page become exactly what `insertBefore` makes of them, so the region ends before the destination in both, and the page stays a permutation |
| Tree.SameGroupMove | src/main/python/retcom.py:1663-1676 | The same, when both regions are already in the same group |
| Tree.OtherGroupMove | src/main/python/retcom.py:1663-1676 | The same, when the region comes from another group or from none |
| Tree.DropOnUngroupedRegion | src/main/python/retcom.py:1684-1691 | A drop on an ungrouped region ungroups the dragged one and moves it before the destination on the page; the page stays a permutation |
| Tree.DropRegionSpec | src/main/python/retcom.py:1636-1698 | On a valid state every drop of a page region on a tree item never raises, keeps the invariant, registry and counter, and permutes the page |
| Tree.DropByKindSpec | src/main/python/retcom.py:1618-1698 | The same for every source item, header drags and drops on the item itself included |
| Tree.DropAgrees | src/main/python/retcom.py:1618-1749 | For items whose text cannot be taken for a group number, the drop as written equals the corrected drop |
| Tree.NumberedDropAsWritten | src/main/python/retcom.py:1733-1741 | Dragging a top-level region whose text is "7" does nothing to the page, but registers a None slot for group 7 and breaks the invariant |
| Tree.NumberedDropByKind | src/main/python/retcom.py:1733-1741 | The corrected drop moves that region before its destination and keeps the invariant |
| BoxIO.LineRoundTrip | src/main/python/retcom.py:688-690 | A written line, for a character other than space or newline, parses back to that character and the same numbers |
| BoxIO.FieldsRoundTrip | src/main/python/retcom.py:688 | The written fields parse back to the same integers |
| BoxIO.EmitGroups | src/main/python/retcom.py:674-691 | The group loop succeeds exactly when every key's slot holds a group; each emitted region is a member of the group whose number it carries |
| BoxIO.EmitRest | src/main/python/retcom.py:694-707 | The page loop emits, each with tag 0, exactly the page regions not yet accounted for; on a page without repeats they come in page order |
| BoxIO.CreateLSTMBox | src/main/python/retcom.py:667-709 | `createLSTMBox` raises exactly when some registry slot holds None; otherwise it writes the export in the corrected order |
| BoxIO.EmitAsWritten | src/main/python/retcom.py:674-707 | The export order as written can be computed exactly when no registry slot holds None, and it is then the corrected order |
| BoxIO.EmitLive | src/main/python/retcom.py:674-707 | Every written region exists and carries 0 or the number of a live group |
| BoxIO.EmitLiveGroupOrder | src/main/python/retcom.py:674-691 | On a valid state, the regions written with a live group's number are exactly that group's members, in member-list order |
| BoxIO.EmitLiveRestOrder | src/main/python/retcom.py:694-707 | On a valid state, the regions written with tag 0 are exactly the ungrouped page regions, in page order |
| BoxIO.RenderReadsLines | src/main/python/retcom.py:690-709 | For region texts without space, newline or carriage return, the export text read back line by line is one line per character of each written region, region after region |
| BoxIO.ExportAfterUngrouping | src/main/python/retcom.py:674-677 | After the only member leaves its group, export raises, while the corrected order writes that region with tag 0 |
| BoxIO.UngroupedReached | src/main/python/retcom.py:819-830 | `removeSelectedFromGroup` on a sole member reaches exactly that state |
| BoxIO.EmitGroupsSpec | src/main/python/retcom.py:674-691 | For increasing live keys on a valid state, the group part lists each member of those groups once, with its own group number, in increasing group order |
| BoxIO.EmitLiveSpec | src/main/python/retcom.py:667-709 | On a valid state, the corrected export writes every page region exactly once, with its group's number or 0, grouped regions first in increasing group order |
| BoxIO.EmitLivePermutation | src/main/python/retcom.py:667-709 | The written regions are a permutation of the page |
| BoxIO.EmitLiveTags | src/main/python/retcom.py:686 | Each written region carries its group's number, or 0 when ungrouped |
| BoxIO.EmitLiveOrder | src/main/python/retcom.py:674-707 | All tagged regions come before the untagged ones, in increasing tag order |
| BoxIO.GroupedAreEmitted | src/main/python/retcom.py:674-691 | Every grouped page region is written in the group part |
| BoxIO.ExportReadsBack | src/main/python/retcom.py:688-709 | For region texts without space, newline or carriage return, what the writer produces, read back line by line by `parseBox`, is one record per character, region after region, each with its region's box and tag |
| BoxIO.ParsePointwise | src/main/python/parse_lstmbox.py:28-39 | Lines that each parse to a record parse together to the records in order |
| BoxImport.Place | src/main/python/retcom.py:604 | The new region is appended to the page and nothing else changes |
| BoxImport.Grow | src/main/python/retcom.py:612-616 | k rounds of the loop raise the counter by k and leave the page and regions alone |
| BoxImport.CreateUntil | src/main/python/retcom.py:612-616 | From a counter at most n, the loop ends with group n live and the counter at most n + 1 |
| BoxImport.GrowLive | src/main/python/retcom.py:612-616 | After k rounds a number is live exactly when it was, or when it lies in the k numbers just handed out |
| BoxImport.WhileNeverEnds | src/main/python/retcom.py:612 | For a number below the counter whose slot is empty, no number of rounds makes it live: the loop never exits |
| BoxImport.CreateUntilIsGrow | src/main/python/retcom.py:612-616 | The loop runs exactly n - counter + 1 rounds, and no earlier round makes n live |
| BoxImport.LookupForgotten | src/main/python/retcom.py:607-612 | The None slot stored by the first read of `groups[n]` makes no difference to the loop |
| BoxImport.CreateUntilValid | src/main/python/retcom.py:612-618 | On a valid state the loop keeps the invariant, ends with counter n + 1, and leaves existing groups alone |
| BoxImport.ImportEntry | src/main/python/retcom.py:553-619 | Importing one entry keeps all object references pointing at existing objects |
| BoxImport.ImportAll | src/main/python/retcom.py:553-619 | The same for all entries in turn |
| BoxImport.ParseLSTMBox | src/main/python/retcom.py:553-619 | The same for a whole box file |
| BoxImport.ImportEntryOutcome | src/main/python/retcom.py:556-619 | Fewer than five numbers raise `IndexError`; a zero size across the writing direction raises `ZeroDivisionError`; otherwise the entry hangs exactly when its tag is non-zero, below the counter and not live, and never raises |
| BoxImport.Tag | src/main/python/retcom.py:606-619 | Tagging never raises, and hangs exactly for a non-zero tag below the counter whose slot is empty |
| BoxImport.ImportedRegion | src/main/python/retcom.py:553-604 | An imported entry appends one new region: x is left, y is height minus top, its size across the writing direction (a filler's whole size) comes from its box, the text is converted, it is flagged exactly when it is not a filler and its ratio is suspicious, and a non-zero tag leaves it in that live group |
| BoxImport.ImportedHasBox | src/main/python/retcom.py:556-563 | An entry that imports has five numbers and a non-zero size across |
| BoxImport.ImportedPage | src/main/python/retcom.py:604 | The page grows by exactly the fresh region |
| BoxImport.ImportedNew | src/main/python/retcom.py:556-601 | The fresh region is the sized, flagged and converted region, with the tag's group |
| BoxImport.NewRegion | src/main/python/retcom.py:556-601 | The new region is ungrouped at the transformed position; its size across the writing direction comes from the box; its text is the filler exactly when the imported text is; a filler is never flagged and keeps the box's whole size |
| BoxImport.ImportedWritesBack | src/main/python/retcom.py:553-604 | Writing an imported region again gives back the entry's left, top and tag fields and the field of its size across the writing direction; for a filler, all five fields |
| BoxImport.ImportedOthers | src/main/python/retcom.py:604-619 | Regions that existed before are unchanged |
| BoxImport.ImportedGroups | src/main/python/retcom.py:606-619 | Tag 0 leaves the groups alone; a non-zero tag ends with that group live |
| BoxImport.TagEffect | src/main/python/retcom.py:606-619 | Tagging points only the new region at the tag's group and keeps the page |
| BoxImport.ImportRestoresBox | src/main/python/retcom.py:556-559 | A region written by the export and imported again gets back its position, its size across, its whole box when it is a filler, and its group |
| BoxImport.PlaceValid | src/main/python/retcom.py:604 | Appending a new ungrouped region keeps the invariant |
| BoxImport.TagValid | src/main/python/retcom.py:606-619 | Tagging that does not hang keeps the invariant |
| BoxImport.ImportEntryValid | src/main/python/retcom.py:553-619 | Importing an entry that does not hang keeps the invariant |
| BoxImport.ImportAllValid | src/main/python/retcom.py:553-619 | Importing a list of entries that does not hang keeps the invariant |
| BoxImport.ImportAllAppends | src/main/python/retcom.py:553-604 | A complete import appends one region per entry after the existing page |
| BoxImport.FilledHangs | src/main/python/retcom.py:606-619 | When every slot below the counter holds a group, an entry with a box hangs exactly when its tag is negative |
| BoxImport.ImportAllFills | src/main/python/retcom.py:606-619 | An import that does not hang keeps every slot below the counter filled |
| BoxImport.ConvertedFiller | src/main/python/retcom.py:593-596 | The width conversion turns a text into the filler exactly when it is the filler |
| BoxImport.InitialBrushIsFill | src/main/python/retcom.py:583-591 | The brush the import sets is the one `updateFill` picks for an unselected region with the imported text and flag; it sets none exactly for a filler whose ratio is suspicious |
| ChangeCheck.Utf8LengthBounds | src/main/python/retcom.py:1209 | A text takes one to four UTF-8 bytes per character, and exactly one per character when it is ASCII |
| ChangeCheck.CheckLSTMBoxChange | src/main/python/retcom.py:1198-1217 | The check raises exactly when the file exists and some slot holds None; it reports unchanged exactly when the file exists, equals the regenerated text and that text is within the threshold; a diff names the saved and the regenerated texts, which differ |

## Left out

- File and subprocess I/O are not modelled. The box file's lines, the
  saved file's contents and the image height are parameters.
- The Qt scene, the view, tree-widget items, selection, dialogs and
  `updateShape` are not modelled. The tree is modelled only through its
  item kinds and labels. The scene order of `removeFlagged` is replaced
  by the page order, which removes the same set.
- Bells, ellipse export and import, inpainting and image processing are
  not modelled.
- Floating point is not modelled. Font metrics and `round()` are the
  layout's `textRatio` and `length` parameters, and box coordinates are
  integers.
- Python's `hash()` in `segmentBox` is replaced by the key tuple itself,
  so hash collisions are not modelled.
- PyInt.ParseInt: accepts ASCII and full-width decimal digits, the only
  ones the editor's texts hold after its width conversion. Python also
  accepts the decimal digits of other scripts (Arabic-Indic, Devanagari and
  so on), and those are read as non-digits here.
- Tree.ResolveAgrees: rests on PyInt.ParseInt, so a top-level region whose
  text is a number in a script other than ASCII or full-width counts as a
  plain item here, though Python would take it for a group header.
- Tree.DropAgrees: the same limit as Tree.ResolveAgrees.
- BoxIO.ExportReadsBack: promised only for region texts without a
  carriage return. The box file is read in text mode (parse_lstmbox.py:18),
  which ends a line at a carriage return too, so such a text comes back as
  more records than it has characters. The writer opens the file with the
  platform's default encoding (retcom.py:714) and the reader with UTF-8, so
  the round trip also assumes a UTF-8 default.
- BoxIO.RenderReadsLines: the same carriage-return limit; `Strs.ReadLines`
  ends lines only at newlines.
- Tree.ResolveAsWritten: a child item is named by its group and region,
  so the model cannot tell apart two children of one group for a region
  the group lists twice. Python finds only the later of them again by
  `treeItem`. Lists with repeats do not occur in a valid state.
- ChangeCheck.CheckLSTMBoxChange: the diff text of `difflib.ndiff` is
  represented by the pair of texts it compares, not by its line format.
- BoxImport.InitialBrushIsFill: `setBrush`, opacity and movable flags
  are not part of the region. A filler below the suspicion threshold keeps
  Qt's default brush; the model reports this as no brush.
- Config.UpdateFill: the brushes are named, not their colours.
  `setBrush` itself is Qt and is not modelled.
- Config.ChangeCheckThreshold: the setting is taken as an integer or
  absent. A JSON string such as "0" is truthy, and `int("0")` would make
  the threshold 0; that case is not modelled. ChangeCheck.CheckLSTMBoxChange
  takes the threshold in force as a parameter.
- BoxIO.EmitGroups: states which group each written region belongs to,
  not the order inside a group. That order is stated for the whole export
  by BoxIO.EmitLiveGroupOrder, and BoxIO.EmitAsWritten equates the two
  orders.
- BoxIO.EmitGroupsSpec: the same; it states the order of the groups, and
  BoxIO.EmitLiveGroupOrder the order inside each.
- BoxIO.EmitLiveSpec: states the group order and the tags; the order
  inside a group and of the untagged part is in BoxIO.EmitLiveGroupOrder
  and BoxIO.EmitLiveRestOrder.
- Translator: the HTTP translation call and response parsing are not
  modelled.
- Regions.RemoveSelected: when a step raises, the model returns only the
  exception. Python keeps the removals already done before the raise
  (retcom.py:763-769). On a valid state with distinct selected regions
  this can only be the `ValueError` of a region not on the page.
- Regions.RemoveSelectedFromGroup: when a step raises, the model returns
  only the exception, while Python keeps the earlier steps and the cleared
  group reference (retcom.py:821-830). On a valid state it never raises
  (Regions.RemoveSelectedFromGroupSpec).
- Regions.RemoveFlagged: the same for a raise part-way through
  (retcom.py:777-785). On a valid state it never raises
  (Regions.RemoveFlaggedSpec).
- Regions.RemoveSelected: selected bells (retcom.py:771-774) are not
  modelled; the selection holds region IDs only.
- Regions.MakeGroupFromSelected: `scene.selectedItems()` may also hold
  bells and group rectangles; only regions are modelled.

## Findings

| source | as written | input that shows it | evidently intended | confidence | as-written member | corrected member |
|---|---|---|---|---|---|---|
| src/main/python/retcom.py:674-677 | `createLSTMBox` reads `.items` of every registry slot, including one set to None by `disband` | group 1 with one region; `removeSelectedFromGroup` on it disbands the group; the export then raises on slot 1 | skip None slots, as `fillTree` and `fetchCollation` do | high, not executed | BoxIO.ExportAfterUngrouping | BoxIO.EmitLiveSpec |
| src/main/python/retcom.py:811-812 | `makeGroupFromSelected` points the selected regions at the new group but leaves them in their old group's member list | region 1 in live group 1; group it again: live groups 1 and 2 both list it and the invariant breaks | take the regions out of their old groups first | high, not executed | Regions.MakeGroupListsTwice | Regions.MakeGroupDetachedSpec |
| src/main/python/retcom.py:1733-1741 | a top-level item is taken for a group header whenever its text, with `[[`, `]]` and `G` removed, is a non-zero integer; full-width digits count too, and they are what the width conversion makes of ASCII digits | an ungrouped region whose text is "7", dragged onto another region: the drop is ignored and a None slot for group 7 is stored | tell header items from region items by kind, not by text | medium, not executed | Tree.NumberedDropAsWritten | Tree.NumberedDropByKind |

Notes on the import loop (retcom.py:606-619), which are not counted as
findings:

- A tag whose slot is empty and below the counter, such as a disbanded
  group or a negative tag, makes `while not groups[n]` spin forever
  (BoxImport.WhileNeverEnds, BoxImport.FilledHangs).
- A tag above the counter creates empty groups for every number in
  between (BoxImport.CreateUntilIsGrow).

=== FILE: boxio.dfy ===
/** The box file as retcom.py writes it (`createLSTMBox`) and reads it back
    into the scene (`parseLSTMBox`).

    A line of the file is a character and five integers: left, bottom,
    right and top of its region in the image's bottom-up coordinates, then
    the number of the region's group (0 for none). Scene coordinates grow
    downwards from the top-left corner, so a region at (x, y) of size
    (w, h) on an image of height H has left x, top H - y, bottom
    H - y - h and right x + w.
 */
module BoxIO {
  import opened Wrappers
  import opened Seqs
  import opened Strs
  import opened PyInt
  import opened Regions
  import opened FontSpecs
  import LstmBox

  // ------------------------------------------------------------------ lines

  /** `line` in `createLSTMBox`: the region's box and its group tag. */
  function Fields(r: Region, height: int, tag: int): seq<int> {
    [r.x, height - r.y - r.h, r.x + r.w, height - r.y, tag]
  }

  /** `str(round(el))` for every field. */
  function NumTexts(nums: seq<int>): (r: seq<string>)
    ensures |r| == |nums|
    ensures forall i :: 0 <= i < |nums| ==> r[i] == IntToString(nums[i])
  {
    seq(|nums|, i requires 0 <= i < |nums| => IntToString(nums[i]))
  }

  /** `' '.join([char] + line)`: one line of the file. */
  function CharLine(c: char, nums: seq<int>): string {
    Join([[c]] + NumTexts(nums), " ")
  }

  /** The lines of one region: one per character of its text, all with
      the region's fields. */
  function BlockLines(r: Region, height: int, tag: int): (ls: seq<string>)
    ensures |ls| == |r.text|
    ensures forall i :: 0 <= i < |r.text| ==> ls[i] == CharLine(r.text[i], Fields(r, height, tag))
  {
    seq(|r.text|, i requires 0 <= i < |r.text| => CharLine(r.text[i], Fields(r, height, tag)))
  }

  /** A line written for a character other than a space or a newline
      reads back as that character and the same numbers. */
  lemma LineRoundTrip(c: char, nums: seq<int>)
    requires c != ' ' && c != '\n'
    ensures LstmBox.ParseLine(CharLine(c, nums)) == Success(LstmBox.Record([c], nums))
    ensures '\n' !in CharLine(c, nums) && CharLine(c, nums) != ""
  {
    var texts := NumTexts(nums);
    var line := CharLine(c, nums);
    LineTokens(c, nums);
    assert LstmBox.Tokens(line)[1..] == texts by {
      assert ([[c]] + texts)[1..] == texts;
    }
    assert LstmBox.ParseFields(texts) == Success(nums) by {
      FieldsRoundTrip(nums);
    }
    assert RemoveAll(line, "\n") == line by {
      RemoveCharAll(line, '\n');
    }
    assert TakeUntil(line, ' ') == [c] by {
      SplitFirstPiece(line, ' ');
      assert LstmBox.Tokens(line)[0] == [c];
    }
    var r := LstmBox.ParseLine(line);
    assert r.Success?;
    assert r.value.ch == [c];
    assert r.value.nums == nums;
    assert r.value == LstmBox.Record([c], nums);
  }

  /** The tokens of a written line are the character and the numbers. */
  lemma LineTokens(c: char, nums: seq<int>)
    requires c != ' ' && c != '\n'
    ensures '\n' !in CharLine(c, nums) && CharLine(c, nums) != ""
    ensures LstmBox.Tokens(CharLine(c, nums)) == [[c]] + NumTexts(nums)
  {
    var parts := [[c]] + NumTexts(nums);
    var line := Join(parts, " ");
    forall i | 0 <= i < |parts| ensures ' ' !in parts[i] && '\n' !in parts[i] {
      if i > 0 {
        IntToStringChars(nums[i - 1]);
      }
    }
    JoinAvoids(parts, " ", '\n');
    RemoveCharAll(line, '\n');
    SplitJoin(parts, ' ');
    JoinStartsWithFirst(parts, " ");
  }

  /** The written numbers read back as the numbers. */
  lemma FieldsRoundTrip(nums: seq<int>)
    ensures LstmBox.ParseFields(NumTexts(nums)) == Success(nums)
  {
    var texts := NumTexts(nums);
    forall j | 0 <= j < |texts| ensures texts[j] != "" && ParseInt(texts[j], 10) == Success(nums[j]) {
      IntToStringChars(nums[j]);
      ParseIntToString(nums[j]);
    }
    assert LstmBox.NonEmpty(texts) == texts by {
      LstmBox.NonEmptyAll(texts);
    }
    var r := LstmBox.ParseFields(texts);
    assert r.Success?;
    assert |r.value| == |nums|;
    forall j | 0 <= j < |nums| ensures r.value[j] == nums[j] {
      assert ParseInt(texts[j], 10) == Success(r.value[j]);
    }
    assert r.value == nums;
  }

  // ------------------------------------------------------------ the writer

  /** The regions in the order the file lists them, each with its tag. */
  type Emission = seq<(RegionId, int)>

  /** The regions of an emission. */
  function Ids(em: Emission): (r: seq<RegionId>)
    ensures |r| == |em| && forall i :: 0 <= i < |em| ==> r[i] == em[i].0
  {
    seq(|em|, i requires 0 <= i < |em| => em[i].0)
  }

  /** A group's members, each tagged with the group's number. */
  function Tagged(ids: seq<RegionId>, n: int): (r: Emission)
    ensures |r| == |ids| && forall i :: 0 <= i < |ids| ==> r[i] == (ids[i], n)
  {
    seq(|ids|, i requires 0 <= i < |ids| => (ids[i], n))
  }

  /** The first loop of `createLSTMBox` over the registry numbers `ks`:
      each group's members in member order, tagged with its number. A slot
      that holds None makes `group.items` raise. */
  function EmitGroups(s: Session, ks: seq<int>): (r: Result<Emission>)
    requires WellFormed(s)
    ensures r.Success? <==> forall n :: n in ks ==> Live(s, n)
    ensures r.Success? ==> forall i :: 0 <= i < |r.value| ==>
      && r.value[i].1 in ks && r.value[i].1 in s.members
      && r.value[i].0 in s.members[r.value[i].1] && r.value[i].0 in s.regions
  {
    if |ks| == 0 then Success([])
    else
      var n := ks[|ks| - 1];
      assert ks == ks[..|ks| - 1] + [n];
      match EmitGroups(s, ks[..|ks| - 1])
      case Failure(e) => Failure(e)
      case Success(em) =>
        if !Live(s, n) then Failure("AttributeError")
        else
          var t := Tagged(s.members[n], n);
          assert forall i :: 0 <= i < |t| ==> t[i].0 in s.regions by {
            forall i | 0 <= i < |t| ensures t[i].0 in s.regions {
              var y := s.members[n][i];
              assert y in s.members[n];
            }
          }
          Success(em + t)
  }

  /** The second loop over the page: every region not written yet, tagged
      0, each once. */
  function EmitRest(page: seq<RegionId>, done: seq<RegionId>): (r: Emission)
    ensures forall i :: 0 <= i < |r| ==> r[i].1 == 0
    ensures forall x :: x in Ids(r) <==> x in page && x !in done
    ensures NoDup(page) ==> Ids(r) == Without(page, set x | x in done)
  {
    if |page| == 0 then []
    else
      var p := page[..|page| - 1];
      var x := page[|page| - 1];
      assert page == p + [x];
      var em := EmitRest(p, done);
      if x in done || x in p then em
      else
        assert Ids(em + [(x, 0)]) == Ids(em) + [x];
        em + [(x, 0)]
  }

  /** The file for an emission: each region's lines, regions separated by
      a newline (a region with empty text still adds its empty block). */
  function Render(s: Session, height: int, em: Emission): string
    requires forall i :: 0 <= i < |em| ==> em[i].0 in s.regions
  {
    var blocks := RegionLines(s, height, em);
    Join(seq(|blocks|, i requires 0 <= i < |blocks| => Join(blocks[i], "\n")), "\n")
  }

  /** The lines of each region written. */
  function RegionLines(s: Session, height: int, em: Emission): (r: seq<seq<string>>)
    requires forall i :: 0 <= i < |em| ==> em[i].0 in s.regions
    ensures |r| == |em|
    ensures forall i :: 0 <= i < |em| ==> r[i] == BlockLines(s.regions[em[i].0], height, em[i].1)
  {
    seq(|em|, i requires 0 <= i < |em| => BlockLines(s.regions[em[i].0], height, em[i].1))
  }

  /** The groups' part followed by the rest of the page. */
  function WithRest(s: Session, g: Emission): (r: Emission)
    requires WellFormed(s) && forall i :: 0 <= i < |g| ==> g[i].0 in s.regions
    ensures forall i :: 0 <= i < |r| ==> r[i].0 in s.regions
  {
    var rest := EmitRest(s.bboxes, Ids(g));
    assert forall i :: 0 <= i < |rest| ==> rest[i].0 in s.regions by {
      forall i | 0 <= i < |rest| ensures rest[i].0 in s.regions {
        var y := Ids(rest)[i];
        assert y in Ids(rest);
      }
    }
    g + rest
  }

  /** The order `createLSTMBox` writes regions in, or the exception it
      raises: groups by increasing registry number, then the rest of the
      page. */
  function EmitAsWritten(s: Session): (r: Result<Emission>)
    requires WellFormed(s)
    ensures r.Success? <==> forall n :: n in s.registry ==> s.registry[n]
    ensures r.Success? ==> r.value == EmitLive(s)
  {
    var ks := SortedInts(s.registry.Keys);
    match EmitGroups(s, ks)
    case Failure(e) => Failure(e)
    case Success(g) =>
      // every slot holds a group, so the live groups are all the numbers
      IncreasingUnique(LiveGroups(s), ks);
      Success(WithRest(s, g))
  }

  /** `createLSTMBox` as written. */
  function CreateLSTMBox(s: Session, height: int): (r: Result<string>)
    requires WellFormed(s)
    ensures r.Failure? <==> exists n :: n in s.registry && !s.registry[n]
    ensures r.Success? ==> r.value == CreateLSTMBoxLive(s, height)
  {
    match EmitAsWritten(s)
    case Failure(e) => Failure(e)
    case Success(em) => Success(Render(s, height, em))
  }

  /** The corrected order: only the groups the registry still holds. */
  function EmitLive(s: Session): (r: Emission)
    requires WellFormed(s)
    ensures forall i :: 0 <= i < |r| ==> r[i].0 in s.regions
    ensures forall i :: 0 <= i < |r| ==> r[i].1 == 0 || Live(s, r[i].1)
  {
    WithRest(s, EmitGroups(s, LiveGroups(s)).value)
  }

  /** The corrected `createLSTMBox`, which never raises. */
  function CreateLSTMBoxLive(s: Session, height: int): string
    requires WellFormed(s)
  {
    Render(s, height, EmitLive(s))
  }

  /** The tag a region is written with: its group's number, or 0. */
  function TagOf(r: Region): int {
    match r.group
    case Some(n) => n
    case None => 0
  }

  /** On a valid state the groups' part lists every member of the given
      live groups once, with its own group's number, in increasing group
      order. */
  lemma {:induction false} EmitGroupsSpec(s: Session, ks: seq<int>)
    requires Valid(s) && Increasing(ks) && forall n :: n in ks ==> Live(s, n)
    ensures var g := EmitGroups(s, ks).value;
      && NoDup(Ids(g))
      && (forall x :: x in Ids(g) <==>
            x in s.regions && s.regions[x].group.Some? && s.regions[x].group.value in ks)
      && (forall i :: 0 <= i < |g| ==> s.regions[g[i].0].group == Some(g[i].1))
      && (forall i, j :: 0 <= i < j < |g| ==> g[i].1 <= g[j].1)
  {
    if |ks| > 0 {
      var p := ks[..|ks| - 1];
      var n := ks[|ks| - 1];
      assert ks == p + [n];
      assert Increasing(p);
      EmitGroupsSpec(s, p);
      var gp := EmitGroups(s, p).value;
      assert EmitGroups(s, ks).value == gp + Tagged(s.members[n], n);
      assert forall i :: 0 <= i < |gp| ==> gp[i].1 < n by {
        forall i | 0 <= i < |gp| ensures gp[i].1 < n {
          assert gp[i].1 in p;
        }
      }
      EmitGroupsStep(s, p, n, gp);
    }
  }

  /** One more group appended after smaller ones keeps the groups' part
      duplicate-free, complete and ordered. */
  lemma EmitGroupsStep(s: Session, p: seq<int>, n: int, gp: Emission)
    requires Valid(s) && Live(s, n) && n in s.members
    requires NoDup(Ids(gp))
    requires forall x :: x in Ids(gp) <==>
      x in s.regions && s.regions[x].group.Some? && s.regions[x].group.value in p
    requires forall i :: 0 <= i < |gp| ==> s.regions[gp[i].0].group == Some(gp[i].1)
    requires forall i, j :: 0 <= i < j < |gp| ==> gp[i].1 <= gp[j].1
    requires forall i :: 0 <= i < |gp| ==> gp[i].1 < n
    ensures var g := gp + Tagged(s.members[n], n);
      && NoDup(Ids(g))
      && (forall x :: x in Ids(g) <==>
            x in s.regions && s.regions[x].group.Some? && s.regions[x].group.value in p + [n])
      && (forall i :: 0 <= i < |g| ==> s.regions[g[i].0].group == Some(g[i].1))
      && (forall i, j :: 0 <= i < j < |g| ==> g[i].1 <= g[j].1)
  {
    var t := Tagged(s.members[n], n);
    var g := gp + t;
    assert GroupOk(s, n);
    assert Ids(g) == Ids(gp) + s.members[n];
    assert NoDup(Ids(g)) by {
      forall x | x in Ids(gp) ensures x !in s.members[n] {
        var i :| 0 <= i < |gp| && gp[i].0 == x;
        assert s.regions[x].group == Some(gp[i].1);
      }
      NoDupConcat(Ids(gp), s.members[n]);
    }
    forall x ensures x in Ids(g) <==>
      x in s.regions && s.regions[x].group.Some? && s.regions[x].group.value in p + [n]
    {
      if x in s.regions && s.regions[x].group == Some(n) {
        assert x in s.members[n];
      }
    }
  }

  /** The rest of the page lists each region once. */
  lemma {:induction false} EmitRestNoDup(page: seq<RegionId>, done: seq<RegionId>)
    ensures NoDup(Ids(EmitRest(page, done)))
  {
    if |page| > 0 {
      var p := page[..|page| - 1];
      var x := page[|page| - 1];
      EmitRestNoDup(p, done);
      var em := EmitRest(p, done);
      if !(x in done || x in p) {
        assert Ids(em + [(x, 0)]) == Ids(em) + [x];
        NoDupConcat(Ids(em), [x]);
      }
    }
  }

  /** The corrected export writes every page region exactly once, with its
      own group's number (0 for none): first the grouped ones by increasing
      group number, then the ungrouped ones. */
  lemma EmitLiveSpec(s: Session)
    requires Valid(s)
    ensures var em := EmitLive(s);
      && NoDup(Ids(em))
      && multiset(Ids(em)) == multiset(s.bboxes)
      && (forall i :: 0 <= i < |em| ==> em[i].1 == TagOf(s.regions[em[i].0]))
      && (forall i, j :: 0 <= i < j < |em| && em[j].1 != 0 ==> em[i].1 != 0 && em[i].1 <= em[j].1)
  {
    EmitLivePermutation(s);
    EmitLiveTags(s);
    EmitLiveOrder(s);
  }

  lemma EmitLivePermutation(s: Session)
    requires Valid(s)
    ensures NoDup(Ids(EmitLive(s))) && multiset(Ids(EmitLive(s))) == multiset(s.bboxes)
  {
    EmitLiveFacts(s);
    NoDupSameMultiset(Ids(EmitLive(s)), s.bboxes);
  }

  lemma EmitLiveFacts(s: Session)
    requires Valid(s)
    ensures var e := Ids(EmitLive(s));
      NoDup(e) && NoDup(s.bboxes) && forall x :: x in e <==> x in s.bboxes
  {
    EmitLiveNoDup(s);
    EmitLiveMembers(s);
  }

  lemma EmitLiveNoDup(s: Session)
    requires Valid(s)
    ensures NoDup(Ids(EmitLive(s)))
  {
    var live := LiveGroups(s);
    var g := EmitGroups(s, live).value;
    var rest := EmitRest(s.bboxes, Ids(g));
    assert NoDup(Ids(g)) by {
      EmitGroupsSpec(s, live);
    }
    assert NoDup(Ids(rest)) by {
      EmitRestNoDup(s.bboxes, Ids(g));
    }
    NoDupConcat(Ids(g), Ids(rest));
    assert Ids(EmitLive(s)) == Ids(g) + Ids(rest) by {
      EmitLiveShape(s);
      IdsConcat(g, rest);
    }
  }

  lemma EmitLiveMembers(s: Session)
    requires Valid(s)
    ensures forall x :: x in Ids(EmitLive(s)) <==> x in s.bboxes
  {
    var live := LiveGroups(s);
    var g := EmitGroups(s, live).value;
    var rest := EmitRest(s.bboxes, Ids(g));
    assert Ids(EmitLive(s)) == Ids(g) + Ids(rest) by {
      EmitLiveShape(s);
      IdsConcat(g, rest);
    }
    GroupedAreEmitted(s);
    forall x | x in Ids(g) ensures x in s.bboxes {
      assert x in s.regions && s.regions[x].group.Some? by {
        EmitGroupsSpec(s, live);
      }
      var n := s.regions[x].group.value;
      assert x in s.members[n];
      assert GroupOk(s, n);
    }
  }

  /** The corrected order is the groups' part and then the rest. */
  lemma EmitLiveShape(s: Session)
    requires WellFormed(s)
    ensures var g := EmitGroups(s, LiveGroups(s)).value;
      EmitLive(s) == g + EmitRest(s.bboxes, Ids(g))
  {
  }

  lemma IdsConcat(a: Emission, b: Emission)
    ensures Ids(a + b) == Ids(a) + Ids(b)
  {
  }

  lemma EmitLiveTags(s: Session)
    requires Valid(s)
    ensures var em := EmitLive(s);
      forall i :: 0 <= i < |em| ==> em[i].1 == TagOf(s.regions[em[i].0])
  {
    var live := LiveGroups(s);
    EmitGroupsSpec(s, live);
    var g := EmitGroups(s, live).value;
    var rest := EmitRest(s.bboxes, Ids(g));
    var em := g + rest;
    assert EmitLive(s) == em;
    GroupedAreEmitted(s);
    forall i | 0 <= i < |em| ensures em[i].1 == TagOf(s.regions[em[i].0]) {
      if i >= |g| {
        var x := em[i].0;
        assert x == Ids(rest)[i - |g|];
        assert x in Ids(rest);
      }
    }
  }

  /** Every grouped page region is in the groups' part. */
  lemma GroupedAreEmitted(s: Session)
    requires Valid(s)
    ensures forall x :: x in s.bboxes && s.regions[x].group.Some? ==>
      x in Ids(EmitGroups(s, LiveGroups(s)).value)
  {
    var live := LiveGroups(s);
    EmitGroupsSpec(s, live);
    forall x | x in s.bboxes && s.regions[x].group.Some?
      ensures x in Ids(EmitGroups(s, live).value)
    {
      var n := s.regions[x].group.value;
      assert x in s.members[n];
      assert GroupOk(s, n);
    }
  }

  lemma EmitLiveOrder(s: Session)
    requires Valid(s)
    ensures var em := EmitLive(s);
      forall i, j :: 0 <= i < j < |em| && em[j].1 != 0 ==> em[i].1 != 0 && em[i].1 <= em[j].1
  {
    var live := LiveGroups(s);
    EmitGroupsSpec(s, live);
    var g := EmitGroups(s, live).value;
    var rest := EmitRest(s.bboxes, Ids(g));
    var em := g + rest;
    assert EmitLive(s) == em;
    forall i | 0 <= i < |g| ensures g[i].1 >= 1 {
      assert g[i].1 in s.members;
    }
  }

  // ------------------------------------------------- order within the file

  /** The regions an emission writes with tag `n`, in file order. */
  function TaggedWith(em: Emission, n: int): seq<RegionId> {
    if |em| == 0 then []
    else TaggedWith(em[..|em| - 1], n) + (if em[|em| - 1].1 == n then [em[|em| - 1].0] else [])
  }

  lemma {:induction false} TaggedWithConcat(a: Emission, b: Emission, n: int)
    ensures TaggedWith(a + b, n) == TaggedWith(a, n) + TaggedWith(b, n)
    decreases |b|
  {
    if |b| == 0 {
      assert a + b == a;
    } else {
      var b' := b[..|b| - 1];
      assert (a + b)[..|a + b| - 1] == a + b';
      TaggedWithConcat(a, b', n);
    }
  }

  lemma {:induction false} TaggedWithTagged(ids: seq<RegionId>, m: int, n: int)
    ensures TaggedWith(Tagged(ids, m), n) == if m == n then ids else []
  {
    if |ids| > 0 {
      var p := ids[..|ids| - 1];
      assert Tagged(ids, m)[..|ids| - 1] == Tagged(p, m);
      TaggedWithTagged(p, m, n);
      assert ids == p + [ids[|ids| - 1]];
    }
  }

  lemma {:induction false} TaggedWithNone(em: Emission, n: int)
    requires forall i :: 0 <= i < |em| ==> em[i].1 != n
    ensures TaggedWith(em, n) == []
  {
    if |em| > 0 {
      TaggedWithNone(em[..|em| - 1], n);
    }
  }

  /** The groups' part writes the members of each group it covers in the
      group's own member order. */
  lemma {:induction false} TaggedWithGroups(s: Session, ks: seq<int>, n: int)
    requires WellFormed(s) && Increasing(ks) && forall k :: k in ks ==> Live(s, k)
    ensures TaggedWith(EmitGroups(s, ks).value, n) == if n in ks then s.members[n] else []
  {
    if |ks| > 0 {
      var p := ks[..|ks| - 1];
      var k := ks[|ks| - 1];
      assert ks == p + [k];
      assert Increasing(p);
      var gp := EmitGroups(s, p).value;
      assert EmitGroups(s, ks).value == gp + Tagged(s.members[k], k);
      TaggedWithConcat(gp, Tagged(s.members[k], k), n);
      TaggedWithTagged(s.members[k], k, n);
      if n == k {
        assert n !in p;
        TaggedWithNone(gp, n);
      } else {
        TaggedWithGroups(s, p, n);
      }
    }
  }

  /** The rest of the page is all tagged 0. */
  lemma {:induction false} TaggedWithRest(page: seq<RegionId>, done: seq<RegionId>, n: int)
    ensures TaggedWith(EmitRest(page, done), n) == if n == 0 then Ids(EmitRest(page, done)) else []
  {
    var em := EmitRest(page, done);
    if n == 0 {
      TaggedWithZero(em);
    } else {
      TaggedWithNone(em, n);
    }
  }

  lemma {:induction false} TaggedWithZero(em: Emission)
    requires forall i :: 0 <= i < |em| ==> em[i].1 == 0
    ensures TaggedWith(em, 0) == Ids(em)
  {
    if |em| > 0 {
      var p := em[..|em| - 1];
      TaggedWithZero(p);
      assert Ids(em) == Ids(p) + [em[|em| - 1].0];
    }
  }

  /** On a valid state the corrected file lists the members of each live
      group in the group's member order. */
  lemma EmitLiveGroupOrder(s: Session, n: int)
    requires Valid(s) && Live(s, n)
    ensures TaggedWith(EmitLive(s), n) == s.members[n]
  {
    var live := LiveGroups(s);
    var g := EmitGroups(s, live).value;
    var rest := EmitRest(s.bboxes, Ids(g));
    EmitLiveShape(s);
    TaggedWithConcat(g, rest, n);
    TaggedWithGroups(s, live, n);
    assert n != 0;
    TaggedWithRest(s.bboxes, Ids(g), n);
  }

  /** On a valid state the corrected file lists the ungrouped page regions,
      tagged 0, in page order. */
  lemma EmitLiveRestOrder(s: Session)
    requires Valid(s)
    ensures TaggedWith(EmitLive(s), 0) ==
      Without(s.bboxes, set x | x in s.regions && s.regions[x].group.Some?)
  {
    var g := EmitGroups(s, LiveGroups(s)).value;
    var rest := EmitRest(s.bboxes, Ids(g));
    assert TaggedWith(EmitLive(s), 0) == Ids(rest) by {
      ZeroTagIsRest(s);
    }
    var done := set y | y in Ids(g);
    var grouped := set y | y in s.regions && s.regions[y].group.Some?;
    assert Ids(rest) == Without(s.bboxes, done);
    assert forall x :: x in s.bboxes ==> (x in done <==> x in grouped) by {
      GroupedPart(s);
    }
    WithoutSameOn(s.bboxes, done, grouped);
  }

  /** The regions tagged 0 are the rest of the page. */
  lemma ZeroTagIsRest(s: Session)
    requires Valid(s)
    ensures var g := EmitGroups(s, LiveGroups(s)).value;
      TaggedWith(EmitLive(s), 0) == Ids(EmitRest(s.bboxes, Ids(g)))
  {
    var live := LiveGroups(s);
    var g := EmitGroups(s, live).value;
    var rest := EmitRest(s.bboxes, Ids(g));
    EmitLiveShape(s);
    TaggedWithConcat(g, rest, 0);
    assert 0 !in live by {
      assert !Live(s, 0);
    }
    TaggedWithGroups(s, live, 0);
    TaggedWithRest(s.bboxes, Ids(g), 0);
  }

  /** A page region is in the groups' part exactly when it has a group. */
  lemma GroupedPart(s: Session)
    requires Valid(s)
    ensures var g := EmitGroups(s, LiveGroups(s)).value;
      forall x :: x in s.bboxes ==> (x in Ids(g) <==> s.regions[x].group.Some?)
  {
    GroupedAreEmitted(s);
    EmitGroupsSpec(s, LiveGroups(s));
  }

  /** A page of one region in group 1 and the page after that region is
      taken out of its group, which disbands the emptied group. */
  const Ungrouped: Session :=
    Session([1], map[1 := Region("a", 0, 0, 1, 1, false, None)], map[1 := []], map[1 := false], 2)

  lemma UngroupedValid()
    ensures Valid(Ungrouped)
  {
  }

  lemma UngroupedReached()
    ensures RemoveSelectedFromGroup(GroupedOne, [1]) == Success(Ungrouped)
  {
    var s := GroupedOne;
    assert RemoveSelectedFromGroup(s, [1]) == DetachStep(s, 1) by {
      assert [1][..0] == [];
      assert RemoveSelectedFromGroup(s, []) == Success(s);
    }
    DetachGroupedOne();
  }

  /** Taking the only member out of group 1 disbands it. */
  lemma DetachGroupedOne()
    ensures DetachStep(GroupedOne, 1) == Success(Ungrouped)
  {
    GroupedOneShape();
    DetachSoleMember(GroupedOne, 1, 1);
    UngroupedIsDetached();
  }

  lemma GroupedOneShape()
    ensures WellFormed(GroupedOne) && 1 in GroupedOne.regions && GroupedOne.regions[1].group == Some(1)
    ensures 1 in GroupedOne.members && GroupedOne.members[1] == [1]
  {
    GroupedOneValid();
  }

  lemma UngroupedIsDetached()
    ensures var s := GroupedOne;
      s.(members := s.members[1 := []],
         regions := s.regions[1 := s.regions[1].(group := None)],
         registry := s.registry[1 := false]) == Ungrouped
  {
    var s := GroupedOne;
    assert s.members[1 := []] == Ungrouped.members;
    assert s.regions[1 := s.regions[1].(group := None)] == Ungrouped.regions;
    assert s.registry[1 := false] == Ungrouped.registry;
  }

  /** Detaching a group's only member clears its back-reference, empties
      the group and disbands it. */
  lemma DetachSoleMember(s: Session, x: RegionId, n: int)
    requires WellFormed(s) && x in s.regions && s.regions[x].group == Some(n)
    requires n in s.members && s.members[n] == [x]
    ensures DetachStep(s, x) == Success(s.(members := s.members[n := []],
                                           regions := s.regions[x := s.regions[x].(group := None)],
                                           registry := s.registry[n := false]))
  {
    assert RemoveFirst(s.members[n], x) == [] by {
      assert |RemoveFirst(s.members[n], x)| == 0;
    }
  }

  /** After that, the export as written raises, while the corrected one
      writes the region as ungrouped. */
  lemma ExportAfterUngrouping(height: int)
    ensures CreateLSTMBox(Ungrouped, height).Failure?
    ensures EmitLive(Ungrouped) == [(1, 0)]
  {
    UngroupedShape();
    UngroupedEmits();
  }

  lemma UngroupedShape()
    ensures WellFormed(Ungrouped) && 1 in Ungrouped.registry && !Ungrouped.registry[1]
    ensures forall n :: n in Ungrouped.registry ==> !Ungrouped.registry[n]
  {
    UngroupedValid();
  }

  lemma UngroupedEmits()
    ensures WellFormed(Ungrouped) && EmitLive(Ungrouped) == [(1, 0)]
  {
    UngroupedShape();
    NoLiveEmitsRest(Ungrouped);
    OneRest();
  }

  /** With no live group the corrected export is the page in order. */
  lemma NoLiveEmitsRest(s: Session)
    requires WellFormed(s) && forall n :: n in s.registry ==> !s.registry[n]
    ensures EmitLive(s) == EmitRest(s.bboxes, [])
  {
    NothingLive(s);
    assert EmitGroups(s, []) == Success([]);
    assert Ids([]) == [];
  }

  lemma OneRest()
    ensures EmitRest([1], []) == [(1, 0)]
  {
    assert [1][..0] == [];
  }

  lemma NothingLive(s: Session)
    requires forall n :: n in s.registry ==> !s.registry[n]
    ensures LiveGroups(s) == []
  {
    SelectNone(SortedInts(s.registry.Keys), set n | n in s.registry && s.registry[n]);
  }

  // ------------------------------------------------------- reading it back

  /** The records a region's lines stand for: one per character. */
  function CharRecords(r: Region, height: int, tag: int): (rs: seq<LstmBox.Record>)
    ensures |rs| == |r.text|
    ensures forall k :: 0 <= k < |r.text| ==> rs[k] == LstmBox.Record([r.text[k]], Fields(r, height, tag))
  {
    seq(|r.text|, k requires 0 <= k < |r.text| => LstmBox.Record([r.text[k]], Fields(r, height, tag)))
  }

  /** The records of each region written. */
  function RegionRecords(s: Session, height: int, em: Emission): (r: seq<seq<LstmBox.Record>>)
    requires forall i :: 0 <= i < |em| ==> em[i].0 in s.regions
    ensures |r| == |em|
    ensures forall i :: 0 <= i < |em| ==> r[i] == CharRecords(s.regions[em[i].0], height, em[i].1)
  {
    seq(|em|, i requires 0 <= i < |em| => CharRecords(s.regions[em[i].0], height, em[i].1))
  }

  /** Every region written has text, and none of its characters is a
      space, a newline or a carriage return. The line format cannot carry
      the first two, and reading in text mode ends a line at a carriage
      return as well. */
  predicate Writable(s: Session, em: Emission) {
    forall i :: 0 <= i < |em| ==>
      && em[i].0 in s.regions
      && |s.regions[em[i].0].text| > 0
      && ' ' !in s.regions[em[i].0].text
      && '\n' !in s.regions[em[i].0].text
      && '\r' !in s.regions[em[i].0].text
  }

  /** What `createLSTMBox` writes, read back by `parseBox`, is one record
      per character, region after region, each with its region's box and
      tag. */
  lemma ExportReadsBack(s: Session, height: int, em: Emission)
    requires Writable(s, em)
    ensures LstmBox.ParseBox(ReadLines(Render(s, height, em)))
         == Success(Flatten(RegionRecords(s, height, em)))
  {
    if |em| == 0 {
      assert Render(s, height, em) == "";
    } else {
      RenderReadsLines(s, height, em);
      LinesParse(s, height, em);
    }
  }

  /** Splitting the written text at newlines gives back its lines. */
  lemma RenderReadsLines(s: Session, height: int, em: Emission)
    requires Writable(s, em) && |em| > 0
    ensures ReadLines(Render(s, height, em)) == Flatten(RegionLines(s, height, em))
  {
    var blocks := RegionLines(s, height, em);
    var lines := Flatten(blocks);
    assert Render(s, height, em) == Join(lines, "\n") by {
      JoinFlatten(blocks, "\n");
    }
    assert forall j :: 0 <= j < |lines| ==> '\n' !in lines[j] && lines[j] != "" by {
      BlocksParse(s, height, em);
      FlattenParse(blocks, RegionRecords(s, height, em));
    }
    FlattenNonEmpty(blocks);
    ReadJoinedLines(lines);
  }

  /** The written lines parse to the regions' records. */
  lemma LinesParse(s: Session, height: int, em: Emission)
    requires Writable(s, em)
    ensures LstmBox.ParseBox(Flatten(RegionLines(s, height, em)))
         == Success(Flatten(RegionRecords(s, height, em)))
  {
    var lines := Flatten(RegionLines(s, height, em));
    var recs := Flatten(RegionRecords(s, height, em));
    BlocksParse(s, height, em);
    FlattenParse(RegionLines(s, height, em), RegionRecords(s, height, em));
    ParsePointwise(lines, recs);
  }

  /** Lines that each parse to their record parse together to the records. */
  lemma ParsePointwise(lines: seq<string>, recs: seq<LstmBox.Record>)
    requires |lines| == |recs|
    requires forall j :: 0 <= j < |lines| ==> LstmBox.ParseLine(lines[j]) == Success(recs[j])
    ensures LstmBox.ParseBox(lines) == Success(recs)
  {
    var parsed := LstmBox.ParseBox(lines);
    assert parsed.Success?;
    assert parsed.value == recs;
  }

  /** Each line parses to the record beside it and is a non-empty line
      without a newline. */
  ghost predicate ParsesTo(lines: seq<string>, recs: seq<LstmBox.Record>) {
    && |lines| == |recs|
    && forall j :: 0 <= j < |lines| ==>
         && LstmBox.ParseLine(lines[j]) == Success(recs[j])
         && '\n' !in lines[j] && lines[j] != ""
  }

  /** Each region's lines parse to its records. */
  lemma BlocksParse(s: Session, height: int, em: Emission)
    requires Writable(s, em)
    ensures var blocks := RegionLines(s, height, em);
      var recs := RegionRecords(s, height, em);
      |blocks| == |recs| && forall i :: 0 <= i < |blocks| ==> ParsesTo(blocks[i], recs[i])
  {
    var blocks := RegionLines(s, height, em);
    var recs := RegionRecords(s, height, em);
    forall i | 0 <= i < |blocks| ensures ParsesTo(blocks[i], recs[i]) {
      forall k | 0 <= k < |blocks[i]|
        ensures && LstmBox.ParseLine(blocks[i][k]) == Success(recs[i][k])
                && '\n' !in blocks[i][k] && blocks[i][k] != ""
      {
        var r := s.regions[em[i].0];
        assert r.text[k] in r.text;
        LineRoundTrip(r.text[k], Fields(r, height, em[i].1));
      }
    }
  }

  /** Flattening keeps lines and records paired. */
  lemma {:induction false} FlattenParse(a: seq<seq<string>>, b: seq<seq<LstmBox.Record>>)
    requires |a| == |b| && forall i :: 0 <= i < |a| ==> ParsesTo(a[i], b[i])
    ensures ParsesTo(Flatten(a), Flatten(b))
  {
    if |a| > 0 {
      var a' := a[..|a| - 1];
      var b' := b[..|b| - 1];
      FlattenParse(a', b');
      assert Flatten(a) == Flatten(a') + a[|a| - 1];
      assert Flatten(b) == Flatten(b') + b[|b| - 1];
      ParsesConcat(Flatten(a'), Flatten(b'), a[|a| - 1], b[|b| - 1]);
    }
  }

  lemma ParsesConcat(l1: seq<string>, r1: seq<LstmBox.Record>, l2: seq<string>, r2: seq<LstmBox.Record>)
    requires ParsesTo(l1, r1) && ParsesTo(l2, r2)
    ensures ParsesTo(l1 + l2, r1 + r2)
  {
    var l := l1 + l2;
    var r := r1 + r2;
    forall j | 0 <= j < |l|
      ensures && LstmBox.ParseLine(l[j]) == Success(r[j])
              && '\n' !in l[j] && l[j] != ""
    {
      if j < |l1| {
        assert l[j] == l1[j] && r[j] == r1[j];
      } else {
        assert l[j] == l2[j - |l1|] && r[j] == r2[j - |l1|];
      }
    }
  }

}

=== FILE: change_check.dfy ===
/** `RetCom.checkLSTMBoxChange` (retcom.py): before closing, the box file
    on disk is compared with what `createLSTMBox` would write now. A
    missing file counts as a change; a text longer in UTF-8 than
    `changeCheckThreshold` bytes is reported changed without comparing. */
module ChangeCheck {
  import opened Wrappers
  import opened Regions
  import BoxIO

  /** Bytes of one character in UTF-8. */
  function Utf8Width(c: char): nat {
    var n := c as int;
    if n < 0x80 then 1 else if n < 0x800 then 2 else if n < 0x10000 then 3 else 4
  }

  /** `len(text.encode('utf-8'))`. */
  function Utf8Length(s: string): nat {
    if |s| == 0 then 0 else Utf8Length(s[..|s| - 1]) + Utf8Width(s[|s| - 1])
  }

  /** A text takes one to four bytes per character, and exactly one per
      character when it is ASCII. */
  lemma {:induction false} Utf8LengthBounds(s: string)
    ensures |s| <= Utf8Length(s) <= 4 * |s|
    ensures Utf8Length(s) == |s| <==> forall i :: 0 <= i < |s| ==> s[i] as int < 0x80
  {
    if |s| > 0 {
      var p := s[..|s| - 1];
      Utf8LengthBounds(p);
      assert forall i :: 0 <= i < |p| ==> p[i] == s[i];
    }
  }

  /** The first value `checkLSTMBoxChange` returns: "New file.", the
      `difflib.ndiff` of the two texts, the empty string, or the notice
      that the file is too large to compare. */
  datatype Message = NewFile | Diff(before: string, after: string) | NoChange | TooLarge

  datatype Report = Report(message: Message, changed: bool)

  /** `checkLSTMBoxChange`, given the file's contents (None when opening it
      raises OSError). An exception from `createLSTMBox` is not caught.

      The check fails only when a file exists and some registry slot is
      empty; it reports "unchanged" exactly when the file holds what would
      be written and that text is within the threshold, so a difference is
      never reported as no change. */
  function CheckLSTMBoxChange(s: Session, height: int, current: Option<string>, threshold: int): (r: Result<Report>)
    requires WellFormed(s)
    ensures r.Failure? <==> current.Some? && exists n :: n in s.registry && !s.registry[n]
    ensures r.Success? && !r.value.changed <==>
      && current.Some?
      && BoxIO.CreateLSTMBox(s, height) == Success(current.value)
      && Utf8Length(current.value) <= threshold
    ensures r.Success? && r.value.message.Diff? ==>
      && current == Some(r.value.message.before)
      && BoxIO.CreateLSTMBox(s, height) == Success(r.value.message.after)
      && r.value.message.before != r.value.message.after
  {
    match current
    case None => Success(Report(NewFile, true))
    case Some(onDisk) =>
      match BoxIO.CreateLSTMBox(s, height)
      case Failure(e) => Failure(e)
      case Success(now) =>
        if Utf8Length(now) <= threshold then
          if now != onDisk then Success(Report(Diff(onDisk, now), true))
          else Success(Report(NoChange, false))
        else Success(Report(TooLarge, true))
  }
}

=== FILE: collation.dfy ===
/** Collation in retcom.py: a group's texts joined with the configured
    `collationString` (`collateTextEvent`), and the collation of every live
    group of the scene, in group-number order, separated by blank lines
    (`CollationWindow.fetchCollation`). Filler placeholders contribute no
    text.
 */
module Collation {
  import opened Seqs
  import opened Strs
  import opened Regions
  import opened FontSpecs

  /** The regions whose text is the filler. */
  function Fillers(s: Session): set<RegionId> {
    set x | x in s.regions && s.regions[x].text == FillerText
  }

  /** The loop over a group's items: each text that is not the filler is
      appended to `lines`. */
  function Lines(s: Session, ids: seq<RegionId>): (r: seq<string>)
    requires forall x :: x in ids ==> x in s.regions
    ensures |r| <= |ids|
    ensures forall i :: 0 <= i < |r| ==> r[i] != FillerText
  {
    if |ids| == 0 then []
    else
      var x := ids[|ids| - 1];
      assert x in ids;
      assert x in s.regions;
      var t := s.regions[x].text;
      Lines(s, ids[..|ids| - 1]) + (if t != FillerText then [t] else [])
  }

  /** The texts of `ids` in order. */
  function Texts(s: Session, ids: seq<RegionId>): (r: seq<string>)
    requires forall x :: x in ids ==> x in s.regions
    ensures |r| == |ids| && forall i :: 0 <= i < |ids| ==> ids[i] in s.regions && r[i] == s.regions[ids[i]].text
  {
    assert forall i :: 0 <= i < |ids| ==> ids[i] in s.regions by {
      forall i | 0 <= i < |ids| ensures ids[i] in s.regions {
        var x := ids[i];
        assert x in ids;
      }
    }
    seq(|ids|, i requires 0 <= i < |ids| => s.regions[ids[i]].text)
  }

  /** The collated lines are exactly the texts of the members that are not
      filler placeholders, in member order. */
  lemma {:induction false} LinesAreNonFillerTexts(s: Session, ids: seq<RegionId>)
    requires forall x :: x in ids ==> x in s.regions
    ensures Lines(s, ids) == Texts(s, Without(ids, Fillers(s)))
  {
    if |ids| > 0 {
      var p := ids[..|ids| - 1];
      var x := ids[|ids| - 1];
      LinesAreNonFillerTexts(s, p);
      var w := Without(p, Fillers(s));
      assert ids[..|ids| - 1] == p;
      if s.regions[x].text != FillerText {
        assert Without(ids, Fillers(s)) == w + [x];
      } else {
        assert x in Fillers(s);
        assert Without(ids, Fillers(s)) == w;
      }
    }
  }

  /** `collateTextEvent` for group n: the texts of the group's members
      that are not fillers, in member order, joined by `sep`. */
  function Collate(s: Session, n: int, sep: string): (r: string)
    requires WellFormed(s) && n in s.members
    ensures r == Join(Texts(s, Without(s.members[n], Fillers(s))), sep)
  {
    LinesAreNonFillerTexts(s, s.members[n]);
    Join(Lines(s, s.members[n]), sep)
  }

  /** With a one-character collation string that no collated text contains,
      the collation splits back into the group's non-filler texts. */
  lemma CollateSplits(s: Session, n: int, c: char)
    requires WellFormed(s) && n in s.members
    requires forall x :: x in s.members[n] ==> c !in s.regions[x].text
    requires exists x :: x in s.members[n] && s.regions[x].text != FillerText
    ensures SplitOn(Collate(s, n, [c]), c) == Texts(s, Without(s.members[n], Fillers(s)))
  {
    LinesSplit(s, s.members[n], c);
  }

  lemma LinesSplit(s: Session, ids: seq<RegionId>, c: char)
    requires forall x :: x in ids ==> x in s.regions && c !in s.regions[x].text
    requires exists x :: x in ids && s.regions[x].text != FillerText
    ensures SplitOn(Join(Lines(s, ids), [c]), c) == Texts(s, Without(ids, Fillers(s)))
  {
    LinesAreNonFillerTexts(s, ids);
    var t := Texts(s, Without(ids, Fillers(s)));
    NonFillerTextsFree(s, ids, c);
    SplitJoin(t, c);
    assert Lines(s, ids) == t;
  }

  /** The non-filler texts are at least one and none contains `c`. */
  lemma NonFillerTextsFree(s: Session, ids: seq<RegionId>, c: char)
    requires forall x :: x in ids ==> x in s.regions && c !in s.regions[x].text
    requires exists x :: x in ids && s.regions[x].text != FillerText
    ensures var t := Texts(s, Without(ids, Fillers(s)));
      |t| >= 1 && forall i :: 0 <= i < |t| ==> c !in t[i]
  {
    var w := Without(ids, Fillers(s));
    var x :| x in ids && s.regions[x].text != FillerText;
    assert x in w;
    forall i | 0 <= i < |w| ensures w[i] in s.regions && c !in s.regions[w[i]].text {
      var y := w[i];
      assert y in w;
      assert y in ids;
    }
  }

  /** The `fetchCollation` loop over the registry keys `ks`: every key whose
      slot still holds a group contributes that group's collation, also an
      empty one. */
  function CollateLoop(s: Session, ks: seq<int>, sep: string): (r: seq<string>)
    requires WellFormed(s) && forall n :: n in ks ==> n in s.registry
    ensures |r| <= |ks|
  {
    if |ks| == 0 then []
    else
      var n := ks[|ks| - 1];
      CollateLoop(s, ks[..|ks| - 1], sep) + (if Live(s, n) then [Collate(s, n, sep)] else [])
  }

  /** Each live group's collation, in increasing group number. */
  function LiveCollations(s: Session, sep: string): (r: seq<string>)
    requires WellFormed(s)
  {
    var live := LiveGroups(s);
    seq(|live|, i requires 0 <= i < |live| => Collate(s, live[i], sep))
  }

  /** `fetchCollation`: one block per live group, in increasing group
      number, each that group's own collation, joined by blank lines. */
  function FetchCollation(s: Session, sep: string): (r: string)
    requires WellFormed(s)
    ensures r == Join(LiveCollations(s, sep), "\n\n")
  {
    var blocks := CollateLoop(s, SortedInts(s.registry.Keys), sep);
    CollateLoopSelects(s, SortedInts(s.registry.Keys), sep);
    assert blocks == LiveCollations(s, sep);
    Join(blocks, "\n\n")
  }

  /** The loop collates exactly the live keys, in the keys' order. */
  lemma {:induction false} CollateLoopSelects(s: Session, ks: seq<int>, sep: string)
    requires WellFormed(s) && forall n :: n in ks ==> n in s.registry
    ensures var live := Select(ks, set n | n in s.registry && s.registry[n]);
      var blocks := CollateLoop(s, ks, sep);
      && |blocks| == |live|
      && forall i :: 0 <= i < |live| ==> live[i] in s.members && blocks[i] == Collate(s, live[i], sep)
  {
    if |ks| > 0 {
      CollateLoopSelects(s, ks[..|ks| - 1], sep);
    }
  }

  /** On a valid state the groups are numbered 1 .. counter-1, so the
      collation visits the live ones among them in counting order. */
  lemma LiveGroupsValid(s: Session)
    requires Valid(s)
    ensures LiveGroups(s) == Select(seq(s.counter - 1, i => i + 1), set n | n in s.registry && s.registry[n])
  {
    SortedRange(s.registry.Keys, s.counter);
  }
}

=== FILE: config.dfy ===
/** Settings helpers of retcom.py: `RetComConfig.hex2int`, which reads the
    colour codes of the configuration file, the default of
    `changeCheckThreshold`, and `BoundingBox.updateFill`, which picks the
    brush a region is painted with. */
module Config {
  import opened Wrappers
  import opened Strs
  import opened PyInt
  import opened FontSpecs

  /** A non-empty string of hexadecimal digits. */
  predicate HexDigits(d: string) {
    |d| > 0 && forall i :: 0 <= i < |d| ==> IsDigit(d[i], 16)
  }

  /** `hex2int`: every `0x` and then every `#` is removed, and the rest is
      read by `int(…, 16)`. A colour written `#` or `0x` followed by
      hexadecimal digits reads as the value of the digits. */
  function Hex2Int(s: string): (r: Result<int>)
    ensures |s| > 1 && s[0] == '#' && HexDigits(s[1..]) ==> r == Success(DigitsValue(s[1..], 16))
    ensures |s| > 2 && s[..2] == "0x" && HexDigits(s[2..]) ==> r == Success(DigitsValue(s[2..], 16))
  {
    if |s| > 1 && s[0] == '#' && HexDigits(s[1..]) then
      assert s == "#" + s[1..];
      ColourDigits(s[1..]);
      ParseInt(RemoveAll(RemoveAll(s, "0x"), "#"), 16)
    else if |s| > 2 && s[..2] == "0x" && HexDigits(s[2..]) then
      assert s == "0x" + s[2..];
      ColourDigits(s[2..]);
      ParseInt(RemoveAll(RemoveAll(s, "0x"), "#"), 16)
    else
      ParseInt(RemoveAll(RemoveAll(s, "0x"), "#"), 16)
  }

  /** What `hex2int` reads for a colour code after taking out the prefix. */
  lemma ColourDigits(d: string)
    requires HexDigits(d)
    ensures ParseInt(RemoveAll(RemoveAll("#" + d, "0x"), "#"), 16) == Success(DigitsValue(d, 16))
    ensures ParseInt(RemoveAll(RemoveAll("0x" + d, "0x"), "#"), 16) == Success(DigitsValue(d, 16))
  {
    assert 'x' !in d && '#' !in d by {
      forall i | 0 <= i < |d| ensures d[i] != 'x' && d[i] != '#' {
        assert IsDigit(d[i], 16);
      }
    }
    ParseHexDigits(d);
    RemoveCharAll(d, '#');
    // "#" + d: no `0x` to remove, then the leading `#` goes.
    RemoveAllMissing("#" + d, "0x", 1);
    RemoveAllLeading("#", d);
    // "0x" + d: the leading `0x` goes, and there is no other.
    RemoveAllLeading("0x", d);
    RemoveAllMissing(d, "0x", 1);
  }

  /** `int(7e3)`: the threshold used when the setting is absent or zero. */
  const DefaultChangeCheckThreshold: int := 7000

  /** `changeCheckThreshold`: the configured value when it is truthy, so
      the threshold in force is never 0. */
  function ChangeCheckThreshold(setting: Option<int>): (t: int)
    ensures t != 0
    ensures setting.Some? && setting.value != 0 ==> t == setting.value
    ensures setting.None? ==> t == DefaultChangeCheckThreshold
  {
    if setting.Some? && setting.value != 0 then setting.value else DefaultChangeCheckThreshold
  }

  /** The configured brushes a region can be painted with. */
  datatype Brush = SelectedBrush | FillerBrush | FlaggedBrush | BoundingBrush

  /** `updateFill`: selection first, then the filler, then the flag. */
  function UpdateFill(selected: bool, text: string, flagged: bool): (b: Brush)
    ensures b == SelectedBrush <==> selected
    ensures b == FillerBrush <==> !selected && text == FillerText
    ensures b == FlaggedBrush <==> !selected && text != FillerText && flagged
  {
    if selected then SelectedBrush
    else if text == FillerText then FillerBrush
    else if flagged then FlaggedBrush
    else BoundingBrush
  }
}

=== FILE: fontspecs.dfy ===
/** The half-width/full-width conversion of fontspecs.py: two tables built
    from the printable ASCII range and applied with Python's `str.translate`.
 */
module FontSpecs {

  /** `range(0x21, 0x7F)`: the printable ASCII characters except space. */
  const HalfLow: int := 0x21
  const HalfHigh: int := 0x7F

  /** The distance between an ASCII character and its full-width form. */
  const Offset: int := 0xFEE0

  /** The filler sentinel U+241F that marks a placeholder region. */
  const Filler: char := '␟'

  /** The text of a filler placeholder region. */
  const FillerText: string := [Filler]

  /** A code point Dafny can hold in a `char` (a Unicode scalar value). */
  predicate IsScalar(n: int) {
    0 <= n < 0xD800 || 0xE000 <= n < 0x11_0000
  }

  /** A `str.translate` table whose every target is a character. */
  ghost predicate ValidTable(t: map<int, int>) {
    forall k :: k in t ==> IsScalar(t[k])
  }

  /** `HALF2FULLWIDTH`: code point i maps to i + 0xFEE0. */
  const HalfToFullTable: map<int, int> := map i | HalfLow <= i < HalfHigh :: i + Offset

  /** `FULL2HALFWIDTH`: code point i + 0xFEE0 maps back to i for every i
      of the same range, written here with the full-width code point as the
      bound variable. */
  const FullToHalfTable: map<int, int> := map k | HalfLow + Offset <= k < HalfHigh + Offset :: k - Offset

  /** Python's `str.translate` on one character: a mapped code point is
      replaced, any other character is kept. */
  function TranslateChar(c: char, t: map<int, int>): char
    requires ValidTable(t)
  {
    if c as int in t then t[c as int] as char else c
  }

  /** Python's `str.translate(table)` for an integer-to-integer table. */
  function Translate(s: string, t: map<int, int>): (r: string)
    requires ValidTable(t)
    ensures |r| == |s|
    ensures forall i :: 0 <= i < |s| ==> r[i] == TranslateChar(s[i], t)
  {
    if |s| == 0 then "" else [TranslateChar(s[0], t)] + Translate(s[1..], t)
  }

  /** The keys and targets of `FULL2HALFWIDTH`. */
  lemma FullToHalfEntry(k: int)
    ensures k in FullToHalfTable <==> HalfLow + Offset <= k < HalfHigh + Offset
    ensures k in FullToHalfTable ==> FullToHalfTable[k] == k - Offset
  {
  }

  /** Both tables only produce characters, and they invert each other. */
  lemma TablesAreInverse()
    ensures ValidTable(HalfToFullTable) && ValidTable(FullToHalfTable)
    ensures forall k :: k in HalfToFullTable ==> HalfToFullTable[k] in FullToHalfTable && FullToHalfTable[HalfToFullTable[k]] == k
    ensures forall k :: k in FullToHalfTable ==> FullToHalfTable[k] in HalfToFullTable && HalfToFullTable[FullToHalfTable[k]] == k
  {
    forall k | k in FullToHalfTable
      ensures IsScalar(FullToHalfTable[k])
      ensures FullToHalfTable[k] in HalfToFullTable && HalfToFullTable[FullToHalfTable[k]] == k
    {
      FullToHalfEntry(k);
    }
    forall k | k in HalfToFullTable
      ensures HalfToFullTable[k] in FullToHalfTable && FullToHalfTable[HalfToFullTable[k]] == k
    {
      FullToHalfEntry(HalfToFullTable[k]);
    }
  }

  predicate IsHalfWidth(c: char) {
    HalfLow <= c as int < HalfHigh
  }

  predicate IsFullWidth(c: char) {
    HalfLow + Offset <= c as int < HalfHigh + Offset
  }

  /** `half2fullWidth(txt)`. */
  function Half2FullWidth(s: string): (r: string)
    ensures |r| == |s|
    ensures forall i :: 0 <= i < |s| && IsHalfWidth(s[i]) ==> r[i] as int == s[i] as int + Offset
    ensures forall i :: 0 <= i < |s| && !IsHalfWidth(s[i]) ==> r[i] == s[i]
  {
    TablesAreInverse();
    Translate(s, HalfToFullTable)
  }

  /** `full2halfWidth(txt)`. */
  function Full2HalfWidth(s: string): (r: string)
    ensures |r| == |s|
    ensures forall i :: 0 <= i < |s| && IsFullWidth(s[i]) ==> r[i] as int == s[i] as int - Offset
    ensures forall i :: 0 <= i < |s| && !IsFullWidth(s[i]) ==> r[i] == s[i]
  {
    TablesAreInverse();
    forall c: char ensures c as int in FullToHalfTable <==> IsFullWidth(c) {
      FullToHalfEntry(c as int);
    }
    Translate(s, FullToHalfTable)
  }

  /** Neither space nor the filler sentinel is converted. */
  lemma SpaceAndFillerUnchanged()
    ensures Half2FullWidth(" ") == " " && Full2HalfWidth(" ") == " "
    ensures Half2FullWidth([Filler]) == [Filler] && Full2HalfWidth([Filler]) == [Filler]
  {
  }

  /** Output character i depends only on input character i. */
  lemma ConversionsArePointwise(s: string, t: string, i: nat)
    requires i < |s| && i < |t| && s[i] == t[i]
    ensures Half2FullWidth(s)[i] == Half2FullWidth(t)[i]
    ensures Full2HalfWidth(s)[i] == Full2HalfWidth(t)[i]
  {
  }

  /** Converting twice is converting once. */
  lemma ConversionsAreIdempotent(s: string)
    ensures Half2FullWidth(Half2FullWidth(s)) == Half2FullWidth(s)
    ensures Full2HalfWidth(Full2HalfWidth(s)) == Full2HalfWidth(s)
  {
  }

  /** Going to full width first makes no difference to the half-width
      result, and vice versa. */
  lemma ConversionsAbsorb(s: string)
    ensures Full2HalfWidth(Half2FullWidth(s)) == Full2HalfWidth(s)
    ensures Half2FullWidth(Full2HalfWidth(s)) == Half2FullWidth(s)
  {
  }

  /** A text without full-width characters survives the round trip, and
      one without half-width characters survives the reverse trip. */
  lemma ConversionsRoundTrip(s: string)
    ensures (forall i :: 0 <= i < |s| ==> !IsFullWidth(s[i])) ==> Full2HalfWidth(Half2FullWidth(s)) == s
    ensures (forall i :: 0 <= i < |s| ==> !IsHalfWidth(s[i])) ==> Half2FullWidth(Full2HalfWidth(s)) == s
  {
    if forall i :: 0 <= i < |s| ==> !IsFullWidth(s[i]) {
      HalfFullHalf(s);
    }
    if forall i :: 0 <= i < |s| ==> !IsHalfWidth(s[i]) {
      FullHalfFull(s);
    }
  }

  lemma HalfFullHalf(s: string)
    requires forall i :: 0 <= i < |s| ==> !IsFullWidth(s[i])
    ensures Full2HalfWidth(Half2FullWidth(s)) == s
  {
    var f := Half2FullWidth(s);
    var r := Full2HalfWidth(f);
    forall i | 0 <= i < |s| ensures r[i] == s[i] {
      if IsHalfWidth(s[i]) {
        assert IsFullWidth(f[i]);
      } else {
        assert f[i] == s[i];
      }
    }
  }

  lemma FullHalfFull(s: string)
    requires forall i :: 0 <= i < |s| ==> !IsHalfWidth(s[i])
    ensures Half2FullWidth(Full2HalfWidth(s)) == s
  {
    var h := Full2HalfWidth(s);
    var r := Half2FullWidth(h);
    forall i | 0 <= i < |s| ensures r[i] == s[i] {
      if IsFullWidth(s[i]) {
        assert IsHalfWidth(h[i]);
      } else {
        assert h[i] == s[i];
      }
    }
  }
}

=== FILE: import_box.dfy ===
/** `RetCom.parseLSTMBox` (retcom.py): every entry of a box file's
    `boxList` becomes a region appended to the page. A filler keeps the
    size of its box; any other text keeps its box's size across the writing
    direction and gets the font's length along it. A region whose aspect
    ratio falls below `suspiciousAspectRatio` is flagged, and the text is
    converted to full or half width. A non-zero tag puts the region in that
    group, first creating groups until the number exists. */
module BoxImport {
  import opened Wrappers
  import opened Seqs
  import opened Regions
  import opened FontSpecs
  import LstmBox
  import BoxIO
  import Config

  /** The settings the import reads: `verticalText`, `fullWidth`,
      `suspiciousAspectRatio`, the length-to-size ratio the font gives a
      text (`getTextAspectRatio(txt) * lengthBias` with a font,
      `charAspectRatio * len(txt) * lengthBias` without), and the length
      the font gives a text at a given size across, that ratio times the
      size, as a whole number. */
  datatype Layout = Layout(
    vertical: bool,
    fullWidth: bool,
    suspicious: real,
    textRatio: string -> real,
    length: (string, int) -> int)

  /** How the import of a file or of one entry ends: normally, with a
      Python exception, or in a loop that never exits. */
  datatype ImportOutcome =
    | Imported(state: Session)
    | Raised(state: Session, error: string)
    | Hangs(state: Session)

  // ------------------------------------------------------------- one entry

  /** A number no region object has yet: the identity of a new object. */
  function FreshId(s: Session): (x: RegionId)
    ensures x !in s.regions
  {
    var ks := SortedInts(s.regions.Keys);
    if |ks| == 0 then 1
    else
      BelowLast(ks);
      ks[|ks| - 1] + 1
  }

  lemma BelowLast(ks: seq<int>)
    requires Increasing(ks) && |ks| > 0
    ensures forall x :: x in ks ==> x <= ks[|ks| - 1]
  {
    forall x | x in ks ensures x <= ks[|ks| - 1] {
      var i :| 0 <= i < |ks| && ks[i] == x;
    }
  }

  /** The entry's box in scene coordinates, with its tag:
      `x, y = c[0], height - c[3]`, `w = c[2] - c[0]`, `h = c[3] - c[1]`,
      `n = c[4]`. */
  datatype Geometry = Geometry(x: int, y: int, w: int, h: int, tag: int)

  function GeometryOf(c: seq<int>, height: int): Geometry
    requires |c| >= 5
  {
    Geometry(c[0], height - c[3], c[2] - c[0], c[3] - c[1], c[4])
  }

  /** The size across the writing direction, the one the text keeps. */
  function Across(layout: Layout, g: Geometry): int {
    if layout.vertical then g.w else g.h
  }

  /** The text as stored: converted to full or half width. */
  function Converted(layout: Layout, txt: string): string {
    if layout.fullWidth then Half2FullWidth(txt) else Full2HalfWidth(txt)
  }

  /** The new region, before it joins a group: a filler keeps its box;
      other text keeps the size across and takes the font's length along.
      `BoundingBox.aspectRatio` is the length along over the size across,
      which for text is the font's ratio; a filler is never flagged. */
  function NewRegion(layout: Layout, txt: string, g: Geometry): (r: Region)
    ensures r.group == None && r.x == g.x && r.y == g.y
    ensures (if layout.vertical then r.w else r.h) == Across(layout, g)
    ensures r.text == FillerText <==> txt == FillerText
    ensures txt == FillerText ==> !r.flagged && r.w == g.w && r.h == g.h
  {
    ConvertedFiller(layout, txt);
    var filler := txt == FillerText;
    var along := layout.length(txt, Across(layout, g));
    Region(
      Converted(layout, txt),
      g.x, g.y,
      if layout.vertical || filler then g.w else along,
      if !layout.vertical || filler then g.h else along,
      !filler && layout.textRatio(txt) < layout.suspicious,
      None)
  }

  /** `self.bboxes.append(bbox)` for a new region object. */
  function Place(s: Session, x: RegionId, r: Region): (t: Session)
    requires WellFormed(s) && x !in s.regions && r.group == None
    ensures WellFormed(t)
    ensures t.bboxes == s.bboxes + [x] && t.regions == s.regions[x := r]
    ensures t.members == s.members && t.registry == s.registry && t.counter == s.counter
  {
    s.(bboxes := s.bboxes + [x], regions := s.regions[x := r])
  }

  /** `k` turns of the `while` loop: each creates an empty group. */
  function Grow(s: Session, k: nat): (r: Session)
    requires WellFormed(s)
    ensures WellFormed(r)
    ensures r.counter == s.counter + k
    ensures r.bboxes == s.bboxes && r.regions == s.regions
    decreases k
  {
    if k == 0 then s
    else
      var t := NewGroup(s, []);
      assert t.regions == s.regions;
      Grow(t, k - 1)
  }

  /** The `while not groups[n]` loop, for a number at or above the counter:
      empty groups are created until group n exists. */
  function CreateUntil(s: Session, n: int): (r: Session)
    requires WellFormed(s) && s.counter <= n
    ensures WellFormed(r) && Live(r, n)
    ensures r.bboxes == s.bboxes && r.regions == s.regions
    ensures r.counter <= n + 1
    decreases n - s.counter
  {
    var t := NewGroup(s, []);
    assert t.regions == s.regions;
    if Live(t, n) then t else CreateUntil(t, n)
  }

  /** The tag step for the new region `x`: tag 0 leaves it alone; a live
      group takes it; otherwise the loop creates groups, which ends only
      when n is at or above the counter. Reading `groups[scene][n]` stores
      None under a missing number first. */
  function Tag(s: Session, x: RegionId, n: int): (r: ImportOutcome)
    requires WellFormed(s) && x in s.regions
    ensures !r.Raised?
    ensures r.Hangs? <==> n != 0 && !Live(s, n) && n < s.counter
  {
    if n == 0 then Imported(s)
    else
      var t := Lookup(s, n);
      if Live(t, n) then Imported(Add(t, n, x))
      else if n < t.counter then Hangs(t)
      else
        var u := CreateUntil(t, n);
        Imported(Add(u, n, x))
  }

  /** One turn of the loop over `boxList`. */
  function ImportEntry(s: Session, layout: Layout, height: int, e: LstmBox.BoxEntry): (r: ImportOutcome)
    requires WellFormed(s)
    ensures WellFormed(r.state)
  {
    var c := e.coords;
    if |c| < 5 then Raised(s, "IndexError")
    else
      var g := GeometryOf(c, height);
      if Across(layout, g) == 0 then Raised(s, "ZeroDivisionError")
      else
        var x := FreshId(s);
        var t := Place(s, x, NewRegion(layout, e.text, g));
        Tag(t, x, g.tag)
  }

  /** The loop over `boxList`: entries in order, stopping at the first
      exception or endless loop. */
  function ImportAll(s: Session, layout: Layout, height: int, es: seq<LstmBox.BoxEntry>): (r: ImportOutcome)
    requires WellFormed(s)
    ensures WellFormed(r.state)
  {
    if |es| == 0 then Imported(s)
    else
      match ImportAll(s, layout, height, es[..|es| - 1])
      case Imported(t) => ImportEntry(t, layout, height, es[|es| - 1])
      case other => other
  }

  /** `parseLSTMBox`: read the file (`LSTMBox(path, verticalText)`), then
      import its entries. */
  function ParseLSTMBox(s: Session, layout: Layout, height: int, lines: seq<string>): (r: ImportOutcome)
    requires WellFormed(s)
    ensures WellFormed(r.state)
  {
    match LstmBox.ProcessBox(lines, layout.vertical)
    case Failure(e) => Raised(s, e)
    case Success(es) => ImportAll(s, layout, height, es)
  }

  // ------------------------------------------------------------ the loop

  /** After k turns, group n exists exactly when it existed before or its
      number was among the k handed out. */
  lemma {:induction false} GrowLive(s: Session, k: nat, n: int)
    requires WellFormed(s)
    ensures Live(Grow(s, k), n) <==> Live(s, n) || s.counter <= n < s.counter + k
    decreases k
  {
    if k > 0 {
      var t := NewGroup(s, []);
      assert Live(t, n) <==> Live(s, n) || n == s.counter;
      GrowLive(t, k - 1, n);
    }
  }

  /** A number below the counter whose slot is empty never gets a group:
      the loop runs forever. */
  lemma WhileNeverEnds(s: Session, n: int)
    requires WellFormed(s) && !Live(s, n) && n < s.counter
    ensures forall k: nat :: !Live(Grow(s, k), n)
  {
    forall k: nat ensures !Live(Grow(s, k), n) {
      GrowLive(s, k, n);
    }
  }

  /** For a number at or above the counter the loop stops after exactly
      n - counter + 1 turns, the first after which group n exists. */
  lemma {:induction false} CreateUntilIsGrow(s: Session, n: int)
    requires WellFormed(s) && s.counter <= n && !Live(s, n)
    ensures CreateUntil(s, n) == Grow(s, n - s.counter + 1)
    ensures forall k: nat :: k <= n - s.counter ==> !Live(Grow(s, k), n)
    decreases n - s.counter
  {
    var t := NewGroup(s, []);
    if !Live(t, n) {
      CreateUntilIsGrow(t, n);
    }
    forall k: nat | k <= n - s.counter ensures !Live(Grow(s, k), n) {
      GrowLive(s, k, n);
    }
  }

  /** The None that reading a missing number leaves behind is overwritten
      when the loop creates that group. */
  lemma {:induction false} LookupForgotten(s: Session, n: int)
    requires WellFormed(s) && s.counter <= n && n !in s.registry
    ensures CreateUntil(Lookup(s, n), n) == CreateUntil(s, n)
    decreases n - s.counter
  {
    var t := NewGroup(s, []);
    NewGroupLookup(s, n);
    if n == s.counter {
      assert CreateUntil(Lookup(s, n), n) == t;
    } else {
      assert CreateUntil(Lookup(s, n), n) == CreateUntil(Lookup(t, n), n) by {
        assert !Live(Lookup(t, n), n);
      }
      assert CreateUntil(s, n) == CreateUntil(t, n) by {
        assert !Live(t, n);
      }
      LookupForgotten(t, n);
    }
  }

  /** Opening a group after the lookup stored None for a number at or
      above the counter is the lookup after opening the group. */
  lemma NewGroupLookup(s: Session, n: int)
    requires WellFormed(s) && s.counter <= n && n !in s.registry
    ensures var t := NewGroup(s, []);
      NewGroup(Lookup(s, n), []) == if n == s.counter then t else Lookup(t, n)
  {
    var t := NewGroup(s, []);
    var tl := NewGroup(Lookup(s, n), []);
    if n == s.counter {
      assert tl.registry == t.registry;
    } else {
      assert n !in t.registry;
      assert tl.registry == t.registry[n := false];
    }
  }

  /** Creating empty groups up to n keeps the invariant and touches no
      group below the counter. */
  lemma {:induction false} CreateUntilValid(s: Session, n: int)
    requires Valid(s) && s.counter <= n
    ensures var r := CreateUntil(s, n);
      && Valid(r)
      && r.counter == n + 1
      && forall m :: m < s.counter ==>
           (Live(r, m) <==> Live(s, m)) && (m in s.members ==> r.members[m] == s.members[m])
    decreases n - s.counter
  {
    var t := NewGroup(s, []);
    assert Valid(t) by {
      NewGroupValid(s, []);
    }
    assert t.counter == s.counter + 1;
    assert forall m :: m < s.counter ==>
      (Live(t, m) <==> Live(s, m)) && (m in s.members ==> m in t.members && t.members[m] == s.members[m]);
    if Live(t, n) {
      assert CreateUntil(s, n) == t;
      assert n == s.counter;
    } else {
      assert CreateUntil(s, n) == CreateUntil(t, n);
      CreateUntilValid(t, n);
    }
  }

  // ------------------------------------------------------- what one entry does

  /** An entry raises IndexError when it has fewer than five numbers and
      ZeroDivisionError when its box has no size across the writing
      direction, both before anything changes; it hangs exactly when its
      tag is a non-zero number below the counter with no group. */
  lemma ImportEntryOutcome(s: Session, layout: Layout, height: int, e: LstmBox.BoxEntry)
    requires WellFormed(s)
    ensures var r := ImportEntry(s, layout, height, e);
      var c := e.coords;
      && (|c| < 5 ==> r == Raised(s, "IndexError"))
      && (|c| >= 5 && (if layout.vertical then c[2] - c[0] else c[3] - c[1]) == 0 ==>
            r == Raised(s, "ZeroDivisionError"))
      && (|c| >= 5 && (if layout.vertical then c[2] - c[0] else c[3] - c[1]) != 0 ==>
            && !r.Raised?
            && (r.Hangs? <==> c[4] != 0 && !Live(s, c[4]) && c[4] < s.counter))
  {
    var c := e.coords;
    if |c| >= 5 && Across(layout, GeometryOf(c, height)) != 0 {
      var x := FreshId(s);
      var t := Place(s, x, NewRegion(layout, e.text, GeometryOf(c, height)));
      assert ImportEntry(s, layout, height, e) == Tag(t, x, c[4]);
      assert t.counter == s.counter && forall m :: Live(t, m) == Live(s, m);
    }
  }

  /** An imported entry appends one new region to the page: at the box's
      corner, with the box's size across the writing direction (and along
      it too for a filler), its text width-converted, flagged exactly when
      it is not a filler and the font's ratio is below the threshold, and
      in the group its tag names, which is live afterwards. Other regions
      and the groups below the counter keep their state. */
  lemma ImportedRegion(s: Session, layout: Layout, height: int, e: LstmBox.BoxEntry)
    requires WellFormed(s)
    requires ImportEntry(s, layout, height, e).Imported?
    ensures var r := ImportEntry(s, layout, height, e).state;
      var c := e.coords;
      && |c| >= 5
      && |r.bboxes| == |s.bboxes| + 1 && r.bboxes[..|s.bboxes|] == s.bboxes
      && var x := r.bboxes[|s.bboxes|];
         && x !in s.regions && x in r.regions
         && r.regions.Keys == s.regions.Keys + {x}
         && (forall y :: y in s.regions ==> r.regions[y] == s.regions[y])
         && r.regions[x].text == Converted(layout, e.text)
         && r.regions[x].x == c[0] && r.regions[x].y == height - c[3]
         && (layout.vertical || e.text == FillerText ==> r.regions[x].w == c[2] - c[0])
         && (!layout.vertical || e.text == FillerText ==> r.regions[x].h == c[3] - c[1])
         && (r.regions[x].flagged <==> e.text != FillerText && layout.textRatio(e.text) < layout.suspicious)
         && (c[4] == 0 ==> r.regions[x].group == None && r.members == s.members)
         && (c[4] != 0 ==> r.regions[x].group == Some(c[4]) && Live(r, c[4]))
  {
    ImportedHasBox(s, layout, height, e);
    ImportedPage(s, layout, height, e);
    ImportedNew(s, layout, height, e);
    ImportedOthers(s, layout, height, e);
    ImportedGroups(s, layout, height, e);
    var r := ImportEntry(s, layout, height, e).state;
    assert r.bboxes[|s.bboxes|] == FreshId(s);
  }

  /** An entry is imported only when it has a tag and a size across. */
  lemma ImportedHasBox(s: Session, layout: Layout, height: int, e: LstmBox.BoxEntry)
    requires WellFormed(s)
    requires ImportEntry(s, layout, height, e).Imported?
    ensures |e.coords| >= 5 && Across(layout, GeometryOf(e.coords, height)) != 0
  {
  }

  /** An imported entry appends a new region to the page. */
  lemma ImportedPage(s: Session, layout: Layout, height: int, e: LstmBox.BoxEntry)
    requires WellFormed(s) && |e.coords| >= 5 && Across(layout, GeometryOf(e.coords, height)) != 0
    requires ImportEntry(s, layout, height, e).Imported?
    ensures var r := ImportEntry(s, layout, height, e).state;
      && r.bboxes == s.bboxes + [FreshId(s)]
      && r.regions.Keys == s.regions.Keys + {FreshId(s)}
  {
    var x := FreshId(s);
    var t := Place(s, x, NewRegion(layout, e.text, GeometryOf(e.coords, height)));
    EntryIsTag(s, layout, height, e);
    TagEffect(t, x, e.coords[4]);
  }

  /** The new region is the one the entry describes, in the tag's group. */
  lemma ImportedNew(s: Session, layout: Layout, height: int, e: LstmBox.BoxEntry)
    requires WellFormed(s) && |e.coords| >= 5 && Across(layout, GeometryOf(e.coords, height)) != 0
    requires ImportEntry(s, layout, height, e).Imported?
    ensures var r := ImportEntry(s, layout, height, e).state;
      && FreshId(s) in r.regions
      && r.regions[FreshId(s)] == NewRegion(layout, e.text, GeometryOf(e.coords, height))
                                    .(group := if e.coords[4] == 0 then None else Some(e.coords[4]))
  {
    var x := FreshId(s);
    var t := Place(s, x, NewRegion(layout, e.text, GeometryOf(e.coords, height)));
    EntryIsTag(s, layout, height, e);
    TagEffect(t, x, e.coords[4]);
  }

  /** The regions that existed before are untouched. */
  lemma ImportedOthers(s: Session, layout: Layout, height: int, e: LstmBox.BoxEntry)
    requires WellFormed(s) && |e.coords| >= 5 && Across(layout, GeometryOf(e.coords, height)) != 0
    requires ImportEntry(s, layout, height, e).Imported?
    ensures var r := ImportEntry(s, layout, height, e).state;
      forall y :: y in s.regions ==> y in r.regions && r.regions[y] == s.regions[y]
  {
    var x := FreshId(s);
    var t := Place(s, x, NewRegion(layout, e.text, GeometryOf(e.coords, height)));
    EntryIsTag(s, layout, height, e);
    TagEffect(t, x, e.coords[4]);
  }

  /** The groups after an imported entry. */
  lemma ImportedGroups(s: Session, layout: Layout, height: int, e: LstmBox.BoxEntry)
    requires WellFormed(s) && |e.coords| >= 5 && Across(layout, GeometryOf(e.coords, height)) != 0
    requires ImportEntry(s, layout, height, e).Imported?
    ensures e.coords[4] == 0 ==> ImportEntry(s, layout, height, e).state.members == s.members
    ensures e.coords[4] != 0 ==> Live(ImportEntry(s, layout, height, e).state, e.coords[4])
  {
    var t := Place(s, FreshId(s), NewRegion(layout, e.text, GeometryOf(e.coords, height)));
    EntryIsTag(s, layout, height, e);
    TagEffect(t, FreshId(s), e.coords[4]);
  }

  /** The tag step changes only the new region's group, and leaves the
      group it names live. */
  lemma TagEffect(t: Session, x: RegionId, n: int)
    requires WellFormed(t) && x in t.regions && t.regions[x].group == None
    requires Tag(t, x, n).Imported?
    ensures var r := Tag(t, x, n).state;
      && r.bboxes == t.bboxes
      && r.regions.Keys == t.regions.Keys
      && r.regions[x] == t.regions[x].(group := if n == 0 then None else Some(n))
      && (forall y :: y in t.regions && y != x ==> r.regions[y] == t.regions[y])
      && (n == 0 ==> r.members == t.members)
      && (n != 0 ==> Live(r, n))
  {
    if n != 0 {
      var l := Lookup(t, n);
      if !Live(l, n) && n >= l.counter {
        var u := CreateUntil(l, n);
        assert Tag(t, x, n) == Imported(Add(u, n, x));
        assert u.regions == t.regions;
      }
    }
  }

  lemma EntryIsTag(s: Session, layout: Layout, height: int, e: LstmBox.BoxEntry)
    requires WellFormed(s) && |e.coords| >= 5 && Across(layout, GeometryOf(e.coords, height)) != 0
    ensures ImportEntry(s, layout, height, e)
         == Tag(Place(s, FreshId(s), NewRegion(layout, e.text, GeometryOf(e.coords, height))), FreshId(s), e.coords[4])
  {
  }

  /** An entry written by `createLSTMBox` for a region brings back the
      region's corner, its size across the writing direction (and along it
      for a filler) and its width-converted text. */
  lemma ImportRestoresBox(s: Session, layout: Layout, height: int, reg: Region, tag: int)
    requires WellFormed(s)
    requires (if layout.vertical then reg.w else reg.h) != 0
    requires tag == 0 || Live(s, tag) || tag >= s.counter
    ensures var o := ImportEntry(s, layout, height, LstmBox.BoxEntry(reg.text, BoxIO.Fields(reg, height, tag)));
      && o.Imported?
      && |o.state.bboxes| == |s.bboxes| + 1
      && var b := o.state.regions[o.state.bboxes[|s.bboxes|]];
         && b.x == reg.x && b.y == reg.y
         && (layout.vertical || reg.text == FillerText ==> b.w == reg.w)
         && (!layout.vertical || reg.text == FillerText ==> b.h == reg.h)
         && b.text == Converted(layout, reg.text)
         && b.group == (if tag == 0 then None else Some(tag))
  {
    var e := LstmBox.BoxEntry(reg.text, BoxIO.Fields(reg, height, tag));
    ImportEntryOutcome(s, layout, height, e);
    ImportedRegion(s, layout, height, e);
  }

  /** The other direction: an imported entry, written back by
      `createLSTMBox`, gives back its left and top edges, its tag and its
      far edge across the writing direction; for a filler, whose size is
      kept in both directions, the whole line of numbers comes back. */
  lemma ImportedWritesBack(s: Session, layout: Layout, height: int, e: LstmBox.BoxEntry)
    requires WellFormed(s)
    requires ImportEntry(s, layout, height, e).Imported?
    ensures var r := ImportEntry(s, layout, height, e).state;
      var c := e.coords;
      && |c| >= 5 && |r.bboxes| > |s.bboxes| && r.bboxes[|s.bboxes|] in r.regions
      && var b := r.regions[r.bboxes[|s.bboxes|]];
         var f := BoxIO.Fields(b, height, BoxIO.TagOf(b));
         && f[0] == c[0] && f[3] == c[3] && f[4] == c[4]
         && (layout.vertical ==> f[2] == c[2])
         && (!layout.vertical ==> f[1] == c[1])
         && (e.text == FillerText ==> f == c[..5])
  {
    ImportedRegion(s, layout, height, e);
  }

  // ------------------------------------------------------ the invariant

  /** Appending a new ungrouped region keeps the invariant. */
  lemma PlaceValid(s: Session, x: RegionId, r: Region)
    requires Valid(s) && x !in s.regions && r.group == None
    ensures Valid(Place(s, x, r))
  {
    var t := Place(s, x, r);
    assert x !in s.bboxes;
    NoDupConcat(s.bboxes, [x]);
    forall n | n in t.members ensures GroupOk(t, n) {
      assert GroupOk(s, n);
      forall y | y in t.members[n] ensures y in t.bboxes && t.regions[y].group == Some(n) {
        assert y != x;
      }
    }
  }

  /** The tag step keeps the invariant whenever it ends. */
  lemma TagValid(t: Session, x: RegionId, n: int)
    requires Valid(t) && x in t.bboxes && t.regions[x].group == None
    requires !Tag(t, x, n).Hangs?
    ensures Valid(Tag(t, x, n).state)
  {
    if n != 0 {
      if Live(t, n) {
        assert Lookup(t, n) == t;
        AddValid(t, n, x);
      } else {
        assert n !in t.registry;
        LookupForgotten(t, n);
        CreateUntilValid(t, n);
        AddValid(CreateUntil(t, n), n, x);
      }
    }
  }

  /** An entry that does not hang leaves a valid state valid. */
  lemma ImportEntryValid(s: Session, layout: Layout, height: int, e: LstmBox.BoxEntry)
    requires Valid(s)
    requires !ImportEntry(s, layout, height, e).Hangs?
    ensures Valid(ImportEntry(s, layout, height, e).state)
  {
    var c := e.coords;
    if |c| >= 5 && Across(layout, GeometryOf(c, height)) != 0 {
      var x := FreshId(s);
      var t := Place(s, x, NewRegion(layout, e.text, GeometryOf(c, height)));
      EntryIsTag(s, layout, height, e);
      PlaceValid(s, x, NewRegion(layout, e.text, GeometryOf(c, height)));
      TagValid(t, x, c[4]);
    }
  }

  /** Importing a file that does not hang leaves a valid state valid, also
      when an entry raises part way. */
  lemma {:induction false} ImportAllValid(s: Session, layout: Layout, height: int, es: seq<LstmBox.BoxEntry>)
    requires Valid(s)
    requires !ImportAll(s, layout, height, es).Hangs?
    ensures Valid(ImportAll(s, layout, height, es).state)
  {
    if |es| > 0 {
      var p := es[..|es| - 1];
      var o := ImportAll(s, layout, height, p);
      ImportAllValid(s, layout, height, p);
      if o.Imported? {
        ImportEntryValid(o.state, layout, height, es[|es| - 1]);
      }
    }
  }

  /** Each entry imported adds one region to the end of the page. */
  lemma {:induction false} ImportAllAppends(s: Session, layout: Layout, height: int, es: seq<LstmBox.BoxEntry>)
    requires WellFormed(s)
    requires ImportAll(s, layout, height, es).Imported?
    ensures var r := ImportAll(s, layout, height, es).state;
      |r.bboxes| == |s.bboxes| + |es| && r.bboxes[..|s.bboxes|] == s.bboxes
  {
    if |es| > 0 {
      var p := es[..|es| - 1];
      var e := es[|es| - 1];
      var o := ImportAll(s, layout, height, p);
      assert o.Imported? && ImportAll(s, layout, height, es) == ImportEntry(o.state, layout, height, e);
      ImportAllAppends(s, layout, height, p);
      var t := o.state;
      assert ImportEntry(t, layout, height, e).state.bboxes == t.bboxes + [FreshId(t)] by {
        ImportedHasBox(t, layout, height, e);
        ImportedPage(t, layout, height, e);
      }
    }
  }

  // ------------------------------------------------ when the import hangs

  /** Every number handed out so far still has its group: true of a new
      scene and kept by the import, which never disbands a group. */
  predicate SlotsFilled(s: Session) {
    forall n :: 1 <= n < s.counter ==> Live(s, n)
  }

  /** In such a state an entry hangs exactly when its tag is negative. */
  lemma FilledHangs(s: Session, layout: Layout, height: int, e: LstmBox.BoxEntry)
    requires Valid(s) && SlotsFilled(s)
    ensures var c := e.coords;
      ImportEntry(s, layout, height, e).Hangs? <==>
        |c| >= 5 && (if layout.vertical then c[2] - c[0] else c[3] - c[1]) != 0 && c[4] < 0
  {
    ImportEntryOutcome(s, layout, height, e);
    var c := e.coords;
    if |c| >= 5 && c[4] < 0 {
      assert c[4] !in s.members;
    }
  }

  /** The tag step keeps every handed-out number filled. */
  lemma TagFills(t: Session, x: RegionId, n: int)
    requires Valid(t) && SlotsFilled(t) && x in t.bboxes && t.regions[x].group == None
    requires Tag(t, x, n).Imported?
    ensures SlotsFilled(Tag(t, x, n).state)
  {
    if n == 0 {
      assert Tag(t, x, n).state == t;
    } else if Live(t, n) {
      assert Tag(t, x, n).state == Add(t, n, x) by {
        assert Lookup(t, n) == t;
      }
      AddFills(t, n, x);
    } else {
      var u := CreateUntil(t, n);
      assert Tag(t, x, n).state == Add(u, n, x) by {
        assert n !in t.registry;
        LookupForgotten(t, n);
      }
      assert SlotsFilled(u) by {
        CreateUntilIsGrow(t, n);
        forall m | 1 <= m < u.counter ensures Live(u, m) {
          GrowLive(t, n - t.counter + 1, m);
        }
      }
      AddFills(u, n, x);
    }
  }

  lemma AddFills(t: Session, n: int, x: RegionId)
    requires WellFormed(t) && n in t.members && x in t.regions && SlotsFilled(t)
    ensures SlotsFilled(Add(t, n, x))
  {
    var r := Add(t, n, x);
    assert r.registry == t.registry && r.counter == t.counter;
    forall m | 1 <= m < r.counter ensures Live(r, m) {
      assert Live(t, m);
    }
  }

  /** An imported entry keeps every handed-out number filled. */
  lemma ImportEntryFills(s: Session, layout: Layout, height: int, e: LstmBox.BoxEntry)
    requires Valid(s) && SlotsFilled(s)
    requires ImportEntry(s, layout, height, e).Imported?
    ensures SlotsFilled(ImportEntry(s, layout, height, e).state)
  {
    ImportedHasBox(s, layout, height, e);
    var c := e.coords;
    var x := FreshId(s);
    var t := Place(s, x, NewRegion(layout, e.text, GeometryOf(c, height)));
    assert ImportEntry(s, layout, height, e) == Tag(t, x, c[4]) by {
      EntryIsTag(s, layout, height, e);
    }
    assert Valid(t) by {
      PlaceValid(s, x, NewRegion(layout, e.text, GeometryOf(c, height)));
    }
    assert SlotsFilled(t) by {
      assert t.registry == s.registry && t.counter == s.counter;
      forall m | 1 <= m < t.counter ensures Live(t, m) {
        assert Live(s, m);
      }
    }
    TagFills(t, x, c[4]);
  }

  /** Importing into a state whose numbers are all filled, in particular a
      new scene, keeps them filled, so each entry hangs exactly when its
      tag is negative. */
  lemma {:induction false} ImportAllFills(s: Session, layout: Layout, height: int, es: seq<LstmBox.BoxEntry>)
    requires Valid(s) && SlotsFilled(s)
    requires !ImportAll(s, layout, height, es).Hangs?
    ensures SlotsFilled(ImportAll(s, layout, height, es).state)
  {
    if |es| > 0 {
      var p := es[..|es| - 1];
      var o := ImportAll(s, layout, height, p);
      assert !o.Hangs? && SlotsFilled(o.state) by {
        ImportAllFills(s, layout, height, p);
      }
      if o.Imported? {
        var r := ImportEntry(o.state, layout, height, es[|es| - 1]);
        assert ImportAll(s, layout, height, es) == r;
        assert Valid(o.state) by {
          ImportAllValid(s, layout, height, p);
        }
        if r.Imported? {
          ImportEntryFills(o.state, layout, height, es[|es| - 1]);
        } else {
          assert r.state == o.state;
        }
      } else {
        assert ImportAll(s, layout, height, es) == o;
      }
    }
  }

  lemma EmptyFilled()
    ensures Valid(Empty) && SlotsFilled(Empty)
  {
    EmptyIsValid();
  }

  // ------------------------------------------------------------ the brush

  /** Width conversion neither makes nor unmakes a filler. */
  lemma ConvertedFiller(layout: Layout, txt: string)
    ensures Converted(layout, txt) == FillerText <==> txt == FillerText
  {
    var r := Converted(layout, txt);
    if |txt| == 1 {
      assert r == FillerText <==> r[0] == Filler;
      assert txt == FillerText <==> txt[0] == Filler;
    }
  }

  /** `bbox.aspectRatio` right after construction: the font's ratio for
      text, the box's own proportion for a filler. */
  function Ratio(layout: Layout, txt: string, g: Geometry): real
    requires Across(layout, g) != 0
  {
    if txt != FillerText then layout.textRatio(txt)
    else (if layout.vertical then g.h else g.w) as real / Across(layout, g) as real
  }

  /** The brush the import sets: flagged text gets the flagged brush, a
      filler below the threshold gets none (Qt's default stays), and
      otherwise text and fillers get their usual brushes. */
  function InitialBrush(layout: Layout, txt: string, g: Geometry): Option<Config.Brush>
    requires Across(layout, g) != 0
  {
    if Ratio(layout, txt, g) < layout.suspicious then
      (if txt != FillerText then Some(Config.FlaggedBrush) else None)
    else if txt != FillerText then Some(Config.BoundingBrush)
    else Some(Config.FillerBrush)
  }

  /** Whenever the import sets a brush it is the one `updateFill` picks for
      the unselected region, and it sets none only for a filler whose box
      is below the threshold. */
  lemma InitialBrushIsFill(layout: Layout, txt: string, g: Geometry)
    requires Across(layout, g) != 0
    ensures var reg := NewRegion(layout, txt, g);
      && (InitialBrush(layout, txt, g).Some? ==>
            InitialBrush(layout, txt, g).value == Config.UpdateFill(false, reg.text, reg.flagged))
      && (InitialBrush(layout, txt, g).None? <==>
            txt == FillerText && Ratio(layout, txt, g) < layout.suspicious)
  {
    ConvertedFiller(layout, txt);
  }
}

=== FILE: parse_lstmbox.dfy ===
/** The box-file reader of parse_lstmbox.py (`LSTMBox`): the recognizer's
    "lstmbox" lines become records (`parseBox`), records are filtered by
    the text direction (`cleanBox`), grouped by their coordinates
    (`segmentBox`) and turned into the ordered segment list `boxList`
    (`processBox`).

    Python's `hash()` of the coordinate tuple is replaced by the tuple
    itself, so two different tuples never share a segment here.
 */
module LstmBox {
  import opened Wrappers
  import opened Strs
  import opened PyInt
  import opened Seqs

  /** One parsed line: the first token verbatim, then every later non-empty
      token converted by `int()`. For a well-formed line `nums` holds
      left, bottom, right, top and the group tag. */
  datatype Record = Record(ch: string, nums: seq<int>)

  // ---------------------------------------------------------------- parseBox

  /** The space-separated tokens of a line once its newlines are removed. */
  function Tokens(line: string): (r: seq<string>)
    ensures |r| >= 1
  {
    SplitOn(RemoveAll(line, "\n"), ' ')
  }

  /** The non-empty tokens, in order. */
  function NonEmpty(toks: seq<string>): (r: seq<string>)
    ensures forall j :: 0 <= j < |r| ==> r[j] != ""
    ensures |r| <= |toks|
  {
    if |toks| == 0 then []
    else NonEmpty(toks[..|toks| - 1]) + (if toks[|toks| - 1] == "" then [] else [toks[|toks| - 1]])
  }

  lemma {:induction false} NonEmptyConcat(a: seq<string>, b: seq<string>)
    ensures NonEmpty(a + b) == NonEmpty(a) + NonEmpty(b)
    decreases |b|
  {
    if |b| == 0 {
      assert a + b == a;
    } else {
      var b' := b[..|b| - 1];
      assert (a + b)[..|a + b| - 1] == a + b';
      NonEmptyConcat(a, b');
    }
  }

  lemma {:induction false} NonEmptyAll(toks: seq<string>)
    requires forall j :: 0 <= j < |toks| ==> toks[j] != ""
    ensures NonEmpty(toks) == toks
  {
    if |toks| > 0 {
      NonEmptyAll(toks[..|toks| - 1]);
    }
  }

  /** The fields after the first token: empty tokens (from repeated
      spaces) are skipped, every other one goes through `int()`, and the
      first one `int()` rejects raises `ValueError`. */
  function ParseFields(toks: seq<string>): (r: Result<seq<int>>)
    ensures r.Success? <==>
      forall j :: 0 <= j < |NonEmpty(toks)| ==> ParseInt(NonEmpty(toks)[j], 10).Success?
    ensures r.Success? ==> |r.value| == |NonEmpty(toks)|
    ensures r.Success? ==>
      forall j :: 0 <= j < |r.value| ==> ParseInt(NonEmpty(toks)[j], 10) == Success(r.value[j])
  {
    if |toks| == 0 then Success([])
    else
      var last := toks[|toks| - 1];
      var ne := NonEmpty(toks[..|toks| - 1]);
      assert NonEmpty(toks) == ne + (if last == "" then [] else [last]);
      assert forall j :: 0 <= j < |ne| ==> NonEmpty(toks)[j] == ne[j];
      match ParseFields(toks[..|toks| - 1])
      case Failure(e) => Failure(e)
      case Success(vs) =>
        if last == "" then Success(vs)
        else match ParseInt(last, 10)
          case Failure(e) =>
            assert NonEmpty(toks)[|ne|] == last;
            Failure(e)
          case Success(v) => Success(vs + [v])
  }

  /** One line of `parseBox`: the first token kept verbatim (it is the
      recognized character, possibly empty), the rest as integers. */
  function ParseLine(line: string): (r: Result<Record>)
    ensures r.Success? ==> r.value.ch == TakeUntil(RemoveAll(line, "\n"), ' ')
    ensures r.Success? <==> ParseFields(Tokens(line)[1..]).Success?
    ensures r.Success? ==> r.value.nums == ParseFields(Tokens(line)[1..]).value
  {
    var toks := Tokens(line);
    SplitFirstPiece(RemoveAll(line, "\n"), ' ');
    match ParseFields(toks[1..])
    case Failure(e) => Failure(e)
    case Success(vs) => Success(Record(toks[0], vs))
  }

  /** Whether one line parses. */
  predicate LineParses(line: string) {
    ParseLine(line).Success?
  }

  /** `parseBox`: one record per line, in line order; any line whose
      fields do not parse makes the whole call raise. */
  function ParseBox(lines: seq<string>): (r: Result<seq<Record>>)
    ensures r.Success? <==> forall i :: 0 <= i < |lines| ==> LineParses(lines[i])
    ensures r.Success? ==> |r.value| == |lines|
    ensures r.Success? ==> forall i :: 0 <= i < |lines| ==> Success(r.value[i]) == ParseLine(lines[i])
  {
    if |lines| == 0 then Success([])
    else
      var prefix := lines[..|lines| - 1];
      var last := lines[|lines| - 1];
      assert lines == prefix + [last];
      var rest := ParseBox(prefix);
      if rest.Failure? then
        Failure(rest.error)
      else
        var line := ParseLine(last);
        if line.Failure? then
          assert !LineParses(lines[|lines| - 1]);
          Failure(line.error)
        else
          Success(rest.value + [line.value])
  }

  // ---------------------------------------------------------------- cleanBox

  /** Which records a position list picks out. */
  datatype Selector =
    | KeptBy(vertical: bool)   // the records `cleanBox` keeps
    | WithKey(key: Key)        // the records of one segment

  predicate Selects(sel: Selector, r: Record) {
    match sel
    case KeptBy(vertical) => r.ch != "\t" && (!vertical || r.ch != "")
    case WithKey(k) => KeyOf(r) == k
  }

  /** The positions of the selected records, in increasing order: an
      independent description of "the order-preserving subsequence". */
  function Positions(b: seq<Record>, sel: Selector): (ps: seq<nat>)
    ensures forall j :: 0 <= j < |ps| ==> ps[j] < |b| && Selects(sel, b[ps[j]])
    ensures forall j, j' :: 0 <= j < j' < |ps| ==> ps[j] < ps[j']
    ensures forall i :: 0 <= i < |b| && Selects(sel, b[i]) ==> i in ps
  {
    if |b| == 0 then []
    else
      var prefix := b[..|b| - 1];
      var ps := Positions(prefix, sel);
      assert forall j :: 0 <= j < |ps| ==> b[ps[j]] == prefix[ps[j]];
      ps + (if Selects(sel, b[|b| - 1]) then [|b| - 1] else [])
  }

  /** Appending a record extends the position list by at most that record. */
  lemma PositionsSnoc(b: seq<Record>, x: Record, sel: Selector)
    ensures Positions(b + [x], sel) == Positions(b, sel) + (if Selects(sel, x) then [|b|] else [])
  {
    assert (b + [x])[..|b|] == b;
  }

  /** What horizontal cleaning does to a kept record: an empty character
      (the recognizer's space) becomes an explicit " ". */
  function Fix(vertical: bool, r: Record): Record {
    if !vertical && r.ch == "" then Record(" ", r.nums) else r
  }

  /** `cleanBox`. Vertical text keeps the records whose character is
      neither "" nor "\t"; horizontal text drops only "\t" records and
      turns "" into " ". Record order and numeric fields are kept. */
  function CleanBox(vertical: bool, b: seq<Record>): (r: seq<Record>)
    ensures var ps := Positions(b, KeptBy(vertical));
      |r| == |ps| && forall j :: 0 <= j < |r| ==> r[j] == Fix(vertical, b[ps[j]])
  {
    if |b| == 0 then []
    else
      var prefix := b[..|b| - 1];
      var last := b[|b| - 1];
      assert b == prefix + [last];
      PositionsSnoc(prefix, last, KeptBy(vertical));
      CleanBox(vertical, prefix) + (if Selects(KeptBy(vertical), last) then [Fix(vertical, last)] else [])
  }

  /** Records that survive cleaning carry neither "\t" nor, in either
      mode, an empty character. */
  lemma CleanedCharacters(vertical: bool, b: seq<Record>, j: nat)
    requires j < |CleanBox(vertical, b)|
    ensures CleanBox(vertical, b)[j].ch != "\t" && CleanBox(vertical, b)[j].ch != ""
  {
  }

  // -------------------------------------------------------------- segmentBox

  /** A segment key: the record without its first and last elements,
      Python's `el[1:-1]`. For a six-field record these are the four
      coordinates; a record without a tag loses its top coordinate. */
  type Key = seq<int>

  function KeyOf(r: Record): Key {
    if |r.nums| == 0 then [] else r.nums[..|r.nums| - 1]
  }

  /** The two dictionaries of `segmentBox` plus their common key order
      (Python dictionaries remember first insertion). */
  datatype Segmentation = Segmentation(
    order: seq<Key>,                 // keys in first-occurrence order
    chars: map<Key, seq<string>>,    // `segments`: characters per key
    stored: map<Key, seq<int>>)      // `hashes`: `el[1:]` per key

  ghost predicate WellKeyed(s: Segmentation) {
    && NoDup(s.order)
    && (forall k :: k in s.order <==> k in s.chars)
    && s.chars.Keys == s.stored.Keys
  }

  /** One iteration of `segmentBox`: overwrite the stored fields, append
      the character. */
  function AddRecord(s: Segmentation, r: Record): Segmentation {
    var k := KeyOf(r);
    Segmentation(
      if k in s.chars then s.order else s.order + [k],
      s.chars[k := (if k in s.chars then s.chars[k] else []) + [r.ch]],
      s.stored[k := r.nums])
  }

  /** `segmentBox` over cleaned records. */
  function SegmentBox(b: seq<Record>): (s: Segmentation)
    ensures WellKeyed(s)
  {
    if |b| == 0 then Segmentation([], map[], map[])
    else
      var p := SegmentBox(b[..|b| - 1]);
      var s := AddRecord(p, b[|b| - 1]);
      assert forall k :: k in s.order <==> k in s.chars;
      s
  }

  /** The characters at the given positions, in that order. */
  function CharsAt(b: seq<Record>, ps: seq<nat>): (r: seq<string>)
    requires forall j :: 0 <= j < |ps| ==> ps[j] < |b|
    ensures |r| == |ps|
  {
    seq(|ps|, j requires 0 <= j < |ps| => b[ps[j]].ch)
  }

  /** One more record in the input leaves earlier positions' characters
      alone and may add its own at the end. */
  lemma CharsAtSnoc(b: seq<Record>, x: Record, ps: seq<nat>, addLast: bool)
    requires forall j :: 0 <= j < |ps| ==> ps[j] < |b|
    ensures var ps' := ps + (if addLast then [|b|] else []);
      CharsAt(b + [x], ps') == CharsAt(b, ps) + (if addLast then [x.ch] else [])
  {
  }

  /** `segmentBox` processes one more record by one more step. */
  lemma SegmentSnoc(b: seq<Record>, x: Record)
    ensures SegmentBox(b + [x]) == AddRecord(SegmentBox(b), x)
  {
    assert (b + [x])[..|b|] == b;
  }

  /** Per key: the key has a segment exactly when some record carries it;
      its characters are those of all records with that key in input order,
      whatever other keys come in between; its stored fields are `el[1:]`
      of the last such record. */
  lemma {:induction false} SegmentByKey(b: seq<Record>, k: Key)
    ensures var s := SegmentBox(b);
      var ps := Positions(b, WithKey(k));
      && (k in s.chars <==> |ps| > 0)
      && (k in s.chars ==> s.chars[k] == CharsAt(b, ps))
      && (k in s.chars ==> s.stored[k] == b[ps[|ps| - 1]].nums)
  {
    if |b| > 0 {
      var prefix := b[..|b| - 1];
      var x := b[|b| - 1];
      assert b == prefix + [x];
      SegmentByKey(prefix, k);
      SegmentStep(prefix, x, k);
    }
  }

  /** The inductive step of `SegmentByKey`. */
  lemma SegmentStep(prefix: seq<Record>, x: Record, k: Key)
    requires var s := SegmentBox(prefix);
      var ps := Positions(prefix, WithKey(k));
      && (k in s.chars <==> |ps| > 0)
      && (k in s.chars ==> s.chars[k] == CharsAt(prefix, ps))
      && (k in s.chars ==> s.stored[k] == prefix[ps[|ps| - 1]].nums)
    ensures var b := prefix + [x];
      var s := SegmentBox(b);
      var ps := Positions(b, WithKey(k));
      && (k in s.chars <==> |ps| > 0)
      && (k in s.chars ==> s.chars[k] == CharsAt(b, ps))
      && (k in s.chars ==> s.stored[k] == b[ps[|ps| - 1]].nums)
  {
    var b := prefix + [x];
    SegmentSnoc(prefix, x);
    PositionsSnoc(prefix, x, WithKey(k));
    var pp := Positions(prefix, WithKey(k));
    CharsAtSnoc(prefix, x, pp, KeyOf(x) == k);
    if KeyOf(x) != k && |pp| > 0 {
      assert b[pp[|pp| - 1]] == prefix[pp[|pp| - 1]];
    }
  }

  /** The first position of a key, for keys that occur. */
  function FirstPosition(b: seq<Record>, k: Key): nat
    requires |Positions(b, WithKey(k))| > 0
  {
    Positions(b, WithKey(k))[0]
  }

  /** Segment keys are ordered by the position of their first record. */
  lemma {:induction false} SegmentOrder(b: seq<Record>, i: nat, j: nat)
    requires i < j < |SegmentBox(b).order|
    ensures var o := SegmentBox(b).order;
      && |Positions(b, WithKey(o[i]))| > 0
      && |Positions(b, WithKey(o[j]))| > 0
      && FirstPosition(b, o[i]) < FirstPosition(b, o[j])
  {
    var o := SegmentBox(b).order;
    var prefix := b[..|b| - 1];
    var x := b[|b| - 1];
    assert b == prefix + [x];
    SegmentSnoc(prefix, x);
    var sp := SegmentBox(prefix);
    if j < |sp.order| {
      assert o[i] == sp.order[i] && o[j] == sp.order[j];
      SegmentOrder(prefix, i, j);
      PositionsSnoc(prefix, x, WithKey(o[i]));
      PositionsSnoc(prefix, x, WithKey(o[j]));
    } else {
      NewestKey(prefix, x, i, j);
    }
  }

  /** The key added last is first met at the last record, after every
      earlier key. */
  lemma NewestKey(prefix: seq<Record>, x: Record, i: nat, j: nat)
    requires var sp := SegmentBox(prefix);
      i < j && |sp.order| <= j < |AddRecord(sp, x).order|
    ensures var o := AddRecord(SegmentBox(prefix), x).order;
      var b := prefix + [x];
      && |Positions(b, WithKey(o[i]))| > 0
      && |Positions(b, WithKey(o[j]))| > 0
      && FirstPosition(b, o[i]) < FirstPosition(b, o[j])
  {
    var sp := SegmentBox(prefix);
    var k := KeyOf(x);
    var o := AddRecord(sp, x).order;
    assert k !in sp.chars && o == sp.order + [k];
    var ki := sp.order[i];
    assert o[i] == ki && o[j] == k;
    SegmentByKey(prefix, ki);
    SegmentByKey(prefix, k);
    PositionsSnoc(prefix, x, WithKey(ki));
    PositionsSnoc(prefix, x, WithKey(k));
  }

  /** The number of characters over all segments. */
  function TotalChars(order: seq<Key>, chars: map<Key, seq<string>>): nat {
    if |order| == 0 then 0
    else
      var k := order[|order| - 1];
      TotalChars(order[..|order| - 1], chars) + (if k in chars then |chars[k]| else 0)
  }

  /** Changing the entry of a key outside the order changes no total. */
  lemma {:induction false} TotalCharsOutside(order: seq<Key>, chars: map<Key, seq<string>>, k: Key, v: seq<string>)
    requires k !in order
    ensures TotalChars(order, chars[k := v]) == TotalChars(order, chars)
  {
    if |order| > 0 {
      TotalCharsOutside(order[..|order| - 1], chars, k, v);
    }
  }

  /** Adding one character to a key that occurs once in the order adds
      one to the total. */
  lemma {:induction false} TotalCharsBump(order: seq<Key>, chars: map<Key, seq<string>>, k: Key, c: string)
    requires NoDup(order) && k in order && k in chars
    ensures TotalChars(order, chars[k := chars[k] + [c]]) == TotalChars(order, chars) + 1
  {
    var p := order[..|order| - 1];
    var last := order[|order| - 1];
    assert order == p + [last];
    assert NoDup(p);
    if last == k {
      assert k !in p;
      TotalCharsOutside(p, chars, k, chars[k] + [c]);
    } else {
      TotalCharsBump(p, chars, k, c);
    }
  }

  /** A key new to the order adds its entry's size to the total. */
  lemma TotalCharsNew(order: seq<Key>, chars: map<Key, seq<string>>, k: Key, c: string)
    requires k !in order
    ensures TotalChars(order + [k], chars[k := [c]]) == TotalChars(order, chars) + 1
  {
    var o := order + [k];
    assert o[..|o| - 1] == order;
    TotalCharsOutside(order, chars, k, [c]);
  }

  /** One more record adds one to the total. */
  lemma TotalCharsStep(s: Segmentation, x: Record)
    requires WellKeyed(s)
    ensures TotalChars(AddRecord(s, x).order, AddRecord(s, x).chars) == TotalChars(s.order, s.chars) + 1
  {
    var k := KeyOf(x);
    if k in s.chars {
      TotalCharsBump(s.order, s.chars, k, x.ch);
    } else {
      var e: seq<string> := [];
      assert e + [x.ch] == [x.ch];
      assert AddRecord(s, x).chars == s.chars[k := [x.ch]];
      assert k !in s.order;
      TotalCharsNew(s.order, s.chars, k, x.ch);
    }
  }

  /** Every cleaned record lands in exactly one segment. */
  lemma {:induction false} SegmentTotal(b: seq<Record>)
    ensures TotalChars(SegmentBox(b).order, SegmentBox(b).chars) == |b|
  {
    if |b| > 0 {
      var prefix := b[..|b| - 1];
      var x := b[|b| - 1];
      assert b == prefix + [x];
      SegmentSnoc(prefix, x);
      SegmentTotal(prefix);
      TotalCharsStep(SegmentBox(prefix), x);
    }
  }

  // -------------------------------------------------------------- processBox

  /** One entry of `boxList`: the segment text and `el[1:]` of its last record. */
  datatype BoxEntry = BoxEntry(text: string, coords: seq<int>)

  /** `"".join(...)`. */
  function Concat(parts: seq<string>): string {
    Join(parts, "")
  }

  /** `boxStringDict`: each key's segment text. */
  function BoxStringDict(s: Segmentation): (d: map<Key, string>)
    ensures d.Keys == s.chars.Keys
    ensures forall k :: k in d ==> d[k] == Concat(s.chars[k])
  {
    map k | k in s.chars :: Concat(s.chars[k])
  }

  /** `boxList`: one entry per key, in first-occurrence order. */
  function BoxList(s: Segmentation): (l: seq<BoxEntry>)
    requires WellKeyed(s)
    ensures |l| == |s.order|
    ensures forall i :: 0 <= i < |l| ==>
      l[i] == BoxEntry(BoxStringDict(s)[s.order[i]], s.stored[s.order[i]])
  {
    seq(|s.order|, i requires 0 <= i < |s.order| =>
      BoxEntry(Concat(s.chars[s.order[i]]), s.stored[s.order[i]]))
  }

  /** `processBox` after the file is read: parse, clean, segment, list. */
  function ProcessBox(lines: seq<string>, vertical: bool): (r: Result<seq<BoxEntry>>)
    ensures r.Success? <==> ParseBox(lines).Success?
  {
    match ParseBox(lines)
    case Failure(e) => Failure(e)
    case Success(parsed) => Success(BoxList(SegmentBox(CleanBox(vertical, parsed))))
  }

  /** What `boxList` says about the cleaned records: entry i's text is the
      concatenation, in input order, of the characters of every record with
      the i-th key, its coordinates are those of the last such record, and
      entries come in order of their first record. */
  lemma BoxListEntries(b: seq<Record>, i: nat)
    requires i < |SegmentBox(b).order|
    ensures var s := SegmentBox(b);
      var ps := Positions(b, WithKey(s.order[i]));
      && |ps| > 0
      && BoxList(s)[i].text == Concat(CharsAt(b, ps))
      && BoxList(s)[i].coords == b[ps[|ps| - 1]].nums
  {
    SegmentByKey(b, SegmentBox(b).order[i]);
  }
}

=== FILE: pyint.dfy ===
/** Python's `int(text, base)` for bases 10 and 16 and `str(n)` for an
    integer. Digits are the ASCII ones and the full-width ones (U+FF10 to
    U+FF19) that the editor stores after its half-to-full-width conversion.

    `int` strips surrounding whitespace, takes one optional sign, in base 16
    an optional `0x`/`0X` prefix (which may be followed by one `_`), and then
    digits in which single underscores may separate two digits. Anything
    else raises `ValueError`.
 */
module PyInt {
  import opened Wrappers

  /** The whitespace `int()` strips and rejects between digits. Every
      character from U+0080 up for which `str.isspace()` holds becomes a
      space first; then only the ASCII space and U+0009 to U+000D count,
      so U+001C to U+001F, which `str.isspace()` accepts, are not
      whitespace here. */
  predicate IsSpace(c: char) {
    var n := c as int;
    || n == 0x20 || 0x09 <= n <= 0x0D
    || n == 0x85 || n == 0xA0 || n == 0x1680
    || 0x2000 <= n <= 0x200A || n == 0x2028 || n == 0x2029
    || n == 0x202F || n == 0x205F || n == 0x3000
  }

  /** The stripping of surrounding whitespace that `int()` does. */
  function Strip(s: string): (r: string)
    ensures |r| <= |s|
    ensures |r| > 0 ==> !IsSpace(r[0]) && !IsSpace(r[|r| - 1])
    ensures |s| > 0 && !IsSpace(s[0]) && !IsSpace(s[|s| - 1]) ==> r == s
  {
    if |s| == 0 then ""
    else if IsSpace(s[0]) then Strip(s[1..])
    else if IsSpace(s[|s| - 1]) then Strip(s[..|s| - 1])
    else s
  }

  /** The value of one digit character in `base`, or -1 when it is not one.
      Python reads every decimal digit by its numeric value, in any base;
      letters above 9 are only the ASCII ones. */
  function DigitValue(c: char, base: nat): (d: int)
    requires base == 10 || base == 16
    ensures -1 <= d < base as int
  {
    if '0' <= c <= '9' then c as int - '0' as int
    else if 0xFF10 <= c as int <= 0xFF19 then c as int - 0xFF10
    else if base == 16 && 'a' <= c <= 'f' then c as int - 'a' as int + 10
    else if base == 16 && 'A' <= c <= 'F' then c as int - 'A' as int + 10
    else -1
  }

  predicate IsDigit(c: char, base: nat)
    requires base == 10 || base == 16
  {
    DigitValue(c, base) >= 0
  }

  /** Digits with single underscores between them, as `int()` accepts. */
  predicate WellFormedDigits(s: string, base: nat)
    requires base == 10 || base == 16
  {
    && |s| > 0
    && IsDigit(s[0], base)
    && IsDigit(s[|s| - 1], base)
    && (forall i :: 0 <= i < |s| ==> IsDigit(s[i], base) || s[i] == '_')
    && (forall i :: 0 <= i < |s| - 1 && s[i] == '_' ==> s[i + 1] != '_')
  }

  /** The value of a digit string, underscores ignored. */
  function DigitsValue(s: string, base: nat): (v: nat)
    requires base == 10 || base == 16
  {
    if |s| == 0 then 0
    else
      var last := s[|s| - 1];
      if last == '_' then DigitsValue(s[..|s| - 1], base)
      else DigitsValue(s[..|s| - 1], base) * base + (if IsDigit(last, base) then DigitValue(last, base) else 0)
  }

  /** The unsigned part of the text: after whitespace and sign, and in
      base 16 after a `0x`/`0X` prefix and the one `_` it may carry. */
  function Body(s: string, base: nat): string
    requires base == 10 || base == 16
  {
    var t := Strip(s);
    var u := if |t| > 0 && (t[0] == '-' || t[0] == '+') then t[1..] else t;
    if base == 16 && |u| >= 2 && u[0] == '0' && (u[1] == 'x' || u[1] == 'X') then
      (if |u| >= 3 && u[2] == '_' then u[3..] else u[2..])
    else u
  }

  predicate IsNegative(s: string) {
    var t := Strip(s);
    |t| > 0 && t[0] == '-'
  }

  /** Python's `int(s, base)`: the value, or `ValueError`. */
  function ParseInt(s: string, base: nat): (r: Result<int>)
    requires base == 10 || base == 16
    ensures r.Success? <==> WellFormedDigits(Body(s, base), base)
    ensures r.Success? ==> r.value == (if IsNegative(s) then -1 else 1) * DigitsValue(Body(s, base), base)
  {
    var body := Body(s, base);
    if WellFormedDigits(body, base) then
      var v: int := DigitsValue(body, base);
      Success(if IsNegative(s) then -v else v)
    else Failure("ValueError")
  }

  /** Python's `str(n)` for a natural number: decimal digits, no leading
      zero except for zero itself. */
  function NatToString(n: nat): (r: string)
    ensures |r| > 0
    ensures forall i :: 0 <= i < |r| ==> '0' <= r[i] <= '9'
    ensures |r| > 1 ==> r[0] != '0'
  {
    var d := ['0' + (n % 10) as char];
    if n < 10 then d else NatToString(n / 10) + d
  }

  /** Python's `str(n)` for any integer. */
  function IntToString(n: int): (r: string)
  {
    if n < 0 then "-" + NatToString(-n) else NatToString(n)
  }

  /** `str(n)` is never empty and uses only digits and the minus sign. */
  lemma IntToStringChars(n: int)
    ensures |IntToString(n)| > 0
    ensures forall i :: 0 <= i < |IntToString(n)| ==>
      IntToString(n)[i] == '-' || '0' <= IntToString(n)[i] <= '9'
  {
  }

  /** Reading back a printed natural number gives the number. */
  lemma {:induction false} NatToStringValue(n: nat)
    ensures DigitsValue(NatToString(n), 10) == n
    ensures WellFormedDigits(NatToString(n), 10)
  {
    var d := ['0' + (n % 10) as char];
    if n >= 10 {
      NatToStringValue(n / 10);
      var s := NatToString(n / 10) + d;
      assert s[..|s| - 1] == NatToString(n / 10);
    }
  }

  /** `int(str(n)) == n`: the box writer's numbers parse back exactly. */
  lemma ParseIntToString(n: int)
    ensures ParseInt(IntToString(n), 10) == Success(n)
  {
    var s := IntToString(n);
    var m := if n < 0 then -n else n;
    NatToStringValue(m);
    var digits := NatToString(m);
    assert !IsSpace(s[0]) && !IsSpace(s[|s| - 1]);
    assert Strip(s) == s;
    if n < 0 {
      assert s[1..] == digits;
    }
    assert Body(s, 10) == digits;
  }

  /** A plain string of hexadecimal digits parses in base 16 to its
      digit value; this is how colour codes are read. */
  lemma ParseHexDigits(d: string)
    requires |d| > 0 && forall i :: 0 <= i < |d| ==> IsDigit(d[i], 16)
    ensures ParseInt(d, 16) == Success(DigitsValue(d, 16))
  {
    DigitsBody(d, 16);
  }

  /** A string of decimal digits, ASCII or full-width, with or without a
      minus sign, parses to its value. */
  lemma ParseIntDecimal(d: string)
    requires |d| > 0 && forall i :: 0 <= i < |d| ==> IsDigit(d[i], 10)
    ensures ParseInt(d, 10) == Success(DigitsValue(d, 10))
    ensures ParseInt("-" + d, 10) == Success(-(DigitsValue(d, 10) as int))
  {
    PlainDigits(d);
    NegatedDigits(d, "-" + d);
  }

  lemma PlainDigits(d: string)
    requires |d| > 0 && forall i :: 0 <= i < |d| ==> IsDigit(d[i], 10)
    ensures WellFormedDigits(d, 10) && !IsSpace(d[|d| - 1])
    ensures ParseInt(d, 10) == Success(DigitsValue(d, 10))
  {
    DigitsBody(d, 10);
  }

  lemma NegatedDigits(d: string, m: string)
    requires WellFormedDigits(d, 10) && !IsSpace(d[|d| - 1]) && m == "-" + d
    ensures ParseInt(m, 10) == Success(-(DigitsValue(d, 10) as int))
  {
    assert m[0] == '-' && m[|m| - 1] == d[|d| - 1] && m[1..] == d;
    assert Strip(m) == m;
    assert Body(m, 10) == d;
  }

  /** A character that is not a digit, an underscore, whitespace, a sign
      or a letter of the `0x` prefix makes `int` raise `ValueError`,
      wherever it stands. */
  lemma ParseIntRejects(s: string, base: nat, i: nat)
    requires base == 10 || base == 16
    requires i < |s| && !IsDigit(s[i], base) && s[i] != '_' && !IsSpace(s[i])
    requires s[i] != '-' && s[i] != '+' && s[i] != 'x' && s[i] != 'X'
    ensures ParseInt(s, base).Failure?
  {
    var c := s[i];
    StripKeeps(s, c);
    var t := Strip(s);
    var u := if |t| > 0 && (t[0] == '-' || t[0] == '+') then t[1..] else t;
    assert c in u by {
      var k :| 0 <= k < |t| && t[k] == c;
      if |t| > 0 && (t[0] == '-' || t[0] == '+') {
        assert u[k - 1] == c;
      }
    }
    var b := Body(s, base);
    assert c in b by {
      var k :| 0 <= k < |u| && u[k] == c;
      if base == 16 && |u| >= 2 && u[0] == '0' && (u[1] == 'x' || u[1] == 'X') {
        assert k >= 2 && c != '0';
        if |u| >= 3 && u[2] == '_' {
          assert b[k - 3] == c;
        } else {
          assert b[k - 2] == c;
        }
      }
    }
  }
  /** `int("\x1c7")` raises: the information separators that
      `str.isspace()` accepts are not stripped by `int()`. */
  lemma SeparatorIsNotStripped()
    ensures ParseInt([28 as char, '7'], 10).Failure?
    ensures ParseInt([' ', '7'], 10) == Success(7)
  {
    ParseIntRejects([28 as char, '7'], 10, 0);
    assert [' ', '7'] == " " + "7";
    ParseIntDecimal("7");
  }


  /** `strip` takes only whitespace away. */
  lemma {:induction false} StripKeeps(s: string, c: char)
    requires c in s && !IsSpace(c)
    ensures c in Strip(s)
    decreases |s|
  {
    if IsSpace(s[0]) {
      var k :| 0 <= k < |s| && s[k] == c;
      assert s[1..][k - 1] == c;
      StripKeeps(s[1..], c);
    } else if IsSpace(s[|s| - 1]) {
      var k :| 0 <= k < |s| && s[k] == c;
      assert s[..|s| - 1][k] == c;
      StripKeeps(s[..|s| - 1], c);
    }
  }

  /** Nothing is stripped from a plain string of digits. */
  lemma DigitsBody(d: string, base: nat)
    requires base == 10 || base == 16
    requires |d| > 0 && forall i :: 0 <= i < |d| ==> IsDigit(d[i], base)
    ensures Strip(d) == d && Body(d, base) == d && !IsNegative(d) && WellFormedDigits(d, base)
    ensures !IsSpace(d[|d| - 1])
  {
    assert Strip(d) == d && !IsSpace(d[|d| - 1]) by {
      DigitIsPlain(d[0], base);
      DigitIsPlain(d[|d| - 1], base);
    }
    assert d[0] != '-' && d[0] != '+' by {
      DigitIsPlain(d[0], base);
    }
    assert |d| >= 2 ==> d[1] != 'x' && d[1] != 'X' by {
      if |d| >= 2 {
        DigitIsPlain(d[1], base);
      }
    }
    assert WellFormedDigits(d, base) by {
      forall i | 0 <= i < |d| ensures d[i] != '_' {
        DigitIsPlain(d[i], base);
      }
    }
  }

  /** A digit is no whitespace, sign, underscore or prefix letter. */
  lemma DigitIsPlain(c: char, base: nat)
    requires base == 10 || base == 16
    requires IsDigit(c, base)
    ensures !IsSpace(c) && c != '-' && c != '+' && c != '_' && c != 'x' && c != 'X'
  {
  }
}

=== FILE: regions.dfy ===
/** The region and group model of retcom.py: the page list `bboxes` of
    `BoundingBox` regions, the per-scene registry `BoundingBoxGroup.groups`
    (group number to the group or None) with its counter `groupNo`, each
    group's member list `items` and each region's back-reference `group`.

    Regions and groups are Python objects compared by identity. Here a
    region is an integer ID and a group is its number, which the counter
    never hands out twice. A group object outlives its registry slot, so the
    member lists of all groups ever created are kept in `members`, and
    `registry` says whether the slot still holds the group (true) or was set
    to None (false).
 */
module Regions {
  import opened Wrappers
  import opened Seqs

  type RegionId = int

  /** A `BoundingBox`: its text, its integer scene geometry (top-left corner
      and size), the suspicion flag and the back-reference `group`. */
  datatype Region = Region(
    text: string,
    x: int, y: int, w: int, h: int,
    flagged: bool,
    group: Option<int>)

  /** The state the region operations share. */
  datatype Session = Session(
    bboxes: seq<RegionId>,                // `RetCom.bboxes`, the page list
    regions: map<RegionId, Region>,       // every region object ever created
    members: map<int, seq<RegionId>>,     // `items` of every group ever created
    registry: map<int, bool>,             // `groups[scene]`: holds group n, or None
    counter: int)                         // `groupNo[scene]`, the next number

  /** A fresh scene: no regions, no groups, the counter at 1. */
  const Empty: Session := Session([], map[], map[], map[], 1)

  /** `groups[scene][n]` is truthy; a missing key reads as None. */
  predicate Live(s: Session, n: int) {
    n in s.registry && s.registry[n]
  }

  /** Every ID and group number in use names an existing object: what
      Python's object references guarantee by construction. A registry slot
      may hold None for a number no group ever had, since reading a missing
      key of the `defaultdict` stores None under it. */
  ghost predicate WellFormed(s: Session) {
    && (forall x :: x in s.bboxes ==> x in s.regions)
    && (forall n, x :: n in s.members && x in s.members[n] ==> x in s.regions)
    && (forall x :: x in s.regions && s.regions[x].group.Some? ==> s.regions[x].group.value in s.members)
    && (forall n :: Live(s, n) ==> n in s.members)
  }

  /** The design invariant the editor relies on: the page list has no
      repeats, groups 1 .. counter-1 are exactly the groups created, a
      disbanded group has no members, and the live groups partition their
      members, each member pointing back at its one group. */
  ghost predicate Valid(s: Session) {
    && WellFormed(s)
    && NoDup(s.bboxes)
    && s.counter >= 1
    && (forall n :: n in s.members <==> 1 <= n < s.counter)
    && (forall n :: n in s.registry <==> n in s.members)
    && (forall n :: n in s.members ==> GroupOk(s, n))
    && (forall x :: x in s.regions && s.regions[x].group.Some? ==>
          x in s.members[s.regions[x].group.value])
  }

  /** Group n lists distinct page regions that all point back at it, and
      has members only while it is registered. */
  ghost predicate GroupOk(s: Session, n: int)
    requires WellFormed(s) && n in s.members
  {
    && NoDup(s.members[n])
    && (s.members[n] != [] ==> Live(s, n))
    && (forall x :: x in s.members[n] ==> x in s.bboxes && s.regions[x].group == Some(n))
  }

  lemma EmptyIsValid()
    ensures Valid(Empty)
  {
  }

  /** Under `Valid`, no region is listed by two groups. */
  lemma MemberOfOneGroup(s: Session, n: int, m: int, x: RegionId)
    requires Valid(s)
    requires n in s.members && m in s.members && x in s.members[n] && x in s.members[m]
    ensures n == m
  {
    assert s.regions[x].group == Some(n);
    assert s.regions[x].group == Some(m);
  }

  /** `regions` with the back-reference of every region in `ids` set to `g`. */
  function SetGroup(regions: map<RegionId, Region>, ids: set<RegionId>, g: Option<int>): (r: map<RegionId, Region>)
    ensures r.Keys == regions.Keys
    ensures forall x :: x in regions && x in ids ==> r[x] == regions[x].(group := g)
    ensures forall x :: x in regions && x !in ids ==> r[x] == regions[x]
  {
    map x | x in regions :: if x in ids then regions[x].(group := g) else regions[x]
  }

  // ------------------------------------------------------ BoundingBoxGroup

  /** `BoundingBoxGroup(items, scene)`: takes the counter as its number,
      registers itself there, and points each item's back-reference at
      itself without detaching the item from an earlier group. */
  function NewGroup(s: Session, items: seq<RegionId>): (r: Session)
    requires WellFormed(s)
    requires forall x :: x in items ==> x in s.regions
    ensures WellFormed(r)
    ensures r.counter == s.counter + 1
    ensures Live(r, s.counter) && r.members[s.counter] == items
    ensures forall x :: x in items ==> r.regions[x].group == Some(s.counter)
    ensures r.bboxes == s.bboxes && r.regions.Keys == s.regions.Keys
    ensures forall x :: x in s.regions && x !in items ==> r.regions[x] == s.regions[x]
    ensures forall n :: n != s.counter ==>
      (n in r.members <==> n in s.members) && (n in s.members ==> r.members[n] == s.members[n])
    ensures forall n :: n != s.counter ==>
      (n in r.registry <==> n in s.registry) && (n in s.registry ==> r.registry[n] == s.registry[n])
  {
    var n := s.counter;
    Session(
      s.bboxes,
      SetGroup(s.regions, (set x | x in items), Some(n)),
      s.members[n := items],
      s.registry[n := true],
      n + 1)
  }

  /** `BoundingBoxGroup.add`: append the region and point it at the group. */
  function Add(s: Session, n: int, x: RegionId): (r: Session)
    requires WellFormed(s) && n in s.members && x in s.regions
    ensures WellFormed(r)
    ensures r.regions.Keys == s.regions.Keys && r.members.Keys == s.members.Keys
    ensures r.members[n] == s.members[n] + [x] && r.regions[x].group == Some(n)
    ensures r.bboxes == s.bboxes && r.registry == s.registry && r.counter == s.counter
    ensures forall y :: y in s.regions && y != x ==> r.regions[y] == s.regions[y]
    ensures forall m :: m in s.members && m != n ==> r.members[m] == s.members[m]
  {
    s.(members := s.members[n := s.members[n] + [x]],
       regions := s.regions[x := s.regions[x].(group := Some(n))])
  }

  /** `BoundingBoxGroup.remove`: drop the region's first occurrence from the
      members (`ValueError` when it is not there) and clear its
      back-reference. The group stays registered even when it empties. */
  function Remove(s: Session, n: int, x: RegionId): (r: Result<Session>)
    requires WellFormed(s) && n in s.members
    ensures r.Success? <==> x in s.members[n]
    ensures r.Success? ==>
      && WellFormed(r.value)
      && r.value.regions.Keys == s.regions.Keys && r.value.members.Keys == s.members.Keys
      && x in s.regions
      && r.value.members[n] == RemoveFirst(s.members[n], x)
      && r.value.regions[x].group == None
      && r.value.bboxes == s.bboxes && r.value.registry == s.registry && r.value.counter == s.counter
      && (forall y :: y in s.regions && y != x ==> r.value.regions[y] == s.regions[y])
      && (forall m :: m in s.members && m != n ==> r.value.members[m] == s.members[m])
  {
    if x !in s.members[n] then Failure("ValueError")
    else
      var items := RemoveFirst(s.members[n], x);
      assert forall y :: y in items ==> y in s.members[n];
      Success(s.(members := s.members[n := items],
                 regions := s.regions[x := s.regions[x].(group := None)]))
  }

  /** `BoundingBoxGroup.disband`: the registry slot becomes None; the
      number is not reused and the members keep their back-references. */
  function Disband(s: Session, n: int): (r: Session)
    requires WellFormed(s) && n in s.members
    ensures WellFormed(r)
    ensures !Live(r, n) && n in r.registry
    ensures forall m :: m != n ==> Live(r, m) == Live(s, m)
    ensures r.bboxes == s.bboxes && r.regions == s.regions && r.members == s.members
    ensures r.counter == s.counter
  {
    s.(registry := s.registry[n := false])
  }

  /** The live group numbers, in increasing order. */
  function LiveGroups(s: Session): (r: seq<int>)
    ensures Increasing(r)
    ensures forall n :: n in r <==> Live(s, n)
  {
    SelectIncreasing(SortedInts(s.registry.Keys), set n | n in s.registry && s.registry[n]);
    Select(SortedInts(s.registry.Keys), set n | n in s.registry && s.registry[n])
  }

  /** `groups[scene][n]` on a `defaultdict`: reading a missing number
      stores None under it. */
  function Lookup(s: Session, n: int): (r: Session)
    requires WellFormed(s)
    ensures WellFormed(r) && n in r.registry
    ensures forall m :: Live(r, m) == Live(s, m)
    ensures r.registry.Keys == s.registry.Keys + {n}
    ensures r.bboxes == s.bboxes && r.regions == s.regions && r.members == s.members && r.counter == s.counter
  {
    if n in s.registry then s else s.(registry := s.registry[n := false])
  }

  // ------------------------------------------- what the primitives preserve

  /** A new group keeps the invariant when its members are distinct
      regions on the page that belong to no group yet. */
  lemma NewGroupValid(s: Session, items: seq<RegionId>)
    requires Valid(s)
    requires NoDup(items)
    requires forall x :: x in items ==> x in s.bboxes && s.regions[x].group == None
    ensures Valid(NewGroup(s, items))
  {
    var r := NewGroup(s, items);
    forall n | n in r.members ensures GroupOk(r, n) {
      NewGroupOk(s, items, n);
    }
    forall x | x in r.regions && r.regions[x].group.Some?
      ensures x in r.members[r.regions[x].group.value]
    {
      if x !in items {
        assert r.regions[x] == s.regions[x];
        assert r.regions[x].group.value != s.counter;
      }
    }
  }

  /** Each group of the new state, old or new, is in order. */
  lemma NewGroupOk(s: Session, items: seq<RegionId>, n: int)
    requires Valid(s)
    requires NoDup(items)
    requires forall x :: x in items ==> x in s.bboxes && s.regions[x].group == None
    requires n in NewGroup(s, items).members
    ensures GroupOk(NewGroup(s, items), n)
  {
    var r := NewGroup(s, items);
    if n != s.counter {
      assert GroupOk(s, n);
      assert r.members[n] == s.members[n];
      forall x | x in r.members[n] ensures x in r.bboxes && r.regions[x].group == Some(n) {
        assert s.regions[x].group == Some(n);
        assert x !in items;
      }
    }
  }

  /** Adding an ungrouped page region to a live group keeps the invariant. */
  lemma AddValid(s: Session, n: int, x: RegionId)
    requires Valid(s) && Live(s, n) && x in s.bboxes && s.regions[x].group == None
    ensures Valid(Add(s, n, x))
  {
    var r := Add(s, n, x);
    assert x !in s.members[n];
    assert NoDup(r.members[n]);
    forall m, y | m in r.members && y in r.members[m]
      ensures Live(r, m) && y in r.bboxes && r.regions[y].group == Some(m)
    {
      if m != n {
        assert y in s.members[m];
        assert Live(s, m);
        assert y != x;
      } else if y != x {
        assert y in s.members[n];
      }
      assert Live(r, m);
    }
    forall y | y in r.regions && r.regions[y].group.Some?
      ensures y in r.members[r.regions[y].group.value]
    {
      if y != x {
        assert r.regions[y] == s.regions[y];
      }
    }
  }

  /** Removing a member from its group keeps the invariant. */
  lemma RemoveValid(s: Session, n: int, x: RegionId)
    requires Valid(s) && n in s.members && x in s.members[n]
    ensures Valid(Remove(s, n, x).value)
  {
    var r := Remove(s, n, x).value;
    forall m | m in r.members ensures GroupOk(r, m) {
      RemoveGroupOk(s, n, x, m);
    }
    forall y | y in r.regions && r.regions[y].group.Some?
      ensures y in r.members[r.regions[y].group.value]
    {
      assert y != x;
      assert r.regions[y] == s.regions[y];
      var m := s.regions[y].group.value;
      assert y in s.members[m];
      if m == n {
        assert y in RemoveFirst(s.members[n], x);
      }
    }
  }

  /** After removing a member every group is still in order. */
  lemma RemoveGroupOk(s: Session, n: int, x: RegionId, m: int)
    requires Valid(s) && n in s.members && x in s.members[n]
    requires m in Remove(s, n, x).value.members
    ensures GroupOk(Remove(s, n, x).value, m)
  {
    var r := Remove(s, n, x).value;
    assert GroupOk(s, m);
    if m == n {
      assert NoDup(r.members[n]) && x !in r.members[n] by {
        RemoveFirstNoDup(s.members[n], x);
      }
      forall y | y in r.members[n] ensures y in r.bboxes && r.regions[y].group == Some(n) {
        assert y in s.members[n] by {
          assert y in RemoveFirst(s.members[n], x);
        }
      }
    } else {
      assert r.members[m] == s.members[m];
      forall y | y in r.members[m] ensures y in r.bboxes && r.regions[y].group == Some(m) {
        if y == x {
          MemberOfOneGroup(s, n, m, x);
        }
      }
    }
  }

  /** An ungrouped region on the page may join a live group at any place
      of its member list, as long as the list stays free of repeats and
      gains nothing else. */
  lemma JoinValid(s: Session, n: int, x: RegionId, items: seq<RegionId>)
    requires Valid(s) && Live(s, n) && x in s.bboxes && s.regions[x].group == None
    requires NoDup(items) && forall y :: y in items <==> y in s.members[n] || y == x
    ensures Valid(s.(regions := s.regions[x := s.regions[x].(group := Some(n))],
                     members := s.members[n := items]))
  {
    var r := s.(regions := s.regions[x := s.regions[x].(group := Some(n))],
                members := s.members[n := items]);
    forall m, y | m in r.members && y in r.members[m]
      ensures Live(r, m) && y in r.bboxes && r.regions[y].group == Some(m)
    {
      if m != n {
        assert y in s.members[m];
        assert Live(s, m);
        assert y != x;
      } else if y != x {
        assert y in s.members[n];
      }
    }
    forall y | y in r.regions && r.regions[y].group.Some?
      ensures y in r.members[r.regions[y].group.value]
    {
      if y != x {
        assert r.regions[y] == s.regions[y];
      }
    }
    forall m | m in r.members ensures NoDup(r.members[m]) {
      if m != n { assert r.members[m] == s.members[m]; }
    }
  }

  /** Reordering a group's member list keeps the invariant. */
  lemma ReorderGroupValid(s: Session, n: int, items: seq<RegionId>)
    requires Valid(s) && n in s.members
    requires NoDup(items) && forall y :: y in items <==> y in s.members[n]
    ensures Valid(s.(members := s.members[n := items]))
  {
    var r := s.(members := s.members[n := items]);
    forall m, y | m in r.members && y in r.members[m]
      ensures Live(r, m) && y in r.bboxes && r.regions[y].group == Some(m)
    {
      assert y in s.members[m];
      assert GroupOk(s, m);
    }
    forall y | y in r.regions && r.regions[y].group.Some?
      ensures y in r.members[r.regions[y].group.value]
    {
      assert y in s.members[s.regions[y].group.value];
    }
    forall m | m in r.members ensures GroupOk(r, m) {
      assert GroupOk(s, m);
      if m != n {
        assert r.members[m] == s.members[m];
      } else if items != [] {
        var y := items[0];
        assert y in items;
        assert y in s.members[n];
      }
    }
  }

  /** Reordering the page keeps the invariant. */
  lemma ReorderPageValid(s: Session, p: seq<RegionId>)
    requires Valid(s)
    requires NoDup(p) && forall y :: y in p <==> y in s.bboxes
    ensures Valid(s.(bboxes := p))
  {
    var r := s.(bboxes := p);
    forall m, y | m in r.members && y in r.members[m]
      ensures Live(r, m) && y in r.bboxes && r.regions[y].group == Some(m)
    {
      assert GroupOk(s, m);
    }
  }

  /** Disbanding keeps the invariant exactly when the group has no members. */
  lemma DisbandValid(s: Session, n: int)
    requires Valid(s) && n in s.members
    ensures Valid(Disband(s, n)) <==> s.members[n] == []
  {
    var r := Disband(s, n);
    if s.members[n] != [] {
      var x := s.members[n][0];
      assert x in r.members[n];
      assert !GroupOk(r, n);
    } else {
      forall m, y | m in r.members && y in r.members[m]
        ensures Live(r, m) && y in r.bboxes && r.regions[y].group == Some(m)
      {
        assert m != n;
        assert y in s.members[m];
      }
    }
  }

  // ------------------------------------------------ removeSelectedFromGroup

  /** One iteration of `removeSelectedFromGroup`: a grouped region leaves
      its group, and a group left without members is disbanded. Items that
      are not regions are skipped. */
  function DetachStep(s: Session, x: RegionId): (r: Result<Session>)
    requires WellFormed(s)
    ensures r.Success? ==>
      && WellFormed(r.value)
      && r.value.bboxes == s.bboxes && r.value.counter == s.counter
      && r.value.regions.Keys == s.regions.Keys && r.value.members.Keys == s.members.Keys
  {
    if x !in s.regions then Success(s)
    else match s.regions[x].group
      case None => Success(s)
      case Some(n) =>
        match Remove(s, n, x)
        case Failure(e) => Failure(e)
        case Success(s1) => Success(if s1.members[n] == [] then Disband(s1, n) else s1)
  }

  /** `removeSelectedFromGroup` over the selected items in selection order. */
  function RemoveSelectedFromGroup(s: Session, sel: seq<RegionId>): (r: Result<Session>)
    requires WellFormed(s)
    ensures r.Success? ==>
      && WellFormed(r.value)
      && r.value.bboxes == s.bboxes && r.value.counter == s.counter
      && r.value.regions.Keys == s.regions.Keys && r.value.members.Keys == s.members.Keys
  {
    if |sel| == 0 then Success(s)
    else
      match RemoveSelectedFromGroup(s, sel[..|sel| - 1])
      case Failure(e) => Failure(e)
      case Success(s1) => DetachStep(s1, sel[|sel| - 1])
  }

  /** The state after `removeSelectedFromGroup` with the items `done`
      processed: selected regions are ungrouped, everything else is as it
      was, every group lost exactly its selected members (keeping the order
      of the rest), and a group is disbanded exactly when it had members and
      all of them were selected. */
  ghost predicate DetachedAfter(s: Session, r: Session, done: set<RegionId>) {
    && r.regions.Keys == s.regions.Keys && r.members.Keys == s.members.Keys
    && UngroupedAfter(s, r, done)
    && ListedAfter(s, r, done)
    && LiveAfter(s, r, done)
  }

  ghost predicate UngroupedAfter(s: Session, r: Session, done: set<RegionId>) {
    forall x :: x in s.regions ==>
      x in r.regions && r.regions[x] == if x in done then s.regions[x].(group := None) else s.regions[x]
  }

  ghost predicate ListedAfter(s: Session, r: Session, done: set<RegionId>) {
    forall n :: n in s.members ==> n in r.members && r.members[n] == Without(s.members[n], done)
  }

  ghost predicate LiveAfter(s: Session, r: Session, done: set<RegionId>) {
    forall n :: n in s.members ==>
      (Live(r, n) <==> Live(s, n) && (s.members[n] == [] || Without(s.members[n], done) != []))
  }

  /** Before the loop nothing has been processed. */
  lemma DetachedAtStart(s: Session)
    requires Valid(s)
    ensures DetachedAfter(s, s, {})
  {
    forall n | n in s.members ensures Without(s.members[n], {}) == s.members[n] {
      WithoutNothing(s.members[n]);
    }
  }

  /** On a valid state `removeSelectedFromGroup` never raises, keeps the
      invariant, and leaves exactly the state `DetachedAfter` describes. */
  lemma {:induction false} RemoveSelectedFromGroupSpec(s: Session, sel: seq<RegionId>)
    requires Valid(s)
    ensures var r := RemoveSelectedFromGroup(s, sel);
      && r.Success? && Valid(r.value)
      && r.value.bboxes == s.bboxes && r.value.counter == s.counter
      && DetachedAfter(s, r.value, set x | x in sel)
  {
    if |sel| == 0 {
      assert (set x | x in sel) == {};
      DetachedAtStart(s);
    } else {
      var p := sel[..|sel| - 1];
      var x := sel[|sel| - 1];
      RemoveSelectedFromGroupSpec(s, p);
      var s1 := RemoveSelectedFromGroup(s, p).value;
      assert sel == p + [x];
      assert (set y | y in sel) == (set y | y in p) + {x};
      if x in s1.regions && s1.regions[x].group.Some? {
        DetachGrouped(s, s1, (set y | y in p), x, s1.regions[x].group.value);
      } else {
        DetachUngrouped(s, s1, (set y | y in p), x);
      }
    }
  }

  /** The step for an item that is not a grouped region changes nothing. */
  lemma DetachUngrouped(s: Session, s1: Session, done: set<RegionId>, x: RegionId)
    requires Valid(s) && Valid(s1) && DetachedAfter(s, s1, done)
    requires !(x in s1.regions && s1.regions[x].group.Some?)
    ensures DetachStep(s1, x) == Success(s1)
    ensures DetachedAfter(s, s1, done + {x})
  {
    if x in done {
      assert done + {x} == done;
    } else {
      assert x in s.regions ==> s1.regions[x] == s.regions[x];
      forall n | n in s.members
        ensures Without(s.members[n], done + {x}) == Without(s.members[n], done)
      {
        assert x !in s.members[n];
        WithoutAbsent(s.members[n], done, x);
      }
    }
  }

  /** The step for a grouped region: it leaves its group, which is
      disbanded when nothing is left. */
  lemma DetachGrouped(s: Session, s1: Session, done: set<RegionId>, x: RegionId, n: int)
    requires Valid(s) && Valid(s1) && DetachedAfter(s, s1, done)
    requires x in s1.regions && s1.regions[x].group == Some(n)
    ensures var r := DetachStep(s1, x);
      && r.Success? && Valid(r.value)
      && DetachedAfter(s, r.value, done + {x})
  {
    assert x in s1.members[n];
    DetachGroupedValid(s1, x, n);
    assert x !in done;
    assert s.regions[x].group == Some(n);
    assert x in s.members[n] && Live(s, n);
    assert forall m :: m in s.members && m != n ==> x !in s.members[m];
    DetachGroupedAfter(s, s1, done, x, n);
  }

  /** The grouped step keeps the invariant. */
  lemma DetachGroupedValid(s1: Session, x: RegionId, n: int)
    requires Valid(s1) && x in s1.regions && s1.regions[x].group == Some(n)
    ensures DetachStep(s1, x).Success? && Valid(DetachStep(s1, x).value)
  {
    assert x in s1.members[n];
    var s2 := Remove(s1, n, x).value;
    assert Valid(s2) by {
      RemoveValid(s1, n, x);
    }
    if s2.members[n] == [] {
      assert DetachStep(s1, x) == Success(Disband(s2, n));
      DisbandValid(s2, n);
    } else {
      assert DetachStep(s1, x) == Success(s2);
    }
  }

  /** What the grouped step does, field by field. */
  lemma DetachStepShape(s1: Session, x: RegionId, n: int)
    requires WellFormed(s1) && x in s1.regions && s1.regions[x].group == Some(n) && x in s1.members[n]
    ensures var r := DetachStep(s1, x);
      var rest := RemoveFirst(s1.members[n], x);
      && r.Success?
      && r.value.regions == s1.regions[x := s1.regions[x].(group := None)]
      && r.value.members == s1.members[n := rest]
      && r.value.registry == (if rest == [] then s1.registry[n := false] else s1.registry)
  {
  }

  /** The grouped step adds `x` to what has been processed. */
  lemma DetachGroupedAfter(s: Session, s1: Session, done: set<RegionId>, x: RegionId, n: int)
    requires WellFormed(s1) && DetachedAfter(s, s1, done)
    requires x in s.regions && x !in done && s.regions[x].group == Some(n)
    requires n in s.members && x in s.members[n] && Live(s, n) && NoDup(s.members[n])
    requires forall m :: m in s.members && m != n ==> x !in s.members[m]
    ensures var r := DetachStep(s1, x);
      && r.Success? && DetachedAfter(s, r.value, done + {x})
  {
    DetachStepShape(s1, x, n);
    var rest := RemoveFirst(s1.members[n], x);
    assert rest == Without(s.members[n], done + {x}) by {
      WithoutRemove(s.members[n], done, x);
    }
    var r := DetachStep(s1, x).value;
    DetachShapeAfter(s, s1, r, done, x, n, rest);
  }

  /** The step's shape, read against what had been processed before it. */
  lemma DetachShapeAfter(s: Session, s1: Session, r: Session, done: set<RegionId>, x: RegionId, n: int, rest: seq<RegionId>)
    requires DetachedAfter(s, s1, done)
    requires x in s.regions && x !in done
    requires n in s.members && Live(s, n) && x in s.members[n]
    requires forall m :: m in s.members && m != n ==> x !in s.members[m]
    requires rest == Without(s.members[n], done + {x})
    requires r.regions == s1.regions[x := s1.regions[x].(group := None)]
    requires r.members == s1.members[n := rest]
    requires r.registry == (if rest == [] then s1.registry[n := false] else s1.registry)
    ensures DetachedAfter(s, r, done + {x})
  {
    assert UngroupedAfter(s, r, done + {x}) by {
      DetachUngroupedAfter(s, s1, r, done, x);
    }
    assert ListedAfter(s, r, done + {x}) by {
      DetachOtherGroups(s, r, done, x, n);
    }
    assert LiveAfter(s, r, done + {x}) by {
      assert forall m :: m != n ==> Live(r, m) == Live(s1, m);
      assert Live(r, n) <==> r.members[n] != [];
      DetachLiveness(s, s1, r, done, x, n);
    }
  }

  lemma DetachUngroupedAfter(s: Session, s1: Session, r: Session, done: set<RegionId>, x: RegionId)
    requires UngroupedAfter(s, s1, done) && x in s.regions && x !in done
    requires r.regions == s1.regions[x := s1.regions[x].(group := None)]
    ensures UngroupedAfter(s, r, done + {x})
  {
    forall y | y in s.regions
      ensures y in r.regions && r.regions[y] == if y in done + {x} then s.regions[y].(group := None) else s.regions[y]
    {
      if y != x {
        assert r.regions[y] == s1.regions[y];
      }
    }
  }

  /** Groups other than the region's own lose nothing more. */
  lemma DetachOtherGroups(s: Session, r: Session, done: set<RegionId>, x: RegionId, n: int)
    requires forall m :: m in s.members && m != n ==> x !in s.members[m]
    requires r.members.Keys == s.members.Keys
    requires forall m :: m in s.members && m != n ==> r.members[m] == Without(s.members[m], done)
    ensures forall m :: m in s.members && m != n ==> r.members[m] == Without(s.members[m], done + {x})
  {
    forall m | m in s.members && m != n
      ensures r.members[m] == Without(s.members[m], done + {x})
    {
      WithoutAbsent(s.members[m], done, x);
    }
  }

  /** Only the region's own group can be disbanded, and it is exactly when
      no member is left. */
  lemma DetachLiveness(s: Session, s1: Session, r: Session, done: set<RegionId>, x: RegionId, n: int)
    requires n in s.members && Live(s, n) && s.members[n] != []
    requires forall m :: m in s.members && m != n ==> x !in s.members[m]
    requires forall m :: m in s.members ==>
      (Live(s1, m) <==> Live(s, m) && (s.members[m] == [] || Without(s.members[m], done) != []))
    requires n in r.members && r.members[n] == Without(s.members[n], done + {x})
    requires forall m :: m != n ==> Live(r, m) == Live(s1, m)
    requires Live(r, n) <==> r.members[n] != []
    ensures forall m :: m in s.members ==>
      (Live(r, m) <==> Live(s, m) && (s.members[m] == [] || Without(s.members[m], done + {x}) != []))
  {
    forall m | m in s.members && m != n
      ensures Without(s.members[m], done + {x}) == Without(s.members[m], done)
    {
      WithoutAbsent(s.members[m], done, x);
    }
  }

  // ------------------------------------------- removeSelected, removeFlagged

  /** One iteration of `removeSelected` for a region: it leaves the page
      list (`ValueError` when it is not there) and its group, which stays
      registered even when it empties. Items that are not regions are
      skipped. */
  function RemoveStep(s: Session, x: RegionId): (r: Result<Session>)
    requires WellFormed(s)
    ensures r.Success? ==>
      && WellFormed(r.value)
      && r.value.registry == s.registry && r.value.counter == s.counter
      && r.value.regions.Keys == s.regions.Keys && r.value.members.Keys == s.members.Keys
  {
    if x !in s.regions then Success(s)
    else if x !in s.bboxes then Failure("ValueError")
    else
      var s1 := s.(bboxes := RemoveFirst(s.bboxes, x));
      assert forall y :: y in s1.bboxes ==> y in s.bboxes;
      match s.regions[x].group
      case None => Success(s1)
      case Some(n) => Remove(s1, n, x)
  }

  /** `removeSelected` over the selected items in selection order. */
  function RemoveSelected(s: Session, sel: seq<RegionId>): (r: Result<Session>)
    requires WellFormed(s)
    ensures r.Success? ==>
      && WellFormed(r.value)
      && r.value.registry == s.registry && r.value.counter == s.counter
      && r.value.regions.Keys == s.regions.Keys && r.value.members.Keys == s.members.Keys
  {
    if |sel| == 0 then Success(s)
    else
      match RemoveSelected(s, sel[..|sel| - 1])
      case Failure(e) => Failure(e)
      case Success(s1) => RemoveStep(s1, sel[|sel| - 1])
  }

  /** The state after removing the regions `done`: they are gone from the
      page list and from every member list, their back-references are
      cleared, and nothing else changes; in particular no group is
      disbanded. */
  ghost predicate RemovedAfter(s: Session, r: Session, done: set<RegionId>) {
    && r.regions.Keys == s.regions.Keys && r.members.Keys == s.members.Keys
    && r.registry == s.registry && r.counter == s.counter
    && r.bboxes == Without(s.bboxes, done)
    && UngroupedAfter(s, r, done)
    && ListedAfter(s, r, done)
  }

  /** Removing regions uniformly from a valid state leaves a valid state. */
  lemma RemovedAfterValid(s: Session, r: Session, done: set<RegionId>)
    requires Valid(s) && RemovedAfter(s, r, done)
    ensures Valid(r)
  {
    assert WellFormed(r) by {
      RemovedWellFormed(s, r, done);
    }
    WithoutNoDup(s.bboxes, done);
    forall n | n in r.members ensures GroupOk(r, n) {
      RemovedGroupOk(s, r, done, n);
    }
    forall y | y in r.regions && r.regions[y].group.Some?
      ensures y in r.members[r.regions[y].group.value]
    {
      assert y !in done;
      var m := s.regions[y].group.value;
      assert y in s.members[m];
      assert r.members[m] == Without(s.members[m], done);
    }
  }

  lemma RemovedWellFormed(s: Session, r: Session, done: set<RegionId>)
    requires Valid(s) && RemovedAfter(s, r, done)
    ensures WellFormed(r)
  {
    forall n, x | n in r.members && x in r.members[n] ensures x in r.regions {
      assert x in s.members[n];
    }
    forall x | x in r.regions && r.regions[x].group.Some? ensures r.regions[x].group.value in r.members {
      assert x !in done;
    }
  }

  lemma RemovedGroupOk(s: Session, r: Session, done: set<RegionId>, n: int)
    requires Valid(s) && RemovedAfter(s, r, done) && WellFormed(r) && n in r.members
    ensures GroupOk(r, n)
  {
    assert GroupOk(s, n);
    WithoutNoDup(s.members[n], done);
    if r.members[n] != [] {
      assert r.members[n][0] in s.members[n];
    }
    forall y | y in r.members[n] ensures y in r.bboxes && r.regions[y].group == Some(n) {
      assert y in s.members[n] && y !in done;
    }
  }

  /** On a valid state, removing distinct selected items raises exactly
      when a selected region is not on the page; otherwise the regions are
      removed as `RemovedAfter` says, and the state stays valid. */
  lemma {:induction false} RemoveSelectedSpec(s: Session, sel: seq<RegionId>)
    requires Valid(s) && NoDup(sel)
    ensures var r := RemoveSelected(s, sel);
      && (r.Success? <==> forall x :: x in sel && x in s.regions ==> x in s.bboxes)
      && (r.Success? ==> RemovedAfter(s, r.value, set x | x in sel) && Valid(r.value))
  {
    if |sel| == 0 {
      assert (set x | x in sel) == {};
      RemovedAtStart(s);
    } else {
      var p := sel[..|sel| - 1];
      var x := sel[|sel| - 1];
      assert sel == p + [x];
      assert NoDup(p) && x !in p;
      RemoveSelectedSpec(s, p);
      RemoveSelectedSnoc(s, p, x);
    }
  }

  /** The inductive step of `RemoveSelectedSpec` over the selection. */
  lemma RemoveSelectedSnoc(s: Session, p: seq<RegionId>, x: RegionId)
    requires Valid(s) && x !in p
    requires var r1 := RemoveSelected(s, p);
      && (r1.Success? <==> forall y :: y in p && y in s.regions ==> y in s.bboxes)
      && (r1.Success? ==> RemovedAfter(s, r1.value, set y | y in p) && Valid(r1.value))
    ensures var r := RemoveSelected(s, p + [x]);
      && (r.Success? <==> forall y :: y in p + [x] && y in s.regions ==> y in s.bboxes)
      && (r.Success? ==> RemovedAfter(s, r.value, set y | y in p + [x]) && Valid(r.value))
  {
    var sel := p + [x];
    assert sel[..|sel| - 1] == p && sel[|sel| - 1] == x;
    var done := set y | y in p;
    assert (set y | y in sel) == done + {x};
    var r1 := RemoveSelected(s, p);
    if r1.Success? {
      var r := RemoveStep(r1.value, x);
      assert RemoveSelected(s, sel) == r;
      assert (r.Success? <==> (x in s.regions ==> x in s.bboxes))
          && (r.Success? ==> RemovedAfter(s, r.value, done + {x})) by {
        RemoveStepSpec(s, r1.value, done, x);
      }
      if r.Success? {
        RemovedAfterValid(s, r.value, done + {x});
      }
    } else {
      assert RemoveSelected(s, sel).Failure?;
    }
  }

  /** Before the loop nothing has been removed. */
  lemma RemovedAtStart(s: Session)
    requires Valid(s)
    ensures RemovedAfter(s, s, {})
  {
    WithoutNothing(s.bboxes);
    forall n | n in s.members ensures Without(s.members[n], {}) == s.members[n] {
      WithoutNothing(s.members[n]);
    }
  }

  /** The inductive step of `RemoveSelectedSpec`. */
  lemma RemoveStepSpec(s: Session, s1: Session, done: set<RegionId>, x: RegionId)
    requires Valid(s) && WellFormed(s1) && RemovedAfter(s, s1, done) && x !in done
    ensures var r := RemoveStep(s1, x);
      && (r.Success? <==> (x in s.regions ==> x in s.bboxes))
      && (r.Success? ==> RemovedAfter(s, r.value, done + {x}))
  {
    if x !in s.regions {
      assert x !in s.bboxes;
      assert forall n :: n in s.members ==> x !in s.members[n];
      RemoveAbsent(s, s1, done, x);
    } else if x in s.bboxes {
      var g := s.regions[x].group;
      assert g.Some? ==> g.value in s.members && x in s.members[g.value] && GroupOk(s, g.value);
      assert forall n :: n in s.members && g != Some(n) ==> x !in s.members[n];
      RemovePresent(s, s1, done, x);
    }
  }

  /** Removing an ID that names no region changes nothing. */
  lemma RemoveAbsent(s: Session, s1: Session, done: set<RegionId>, x: RegionId)
    requires WellFormed(s1) && RemovedAfter(s, s1, done)
    requires x !in s.regions && x !in s.bboxes
    requires forall n :: n in s.members ==> x !in s.members[n]
    ensures RemoveStep(s1, x) == Success(s1) && RemovedAfter(s, s1, done + {x})
  {
    WithoutAbsent(s.bboxes, done, x);
    forall n | n in s.members ensures Without(s.members[n], done + {x}) == Without(s.members[n], done) {
      WithoutAbsent(s.members[n], done, x);
    }
  }

  /** What removing a page region does, field by field. */
  lemma RemoveStepShape(s1: Session, x: RegionId)
    requires WellFormed(s1) && x in s1.regions && x in s1.bboxes
    requires var g := s1.regions[x].group; g.Some? ==> x in s1.members[g.value]
    ensures var r := RemoveStep(s1, x);
      var g := s1.regions[x].group;
      && r.Success?
      && r.value.bboxes == RemoveFirst(s1.bboxes, x)
      && r.value.members == (if g.Some? then s1.members[g.value := RemoveFirst(s1.members[g.value], x)] else s1.members)
      && r.value.regions == (if g.Some? then s1.regions[x := s1.regions[x].(group := None)] else s1.regions)
  {
  }

  /** Removing a page region drops it from the page and from its group. */
  lemma RemovePresent(s: Session, s1: Session, done: set<RegionId>, x: RegionId)
    requires WellFormed(s1) && RemovedAfter(s, s1, done) && x !in done
    requires x in s.regions && x in s.bboxes && NoDup(s.bboxes)
    requires var g := s.regions[x].group;
      g.Some? ==> g.value in s.members && x in s.members[g.value] && NoDup(s.members[g.value])
    requires forall n :: n in s.members && s.regions[x].group != Some(n) ==> x !in s.members[n]
    ensures var r := RemoveStep(s1, x);
      r.Success? && RemovedAfter(s, r.value, done + {x})
  {
    match s.regions[x].group
    case None => RemoveUngrouped(s, s1, done, x);
    case Some(n) => RemoveGrouped(s, s1, done, x, n);
  }

  lemma RemoveUngrouped(s: Session, s1: Session, done: set<RegionId>, x: RegionId)
    requires WellFormed(s1) && RemovedAfter(s, s1, done) && x !in done
    requires x in s.regions && x in s.bboxes && NoDup(s.bboxes) && s.regions[x].group == None
    requires forall n :: n in s.members ==> x !in s.members[n]
    ensures var r := RemoveStep(s1, x);
      r.Success? && RemovedAfter(s, r.value, done + {x})
  {
    assert s1.regions[x] == s.regions[x];
    RemoveStepShape(s1, x);
    var r := RemoveStep(s1, x).value;
    assert r.bboxes == Without(s.bboxes, done + {x}) by {
      WithoutRemove(s.bboxes, done, x);
    }
    RemovedAfterUngrouped(s, s1, r, done, x);
  }

  /** The bookkeeping half of `RemoveUngrouped`, stated on the fields. */
  lemma RemovedAfterUngrouped(s: Session, s1: Session, r: Session, done: set<RegionId>, x: RegionId)
    requires RemovedAfter(s, s1, done) && x !in done && x in s.regions && s.regions[x].group == None
    requires forall n :: n in s.members ==> x !in s.members[n]
    requires r.bboxes == Without(s.bboxes, done + {x})
    requires r.members == s1.members && r.regions == s1.regions
    requires r.registry == s1.registry && r.counter == s1.counter
    ensures RemovedAfter(s, r, done + {x})
  {
    assert UngroupedAfter(s, r, done + {x}) by {
      forall y | y in s.regions
        ensures y in r.regions && r.regions[y] == if y in done + {x} then s.regions[y].(group := None) else s.regions[y]
      {
        if y == x {
          assert s.regions[y].(group := None) == s.regions[y];
        }
      }
    }
    assert ListedAfter(s, r, done + {x}) by {
      forall n | n in s.members
        ensures n in r.members && r.members[n] == Without(s.members[n], done + {x})
      {
        WithoutAbsent(s.members[n], done, x);
      }
    }
  }

  lemma RemoveGrouped(s: Session, s1: Session, done: set<RegionId>, x: RegionId, n: int)
    requires WellFormed(s1) && RemovedAfter(s, s1, done) && x !in done
    requires x in s.regions && x in s.bboxes && NoDup(s.bboxes) && s.regions[x].group == Some(n)
    requires n in s.members && x in s.members[n] && NoDup(s.members[n])
    requires forall m :: m in s.members && m != n ==> x !in s.members[m]
    ensures var r := RemoveStep(s1, x);
      r.Success? && RemovedAfter(s, r.value, done + {x})
  {
    WithoutRemove(s.bboxes, done, x);
    WithoutRemove(s.members[n], done, x);
    assert s1.regions[x] == s.regions[x];
    assert s1.members[n] == Without(s.members[n], done);
    RemoveStepShape(s1, x);
    RemovedAfterGrouped(s, s1, RemoveStep(s1, x).value, done, x, n);
  }

  /** The bookkeeping half of `RemoveGrouped`, stated on the fields. */
  lemma RemovedAfterGrouped(s: Session, s1: Session, r: Session, done: set<RegionId>, x: RegionId, n: int)
    requires RemovedAfter(s, s1, done) && x !in done && x in s.regions && n in s.members
    requires forall m :: m in s.members && m != n ==> x !in s.members[m]
    requires r.bboxes == Without(s.bboxes, done + {x})
    requires r.members == s1.members[n := Without(s.members[n], done + {x})]
    requires r.regions == s1.regions[x := s.regions[x].(group := None)]
    requires r.registry == s1.registry && r.counter == s1.counter
    ensures RemovedAfter(s, r, done + {x})
  {
    assert UngroupedAfter(s, r, done + {x}) by {
      assert s1.regions[x] == s.regions[x];
      DetachUngroupedAfter(s, s1, r, done, x);
    }
    assert ListedAfter(s, r, done + {x}) by {
      forall m | m in s.members
        ensures m in r.members && r.members[m] == Without(s.members[m], done + {x})
      {
        if m != n {
          WithoutAbsent(s.members[m], done, x);
        }
      }
    }
  }

  /** The regions `removeFlagged` removes: the flagged ones on the page. */
  function FlaggedOnPage(s: Session): (r: seq<RegionId>)
    requires WellFormed(s)
    ensures forall x :: x in r <==> x in s.bboxes && s.regions[x].flagged
  {
    Select(s.bboxes, set x | x in s.regions && s.regions[x].flagged)
  }

  /** `removeFlagged`: every flagged region on the page is removed as by
      `removeSelected`. */
  function RemoveFlagged(s: Session): (r: Result<Session>)
    requires WellFormed(s)
    ensures r.Success? ==>
      && WellFormed(r.value)
      && r.value.registry == s.registry && r.value.counter == s.counter
      && r.value.regions.Keys == s.regions.Keys && r.value.members.Keys == s.members.Keys
  {
    RemoveSelected(s, FlaggedOnPage(s))
  }

  /** On a valid state `removeFlagged` succeeds, keeps exactly the
      unflagged page regions, disbands nothing and stays valid. */
  lemma RemoveFlaggedSpec(s: Session)
    requires Valid(s)
    ensures var r := RemoveFlagged(s);
      && r.Success? && Valid(r.value)
      && r.value.registry == s.registry
      && (forall x :: x in r.value.bboxes <==> x in s.bboxes && !s.regions[x].flagged)
  {
    SelectNoDup(s.bboxes, set x | x in s.regions && s.regions[x].flagged);
    RemoveSelectedSpec(s, FlaggedOnPage(s));
  }

  // ------------------------------------------------- makeGroupFromSelected

  /** Every selected ID is a region on the page. */
  predicate OnPage(s: Session, sel: set<RegionId>) {
    forall x :: x in sel ==> x in s.bboxes
  }

  /** `makeGroupFromSelected` as written: the selected regions, sorted by
      their page position (`bboxes.index` raises `ValueError` for one that
      is not on the page), become a new group. A selected region that
      already belongs to a group is not taken out of it. */
  function MakeGroupFromSelected(s: Session, sel: set<RegionId>): (r: Result<Session>)
    requires WellFormed(s)
    ensures r.Success? <==> OnPage(s, sel)
    ensures r.Success? ==>
      && r.value.counter == s.counter + 1 && Live(r.value, s.counter)
      && s.counter in r.value.members
      && (forall x :: x in r.value.members[s.counter] <==> x in sel)
      && (forall x :: x in sel ==> x in r.value.regions && r.value.regions[x].group == Some(s.counter))
      && r.value.bboxes == s.bboxes
  {
    if OnPage(s, sel) then Success(NewGroup(s, Select(s.bboxes, sel)))
    else Failure("ValueError")
  }

  /** A page with one region that is the only member of group 1. */
  const GroupedOne: Session := Session(
    [1],
    map[1 := Region("a", 0, 0, 1, 1, false, Some(1))],
    map[1 := [1]],
    map[1 := true],
    2)

  /** Grouping an already grouped region leaves it listed by two live
      groups while it points back at only the new one, so the invariant
      breaks: the old group still collates and exports it. */
  lemma MakeGroupListsTwice()
    ensures Valid(GroupedOne)
    ensures var r := MakeGroupFromSelected(GroupedOne, {1});
      && r.Success?
      && Live(r.value, 1) && 1 in r.value.members[1]
      && Live(r.value, 2) && 1 in r.value.members[2]
      && r.value.regions[1].group == Some(2)
      && !Valid(r.value)
  {
    GroupedOneValid();
    var s := GroupedOne;
    var items := Select(s.bboxes, {1});
    assert items == [1] by {
      assert s.bboxes[..0] == [];
      assert Select(s.bboxes[..0], {1}) == [];
    }
    var r := NewGroup(s, items);
    assert MakeGroupFromSelected(s, {1}) == Success(r);
    assert Live(r, 1) && r.members[1] == [1] && Live(r, 2) && r.members[2] == [1];
    assert r.regions[1].group == Some(2);
    assert !GroupOk(r, 1) by {
      assert 1 in r.members[1];
    }
  }

  lemma GroupedOneValid()
    ensures Valid(GroupedOne)
  {
    var s := GroupedOne;
    assert s.members.Keys == {1} && s.registry.Keys == {1} && s.regions.Keys == {1};
    assert WellFormed(s);
    assert GroupOk(s, 1);
  }

  /** The corrected grouping: the selected regions first leave their old
      groups as `removeSelectedFromGroup` would take them out, and then
      form the new group. */
  function MakeGroupDetached(s: Session, sel: set<RegionId>): (r: Result<Session>)
    requires WellFormed(s)
  {
    if !OnPage(s, sel) then Failure("ValueError")
    else
      var items := Select(s.bboxes, sel);
      match RemoveSelectedFromGroup(s, items)
      case Failure(e) => Failure(e)
      case Success(s1) => Success(NewGroup(s1, items))
  }

  /** On a valid state the corrected grouping raises exactly when a
      selected ID is not on the page, and otherwise keeps the invariant:
      the new group lists the selection in page order and every selected
      region points at it alone. */
  lemma MakeGroupDetachedSpec(s: Session, sel: set<RegionId>)
    requires Valid(s)
    ensures var r := MakeGroupDetached(s, sel);
      && (r.Success? <==> OnPage(s, sel))
      && (r.Success? ==>
            && Valid(r.value)
            && r.value.bboxes == s.bboxes && r.value.counter == s.counter + 1
            && Live(r.value, s.counter)
            && r.value.members[s.counter] == Select(s.bboxes, sel)
            && (forall x :: x in sel ==> r.value.regions[x].group == Some(s.counter)))
  {
    if OnPage(s, sel) {
      var items := Select(s.bboxes, sel);
      SelectNoDup(s.bboxes, sel);
      RemoveSelectedFromGroupSpec(s, items);
      var s1 := RemoveSelectedFromGroup(s, items).value;
      forall x | x in items ensures x in s1.bboxes && s1.regions[x].group == None {
        assert x in (set y | y in items);
      }
      NewGroupValid(s1, items);
    }
  }

  /** Both versions list the new group's members in page order, which is
      what sorting by `bboxes.index` gives on a page without repeats. */
  lemma MakeGroupPageOrder(s: Session, sel: set<RegionId>, i: nat, j: nat)
    requires Valid(s) && OnPage(s, sel)
    requires i < j < |Select(s.bboxes, sel)|
    ensures var m := MakeGroupFromSelected(s, sel).value.members[s.counter];
      var d := MakeGroupDetached(s, sel);
      && d.Success? && m == d.value.members[s.counter]
      && IndexOf(s.bboxes, m[i]) < IndexOf(s.bboxes, m[j])
  {
    MakeGroupDetachedSpec(s, sel);
    SelectKeepsOrder(s.bboxes, sel, i, j);
  }
}

=== FILE: seqs.dfy ===
/** Python list primitives used by the region model, stated over `seq`.

    Regions are compared by identity in the source; here they are integer
    IDs, so Python's `==`-based `list.index`, `list.remove` and `in` become
    plain equality on IDs.
 */
module Seqs {

  /** No element occurs twice. */
  ghost predicate NoDup<T>(s: seq<T>) {
    forall i, j :: 0 <= i < j < |s| ==> s[i] != s[j]
  }

  /** Python's `list.index(x)`: the position of the first occurrence. */
  function IndexOf<T(==)>(s: seq<T>, x: T): (i: nat)
    requires x in s
    ensures i < |s| && s[i] == x
    ensures x !in s[..i]
  {
    if s[0] == x then 0 else 1 + IndexOf(s[1..], x)
  }

  /** Under `NoDup`, the first occurrence is the only one. */
  lemma IndexOfUnique<T>(s: seq<T>, i: nat)
    requires NoDup(s) && i < |s|
    ensures IndexOf(s, s[i]) == i
  {
  }

  /** The first occurrence is wherever x occurs with no x before it. */
  lemma {:induction false} IndexOfAt<T>(s: seq<T>, x: T, i: nat)
    requires i < |s| && s[i] == x && x !in s[..i]
    ensures IndexOf(s, x) == i
  {
    if i > 0 {
      assert s[0] in s[..i];
      assert s[1..][..i - 1] == s[..i][1..];
      IndexOfAt(s[1..], x, i - 1);
    }
  }

  /** Python's `list.remove(x)`: drops the first occurrence only. */
  function RemoveFirst<T(==)>(s: seq<T>, x: T): (r: seq<T>)
    requires x in s
    ensures |r| == |s| - 1
    ensures multiset(r) == multiset(s) - multiset{x}
    ensures r[..IndexOf(s, x)] == s[..IndexOf(s, x)]
    ensures r[IndexOf(s, x)..] == s[IndexOf(s, x) + 1..]
  {
    var i := IndexOf(s, x);
    assert s == s[..i] + [x] + s[i + 1..];
    s[..i] + s[i + 1..]
  }

  /** Without duplicates, removing x leaves no x behind. */
  lemma RemoveFirstNoDup<T(!new)>(s: seq<T>, x: T)
    requires x in s && NoDup(s)
    ensures x !in RemoveFirst(s, x)
    ensures NoDup(RemoveFirst(s, x))
    ensures forall y :: y in RemoveFirst(s, x) <==> y in s && y != x
  {
    var i := IndexOf(s, x);
    var r := RemoveFirst(s, x);
    forall y | y in r ensures y in s && y != x {
      var k :| 0 <= k < |r| && r[k] == y;
      if k < i { assert r[k] == s[k]; } else { assert r[k] == s[k + 1]; }
    }
    forall y | y in s && y != x ensures y in r {
      var k :| 0 <= k < |s| && s[k] == y;
      if k < i { assert r[k] == y; } else { assert k > i; assert r[k - 1] == y; }
    }
  }

  /** Python's `list.insert(i, x)` for an index within bounds. */
  function InsertAt<T>(s: seq<T>, i: nat, x: T): (r: seq<T>)
    requires i <= |s|
    ensures |r| == |s| + 1 && r[i] == x
    ensures r[..i] == s[..i] && r[i + 1..] == s[i..]
    ensures multiset(r) == multiset(s) + multiset{x}
  {
    assert s == s[..i] + s[i..];
    s[..i] + [x] + s[i..]
  }

  /** Removing an element just inserted before any other copy of it
      gives back the list. */
  lemma RemoveFirstInsertAt<T>(s: seq<T>, i: nat, x: T)
    requires i <= |s| && x !in s[..i]
    ensures x in InsertAt(s, i, x) && RemoveFirst(InsertAt(s, i, x), x) == s
  {
    var r := InsertAt(s, i, x);
    IndexOfAt(r, x, i);
    assert s == s[..i] + s[i..];
  }

  /** The elements of `s` that lie in `keep`, in the order of `s`. */
  function Select<T(!new)>(s: seq<T>, keep: set<T>): (r: seq<T>)
    ensures forall y :: y in r <==> y in s && y in keep
    ensures |r| <= |s|
  {
    if |s| == 0 then []
    else Select(s[..|s| - 1], keep) + (if s[|s| - 1] in keep then [s[|s| - 1]] else [])
  }

  /** Keeping nothing of the list gives the empty list. */
  lemma {:induction false} SelectNone<T(!new)>(s: seq<T>, keep: set<T>)
    requires forall x :: x in s ==> x !in keep
    ensures Select(s, keep) == []
  {
    if |s| > 0 {
      var x := s[|s| - 1];
      assert x in s;
      SelectNone(s[..|s| - 1], keep);
    }
  }

  lemma {:induction false} SelectKeepsOrder<T(!new)>(s: seq<T>, keep: set<T>, i: nat, j: nat)
    requires NoDup(s)
    requires i < j < |Select(s, keep)|
    ensures IndexOf(s, Select(s, keep)[i]) < IndexOf(s, Select(s, keep)[j])
  {
    var p := s[..|s| - 1];
    var last := s[|s| - 1];
    var r := Select(s, keep);
    var rp := Select(p, keep);
    assert s == p + [last];
    assert NoDup(p);
    if j < |rp| {
      SelectKeepsOrder(p, keep, i, j);
      assert r[i] == rp[i] && r[j] == rp[j];
      IndexOfPrefix(p, last, rp[i]);
      IndexOfPrefix(p, last, rp[j]);
    } else {
      assert r[j] == last;
      assert r[i] == rp[i] && rp[i] in p;
      IndexOfPrefix(p, last, rp[i]);
      IndexOfUnique(s, |s| - 1);
    }
  }

  /** Positions in a prefix are positions in the extended list. */
  lemma {:induction false} IndexOfPrefix<T>(p: seq<T>, last: T, x: T)
    requires x in p
    ensures x in p + [last] && IndexOf(p + [last], x) == IndexOf(p, x)
  {
    if p[0] != x {
      assert (p + [last])[1..] == p[1..] + [last];
      IndexOfPrefix(p[1..], last, x);
    }
  }

  /** Without duplicates, a selection is duplicate-free too. */
  lemma {:induction false} SelectNoDup<T(!new)>(s: seq<T>, keep: set<T>)
    requires NoDup(s)
    ensures NoDup(Select(s, keep))
  {
    if |s| > 0 {
      var p := s[..|s| - 1];
      assert NoDup(p);
      SelectNoDup(p, keep);
      assert s[|s| - 1] !in p;
    }
  }

  /** The elements of `s` outside `drop`, in order. */
  function Without<T(!new)>(s: seq<T>, drop: set<T>): (r: seq<T>)
    ensures forall y :: y in r <==> y in s && y !in drop
    ensures |r| <= |s|
  {
    if |s| == 0 then []
    else Without(s[..|s| - 1], drop) + (if s[|s| - 1] in drop then [] else [s[|s| - 1]])
  }

  /** Only what the drop set says about the list's own elements matters. */
  lemma {:induction false} WithoutSameOn<T(!new)>(s: seq<T>, d1: set<T>, d2: set<T>)
    requires forall x :: x in s ==> (x in d1 <==> x in d2)
    ensures Without(s, d1) == Without(s, d2)
  {
    if |s| > 0 {
      WithoutSameOn(s[..|s| - 1], d1, d2);
    }
  }

  /** Dropping an element that does not occur changes nothing. */
  lemma {:induction false} WithoutAbsent<T(!new)>(s: seq<T>, drop: set<T>, x: T)
    requires x !in s
    ensures Without(s, drop + {x}) == Without(s, drop)
  {
    if |s| > 0 {
      assert x !in s[..|s| - 1];
      WithoutAbsent(s[..|s| - 1], drop, x);
    }
  }

  /** Nothing dropped: the list itself. */
  lemma {:induction false} WithoutNothing<T(!new)>(s: seq<T>)
    ensures Without(s, {}) == s
  {
    if |s| > 0 {
      var p := s[..|s| - 1];
      WithoutNothing(p);
      assert Without(s, {}) == Without(p, {}) + [s[|s| - 1]];
      assert p + [s[|s| - 1]] == s;
    }
  }

  /** `remove` of an element that occurs first in a prefix works on the prefix. */
  lemma RemoveFirstAppend<T>(a: seq<T>, b: seq<T>, x: T)
    requires x in a
    ensures RemoveFirst(a + b, x) == RemoveFirst(a, x) + b
  {
    var i := IndexOf(a, x);
    var ab := a + b;
    assert ab[..i] == a[..i];
    IndexOfAt(ab, x, i);
    var r := RemoveFirst(ab, x);
    var r' := RemoveFirst(a, x) + b;
    assert |r| == |r'|;
    forall k | 0 <= k < |r| ensures r[k] == r'[k] {
      if k < i {
        assert r[k] == r[..i][k] == ab[..i][k];
      } else {
        assert r[k] == r[i..][k - i] == ab[i + 1..][k - i];
      }
    }
  }

  /** `remove` of an element that occurs only at the end drops the end. */
  lemma RemoveFirstLast<T>(a: seq<T>, x: T)
    requires x !in a
    ensures RemoveFirst(a + [x], x) == a
  {
    IndexOfAt(a + [x], x, |a|);
    assert (a + [x])[..|a|] == a;
  }

  /** Removing one more element from a duplicate-free list is dropping it. */
  lemma {:induction false} WithoutRemove<T(!new)>(s: seq<T>, drop: set<T>, x: T)
    requires NoDup(s) && x in s && x !in drop
    ensures x in Without(s, drop)
    ensures RemoveFirst(Without(s, drop), x) == Without(s, drop + {x})
  {
    var p := s[..|s| - 1];
    var last := s[|s| - 1];
    assert s == p + [last];
    assert NoDup(p);
    if last == x {
      assert x !in p;
      WithoutAbsent(p, drop, x);
      RemoveFirstLast(Without(p, drop), x);
    } else {
      assert x in p;
      WithoutRemove(p, drop, x);
      RemoveFirstAppend(Without(p, drop), if last in drop then [] else [last], x);
    }
  }

  /** The lists of `xss` one after the other. */
  function Flatten<T>(xss: seq<seq<T>>): (r: seq<T>)
  {
    if |xss| == 0 then [] else Flatten(xss[..|xss| - 1]) + xss[|xss| - 1]
  }

  /** Lists without repeats and without common elements concatenate to a
      list without repeats. */
  lemma NoDupConcat<T>(a: seq<T>, b: seq<T>)
    requires NoDup(a) && NoDup(b) && forall x :: x in a ==> x !in b
    ensures NoDup(a + b)
  {
    var c := a + b;
    forall i, j | 0 <= i < j < |c| ensures c[i] != c[j] {
      if i < |a| && j >= |a| {
        assert c[i] == a[i] && c[j] == b[j - |a|];
        assert c[i] in a;
      } else if i >= |a| {
        assert c[i] == b[i - |a|] && c[j] == b[j - |a|];
      }
    }
  }

  /** A list without repeats holds each of its elements once. */
  lemma {:induction false} NoDupCount<T>(a: seq<T>, x: T)
    requires NoDup(a)
    ensures multiset(a)[x] == if x in a then 1 else 0
  {
    if |a| > 0 {
      var p := a[..|a| - 1];
      assert a == p + [a[|a| - 1]];
      NoDupCount(p, x);
    }
  }

  /** Two lists without repeats and with the same elements are
      permutations of each other. */
  lemma NoDupSameMultiset<T(!new)>(a: seq<T>, b: seq<T>)
    requires NoDup(a) && NoDup(b) && forall x :: x in a <==> x in b
    ensures multiset(a) == multiset(b)
  {
    forall x ensures multiset(a)[x] == multiset(b)[x] {
      NoDupCount(a, x);
      NoDupCount(b, x);
    }
  }

  /** In a list without repeats, dropping one value is removing its
      occurrence, if any. */
  lemma WithoutSingle<T(!new)>(s: seq<T>, x: T)
    requires NoDup(s)
    ensures Without(s, {x}) == if x in s then RemoveFirst(s, x) else s
  {
    WithoutNothing(s);
    assert {} + {x} == {x};
    if x in s {
      WithoutRemove(s, {}, x);
    } else {
      WithoutAbsent(s, {}, x);
    }
  }

  lemma {:induction false} WithoutNoDup<T(!new)>(s: seq<T>, drop: set<T>)
    requires NoDup(s)
    ensures NoDup(Without(s, drop))
  {
    if |s| > 0 {
      var p := s[..|s| - 1];
      assert NoDup(p);
      WithoutNoDup(p, drop);
      assert s[|s| - 1] !in p;
    }
  }

  /** Strictly increasing. */
  predicate Increasing(s: seq<int>) {
    forall i, j :: 0 <= i < j < |s| ==> s[i] < s[j]
  }

  /** `m` is the least element of `xs`. */
  predicate IsMin(xs: set<int>, m: int) {
    m in xs && forall y :: y in xs ==> m <= y
  }

  /** A set without elements is the empty set. */
  lemma NonEmptyHasElement(xs: set<int>)
    ensures (forall x :: x !in xs) ==> xs == {}
  {
    var e: set<int> := {};
    if forall x :: x !in xs {
      assert forall x :: x in xs <==> x in e;
    }
  }

  /** A non-empty finite set of integers has a least element. */
  lemma {:induction false} MinExists(xs: set<int>)
    requires xs != {}
    ensures exists m :: IsMin(xs, m)
    decreases |xs|
  {
    NonEmptyHasElement(xs);
    var x :| x in xs;
    var rest := xs - {x};
    if rest == {} {
      forall y | y in xs ensures x <= y {
        assert y !in rest;
      }
      assert IsMin(xs, x);
    } else {
      MinExists(rest);
      var m :| IsMin(rest, m);
      MinOfTwo(xs, x, m);
    }
  }

  /** The smaller of `x` and the least element of the rest is the least. */
  lemma MinOfTwo(xs: set<int>, x: int, m: int)
    requires x in xs && IsMin(xs - {x}, m)
    ensures IsMin(xs, if x < m then x else m)
  {
    forall y | y in xs ensures (if x < m then x else m) <= y {
      if y != x { assert y in xs - {x}; }
    }
  }

  /** The least element of a non-empty set. */
  function MinOf(xs: set<int>): (m: int)
    requires xs != {}
    ensures IsMin(xs, m)
  {
    MinExists(xs);
    var m :| IsMin(xs, m);
    m
  }

  /** Python's `sorted(xs)` for a set of integers. */
  function SortedInts(xs: set<int>): (r: seq<int>)
    ensures forall x :: x in r <==> x in xs
    ensures Increasing(r)
    decreases |xs|
  {
    if xs == {} then []
    else
      var m := MinOf(xs);
      var rest := SortedInts(xs - {m});
      assert forall x :: x in rest ==> m < x;
      [m] + rest
  }

  /** Two increasing sequences with the same elements are equal: sorting
      has exactly one answer. */
  lemma {:induction false} IncreasingUnique(a: seq<int>, b: seq<int>)
    requires Increasing(a) && Increasing(b)
    requires forall x :: x in a <==> x in b
    ensures a == b
    decreases |a|
  {
    assert |a| == 0 <==> |b| == 0 by {
      if |a| > 0 { assert a[0] in b; }
      if |b| > 0 { assert b[0] in a; }
    }
    if |a| > 0 {
      assert a[0] in b && b[0] in a;
      IncreasingFirst(a, b[0]);
      IncreasingFirst(b, a[0]);
      forall x ensures x in a[1..] <==> x in b[1..] {
        if x in a[1..] {
          var i :| 1 <= i < |a| && a[i] == x;
          assert a[0] < x && x in a && x in b;
          var j :| 0 <= j < |b| && b[j] == x;
          assert j != 0;
          assert b[1..][j - 1] == x;
        }
        if x in b[1..] {
          var i :| 1 <= i < |b| && b[i] == x;
          assert b[0] < x && x in b && x in a;
          var j :| 0 <= j < |a| && a[j] == x;
          assert j != 0;
          assert a[1..][j - 1] == x;
        }
      }
      IncreasingUnique(a[1..], b[1..]);
      assert a == [a[0]] + a[1..] && b == [b[0]] + b[1..];
    }
  }

  /** The first element of an increasing sequence is its least. */
  lemma IncreasingFirst(s: seq<int>, x: int)
    requires Increasing(s) && x in s
    ensures s[0] <= x
  {
    var j :| 0 <= j < |s| && s[j] == x;
    assert j == 0 || s[0] < s[j];
  }

  /** Sorting the numbers 1 .. c-1 lists them in counting order. */
  lemma SortedRange(xs: set<int>, c: int)
    requires c >= 1
    requires forall n :: n in xs <==> 1 <= n < c
    ensures SortedInts(xs) == seq(c - 1, i => i + 1)
  {
    var r := seq(c - 1, i => i + 1);
    forall x ensures x in r <==> x in xs {
      if 1 <= x < c { assert r[x - 1] == x; }
    }
    IncreasingUnique(SortedInts(xs), r);
  }

  /** A selection from an increasing sequence is increasing. */
  lemma {:induction false} SelectIncreasing(s: seq<int>, keep: set<int>)
    requires Increasing(s)
    ensures Increasing(Select(s, keep))
  {
    if |s| > 0 {
      var p := s[..|s| - 1];
      SelectIncreasing(p, keep);
      var r := Select(p, keep);
      forall i | 0 <= i < |r| ensures r[i] < s[|s| - 1] {
        assert r[i] in p;
      }
    }
  }
}

=== FILE: strs.dfy ===
/** Python string primitives the core relies on: `str.split(sep)` with an
    explicit one-character separator, `sep.join(parts)`, `str.replace(pat, '')`
    and `file.readlines()` over a text already read.
 */
module Strs {
  import Seqs

  /** Python's `sep.join(parts)`. */
  function Join(parts: seq<string>, sep: string): string
  {
    if |parts| == 0 then ""
    else if |parts| == 1 then parts[0]
    else Join(parts[..|parts| - 1], sep) + sep + parts[|parts| - 1]
  }

  /** A character in neither the parts nor the separator is not in the
      joined text. */
  lemma {:induction false} JoinAvoids(parts: seq<string>, sep: string, c: char)
    requires c !in sep && forall i :: 0 <= i < |parts| ==> c !in parts[i]
    ensures c !in Join(parts, sep)
  {
    if |parts| > 1 {
      JoinAvoids(parts[..|parts| - 1], sep, c);
    }
  }

  /** The join starts with the first part. */
  lemma {:induction false} JoinStartsWithFirst(parts: seq<string>, sep: string)
    requires |parts| >= 1
    ensures |Join(parts, sep)| >= |parts[0]| && Join(parts, sep)[..|parts[0]|] == parts[0]
  {
    if |parts| > 1 {
      var p := parts[..|parts| - 1];
      JoinStartsWithFirst(p, sep);
      var j := Join(p, sep);
      assert Join(parts, sep) == j + sep + parts[|parts| - 1];
      assert (j + sep + parts[|parts| - 1])[..|parts[0]|] == j[..|parts[0]|];
    }
  }

  /** Joining two non-empty lists of parts is joining each and putting
      the separator in between. */
  lemma {:induction false} JoinAppend(a: seq<string>, b: seq<string>, sep: string)
    requires |a| >= 1 && |b| >= 1
    ensures Join(a + b, sep) == Join(a, sep) + sep + Join(b, sep)
    decreases |b|
  {
    var ab := a + b;
    var l := b[|b| - 1];
    assert ab[..|ab| - 1] == a + b[..|b| - 1];
    if |b| > 1 {
      JoinAppend(a, b[..|b| - 1], sep);
    } else {
      assert ab[..|ab| - 1] == a;
    }
  }

  /** `sep.join(sep.join(block) for block in blocks)` is `sep.join` of all
      the blocks' parts when no block is empty. */
  lemma {:induction false} JoinFlatten(blocks: seq<seq<string>>, sep: string)
    requires forall i :: 0 <= i < |blocks| ==> |blocks[i]| >= 1
    ensures Join(seq(|blocks|, i requires 0 <= i < |blocks| => Join(blocks[i], sep)), sep)
         == Join(Seqs.Flatten(blocks), sep)
  {
    if |blocks| > 1 {
      var p := blocks[..|blocks| - 1];
      var b := blocks[|blocks| - 1];
      JoinFlatten(p, sep);
      var outer := seq(|blocks|, i requires 0 <= i < |blocks| => Join(blocks[i], sep));
      assert outer[..|outer| - 1] == seq(|p|, i requires 0 <= i < |p| => Join(p[i], sep));
      FlattenNonEmpty(p);
      JoinAppend(Seqs.Flatten(p), b, sep);
    } else if |blocks| == 1 {
      assert blocks[..0] == [];
      assert Seqs.Flatten(blocks) == blocks[0];
      var outer := seq(|blocks|, i requires 0 <= i < |blocks| => Join(blocks[i], sep));
      assert outer == [Join(blocks[0], sep)];
    }
  }

  lemma {:induction false} FlattenNonEmpty(blocks: seq<seq<string>>)
    requires |blocks| >= 1 && forall i :: 0 <= i < |blocks| ==> |blocks[i]| >= 1
    ensures |Seqs.Flatten(blocks)| >= 1
  {
  }

  /** Reading back lines joined by newlines gives the lines, when there is
      at least one, none holds a newline and the last is not empty. */
  lemma ReadJoinedLines(lines: seq<string>)
    requires |lines| >= 1 && lines[|lines| - 1] != ""
    requires forall i :: 0 <= i < |lines| ==> '\n' !in lines[i]
    ensures ReadLines(Join(lines, "\n")) == lines
  {
    SplitJoin(lines, '\n');
  }

  /** Python's `s.split(c)` for a one-character separator: every occurrence
      of `c` cuts, so consecutive separators give empty pieces and the
      result is never empty. */
  function SplitOn(s: string, c: char): (r: seq<string>)
    ensures |r| >= 1
  {
    if |s| == 0 then [""]
    else
      var p := SplitOn(s[..|s| - 1], c);
      var last := s[|s| - 1];
      if last == c then p + [""]
      else p[..|p| - 1] + [p[|p| - 1] + [last]]
  }

  /** Join peels off its last piece (also for a single piece). */
  lemma JoinLast(parts: seq<string>, sep: string)
    requires |parts| >= 1
    ensures |parts| == 1 ==> Join(parts, sep) == parts[0]
    ensures |parts| > 1 ==>
      Join(parts, sep) == Join(parts[..|parts| - 1], sep) + sep + parts[|parts| - 1]
  {
  }

  /** A separator appended starts a new, empty piece. */
  lemma SplitSnocSep(s: string, c: char)
    ensures SplitOn(s + [c], c) == SplitOn(s, c) + [""]
  {
    assert (s + [c])[..|s + [c]| - 1] == s;
  }

  /** Any other character appended extends the last piece. */
  lemma SplitSnocOther(s: string, x: char, c: char)
    requires x != c
    ensures var p := SplitOn(s, c);
      SplitOn(s + [x], c) == p[..|p| - 1] + [p[|p| - 1] + [x]]
  {
    assert (s + [x])[..|s + [x]| - 1] == s;
  }

  /** No piece of a split contains the separator. */
  lemma {:induction false} SplitPiecesFree(s: string, c: char)
    ensures forall i :: 0 <= i < |SplitOn(s, c)| ==> c !in SplitOn(s, c)[i]
  {
    if |s| > 0 {
      var s' := s[..|s| - 1];
      var x := s[|s| - 1];
      assert s == s' + [x];
      SplitPiecesFree(s', c);
      var p := SplitOn(s', c);
      if x == c {
        SplitSnocSep(s', c);
        assert SplitOn(s, c) == p + [""];
        forall i | 0 <= i < |p| + 1 ensures c !in (p + [""])[i] {
          if i < |p| { assert (p + [""])[i] == p[i]; }
        }
      } else {
        SplitSnocOther(s', x, c);
        var r := p[..|p| - 1] + [p[|p| - 1] + [x]];
        assert SplitOn(s, c) == r;
        forall i | 0 <= i < |r| ensures c !in r[i] {
          if i < |p| - 1 { assert r[i] == p[i]; }
          else { assert r[i] == p[|p| - 1] + [x]; }
        }
      }
    }
  }

  /** Joining the pieces of a split with the separator gives back the
      text. */
  lemma {:induction false} SplitPieces(s: string, c: char)
    ensures forall i :: 0 <= i < |SplitOn(s, c)| ==> c !in SplitOn(s, c)[i]
    ensures Join(SplitOn(s, c), [c]) == s
  {
    SplitPiecesFree(s, c);
    SplitJoinsBack(s, c);
  }

  lemma {:induction false} SplitJoinsBack(s: string, c: char)
    ensures Join(SplitOn(s, c), [c]) == s
  {
    if |s| > 0 {
      var s' := s[..|s| - 1];
      var x := s[|s| - 1];
      assert s == s' + [x];
      SplitJoinsBack(s', c);
      var p := SplitOn(s', c);
      if x == c {
        SplitSnocSep(s', c);
        JoinLast(p + [""], [c]);
        assert (p + [""])[..|p|] == p;
      } else {
        SplitSnocOther(s', x, c);
        var r := p[..|p| - 1] + [p[|p| - 1] + [x]];
        assert r[..|r| - 1] == p[..|p| - 1];
        JoinLast(p, [c]);
        JoinLast(r, [c]);
      }
    }
  }

  /** A piece without the separator splits into itself. */
  lemma {:induction false} SplitNoSeparator(w: string, c: char)
    requires c !in w
    ensures SplitOn(w, c) == [w]
  {
    if |w| > 0 {
      assert c !in w[..|w| - 1];
      SplitNoSeparator(w[..|w| - 1], c);
      assert w[..|w| - 1] + [w[|w| - 1]] == w;
      SplitSnocOther(w[..|w| - 1], w[|w| - 1], c);
    }
  }

  /** Splitting distributes over a separator occurrence. */
  lemma {:induction false} SplitAtSeparator(s: string, t: string, c: char)
    ensures SplitOn(s + [c] + t, c) == SplitOn(s, c) + SplitOn(t, c)
    decreases |t|
  {
    if |t| == 0 {
      assert s + [c] + t == s + [c];
      SplitSnocSep(s, c);
    } else {
      var t' := t[..|t| - 1];
      var x := t[|t| - 1];
      assert s + [c] + t == (s + [c] + t') + [x];
      assert t == t' + [x];
      SplitAtSeparator(s, t', c);
      SplitSnocShared(s + [c] + t', t', SplitOn(s, c), x, c);
    }
  }

  /** Two texts whose splits share all but a common tail of pieces keep
      sharing it after the same character is appended to both. */
  lemma SplitSnocShared(w: string, t: string, ps: seq<string>, x: char, c: char)
    requires SplitOn(w, c) == ps + SplitOn(t, c)
    ensures SplitOn(w + [x], c) == ps + SplitOn(t + [x], c)
  {
    if x != c {
      var pt := SplitOn(t, c);
      assert SplitOn(t + [x], c) == pt[..|pt| - 1] + [pt[|pt| - 1] + [x]] by {
        SplitSnocOther(t, x, c);
      }
      var pw := SplitOn(w, c);
      assert SplitOn(w + [x], c) == pw[..|pw| - 1] + [pw[|pw| - 1] + [x]] by {
        SplitSnocOther(w, x, c);
      }
      ExtendLastPiece(ps, pt, x);
    } else {
      assert SplitOn(t + [x], c) == SplitOn(t, c) + [""] by {
        SplitSnocSep(t, c);
      }
      assert SplitOn(w + [x], c) == SplitOn(w, c) + [""] by {
        SplitSnocSep(w, c);
      }
      assert ps + SplitOn(t, c) + [""] == ps + (SplitOn(t, c) + [""]);
    }
  }

  /** Extending the last piece of a concatenation extends the last piece
      of its second part. */
  lemma ExtendLastPiece(ps: seq<string>, pt: seq<string>, x: char)
    requires |pt| >= 1
    ensures var pw := ps + pt;
      pw[..|pw| - 1] + [pw[|pw| - 1] + [x]] == ps + (pt[..|pt| - 1] + [pt[|pt| - 1] + [x]])
  {
    var pw := ps + pt;
    assert pw[..|pw| - 1] == ps + pt[..|pt| - 1];
  }

  /** `split` undoes `join` when no piece contains the separator: the
      split/join round trip in the other direction from `SplitOn`'s
      own contract. */
  lemma {:induction false} SplitJoin(parts: seq<string>, c: char)
    requires |parts| >= 1
    requires forall i :: 0 <= i < |parts| ==> c !in parts[i]
    ensures SplitOn(Join(parts, [c]), c) == parts
  {
    if |parts| == 1 {
      SplitNoSeparator(parts[0], c);
    } else {
      var p := parts[..|parts| - 1];
      SplitJoin(p, c);
      SplitAtSeparator(Join(p, [c]), parts[|parts| - 1], c);
      SplitNoSeparator(parts[|parts| - 1], c);
      assert p + [parts[|parts| - 1]] == parts;
    }
  }

  /** The text before the first `c` (the whole string when there is none). */
  function TakeUntil(s: string, c: char): (r: string)
    ensures c !in r
    ensures r == s || (|r| < |s| && s[|r|] == c)
    ensures r == s[..|r|]
  {
    if |s| == 0 || s[0] == c then "" else [s[0]] + TakeUntil(s[1..], c)
  }

  /** The first piece of a split is the text before the first separator. */
  lemma {:induction false} SplitFirstPiece(s: string, c: char)
    ensures SplitOn(s, c)[0] == TakeUntil(s, c)
  {
    var k := |TakeUntil(s, c)|;
    if k == |s| {
      assert TakeUntil(s, c) == s;
      SplitNoSeparator(s, c);
    } else {
      assert s == s[..k] + [c] + s[k + 1..];
      SplitAtSeparator(s[..k], s[k + 1..], c);
      SplitNoSeparator(s[..k], c);
    }
  }

  /** Python's `s.replace(pat, '')` for a non-empty pattern: occurrences
      are found left to right without overlap and dropped. */
  function RemoveAll(s: string, pat: string): (r: string)
    requires |pat| > 0
    ensures |r| <= |s|
    decreases |s|
  {
    if |s| == 0 then ""
    else if |pat| <= |s| && s[..|pat|] == pat then RemoveAll(s[|pat|..], pat)
    else [s[0]] + RemoveAll(s[1..], pat)
  }

  /** Removing a one-character pattern removes every occurrence of it and
      keeps everything else in order. */
  lemma {:induction false} RemoveCharAll(s: string, ch: char)
    ensures ch !in RemoveAll(s, [ch])
    ensures forall x :: x != ch ==> multiset(RemoveAll(s, [ch]))[x] == multiset(s)[x]
    ensures ch !in s ==> RemoveAll(s, [ch]) == s
  {
    if |s| > 0 {
      RemoveCharAll(s[1..], ch);
      assert s == [s[0]] + s[1..];
    }
  }

  /** Text that lacks one of the pattern's characters has nothing removed. */
  lemma {:induction false} RemoveAllMissing(s: string, pat: string, k: nat)
    requires k < |pat| && pat[k] !in s
    ensures RemoveAll(s, pat) == s
    decreases |s|
  {
    if |s| > 0 {
      assert |pat| <= |s| ==> s[..|pat|][k] == s[k] && s[k] in s;
      RemoveAllMissing(s[1..], pat, k);
      assert s == [s[0]] + s[1..];
    }
  }

  /** Text free of the pattern's first character passes through unchanged,
      and what follows it is processed on its own. */
  lemma {:induction false} RemoveAllSkipsPrefix(x: string, y: string, pat: string)
    requires |pat| > 0 && pat[0] !in x
    ensures RemoveAll(x + y, pat) == x + RemoveAll(y, pat)
  {
    if |x| > 0 {
      var xy := x + y;
      assert xy[0] == x[0] && xy[0] != pat[0];
      assert |pat| > |xy| || xy[..|pat|][0] != pat[0];
      assert xy[1..] == x[1..] + y;
      RemoveAllSkipsPrefix(x[1..], y, pat);
    } else {
      assert x + y == y;
    }
  }

  /** A leading occurrence of the pattern is dropped. */
  lemma RemoveAllLeading(pat: string, y: string)
    requires |pat| > 0
    ensures RemoveAll(pat + y, pat) == RemoveAll(y, pat)
  {
    var s := pat + y;
    assert s[..|pat|] == pat;
    assert s[|pat|..] == y;
  }

  /** `readlines()` of a file holding `text`, followed by
      `line.replace('\n', '')`, for a text without carriage returns (a text
      mode read also ends a line at one): the lines of the text, where a
      final newline does not start an extra empty line and the empty text
      has no lines. */
  function ReadLines(text: string): (r: seq<string>)
    ensures forall i :: 0 <= i < |r| ==> '\n' !in r[i]
    ensures text == "" <==> r == []
  {
    var pieces := SplitOn(text, '\n');
    SplitPieces(text, '\n');
    if pieces[|pieces| - 1] == "" then
      (if |pieces| == 1 then [] else
        (JoinLast(pieces, "\n");
         assert pieces[..|pieces| - 1] != [];
         pieces[..|pieces| - 1]))
    else pieces
  }
}

=== FILE: translator.dfy ===
/** `Translator.flattenList` of translator.py: flattening a Python list
    that may hold nested lists. Any value that is not exactly a `list`
    (`type(li) is list`) is an atom and is kept as it is.
 */
module Translator {

  /** One element of a Python list: an atom or a nested list. */
  datatype Elem<T> = Atom(value: T) | List(items: seq<Elem<T>>)

  /** The atoms of `l` in depth-first, left-to-right order. */
  function FlattenList<T>(l: seq<Elem<T>>): (r: seq<Elem<T>>)
    ensures forall i :: 0 <= i < |r| ==> r[i].Atom?
    decreases l
  {
    if |l| == 0 then []
    else
      var head := match l[0]
        case Atom(_) => [l[0]]
        case List(xs) => FlattenList(xs);
      head + FlattenList(l[1..])
  }

  /** Flattening distributes over concatenation. */
  lemma {:induction false} FlattenConcat<T>(a: seq<Elem<T>>, b: seq<Elem<T>>)
    ensures FlattenList(a + b) == FlattenList(a) + FlattenList(b)
  {
    if |a| > 0 {
      assert (a + b)[0] == a[0];
      assert (a + b)[1..] == a[1..] + b;
      FlattenConcat(a[1..], b);
    } else {
      assert a + b == b;
    }
  }

  /** A list without nested lists flattens to an element-wise copy. */
  lemma {:induction false} FlattenFlat<T>(l: seq<Elem<T>>)
    requires forall i :: 0 <= i < |l| ==> l[i].Atom?
    ensures FlattenList(l) == l
  {
    if |l| > 0 {
      FlattenFlat(l[1..]);
    }
  }

  /** Flattening an already flattened list changes nothing. */
  lemma FlattenIdempotent<T>(l: seq<Elem<T>>)
    ensures FlattenList(FlattenList(l)) == FlattenList(l)
  {
    FlattenFlat(FlattenList(l));
  }

  /** The number of list nodes and atoms in a list, nested ones included. */
  function Size<T>(l: seq<Elem<T>>): nat
    decreases l
  {
    if |l| == 0 then 0
    else
      var head := match l[0]
        case Atom(_) => 1
        case List(xs) => 1 + Size(xs);
      head + Size(l[1..])
  }

  lemma {:induction false} SizeConcat<T>(a: seq<Elem<T>>, b: seq<Elem<T>>)
    ensures Size(a + b) == Size(a) + Size(b)
  {
    if |a| > 0 {
      assert (a + b)[0] == a[0];
      assert (a + b)[1..] == a[1..] + b;
      SizeConcat(a[1..], b);
    } else {
      assert a + b == b;
    }
  }

  /** The same flattening with an explicit work list instead of recursion:
      an independent reference that must agree with `FlattenList`. */
  method FlattenIterative<T>(l: seq<Elem<T>>) returns (out: seq<Elem<T>>)
    ensures out == FlattenList(l)
  {
    out := [];
    var work := l;
    while |work| > 0
      invariant out + FlattenList(work) == FlattenList(l)
      decreases Size(work)
    {
      var head := work[0];
      assert work == [head] + work[1..];
      match head {
        case Atom(_) =>
          out := out + [head];
          work := work[1..];
          SizeConcat([head], work);
        case List(xs) =>
          FlattenConcat(xs, work[1..]);
          SizeConcat([head], work[1..]);
          SizeConcat(xs, work[1..]);
          work := xs + work[1..];
      }
    }
  }
}

=== FILE: tree.dfy ===
/** The region tree of retcom.py (`BoundingBoxTree`): one header item per
    live group labelled `[[G<n>]]` with the group's members as children,
    then one top-level item per ungrouped page region. Dragging an item
    onto another (`dropEvent`) moves a region into or out of a group and
    reorders the page list with `insertBefore`.
 */
module Tree {
  import opened Wrappers
  import opened Seqs
  import opened Strs
  import opened PyInt
  import opened Regions

  // ------------------------------------------------------------ insertBefore

  /** `insertBefore(l, a, b)`: `l.index(a)` raises `ValueError` when `a` is
      missing; a missing `b` is inserted at a's position; a `b` after `a` is
      moved there; a `b` already before `a` (or equal to it) stays put. */
  function InsertBefore<T(==)>(l: seq<T>, a: T, b: T): (r: Result<seq<T>>)
    ensures r.Success? <==> a in l
    ensures r.Success? ==>
      multiset(r.value) == multiset(l) + (if b in l then multiset{} else multiset{b})
    ensures r.Success? && b in l && IndexOf(l, b) <= IndexOf(l, a) ==> r.value == l
  {
    if a !in l then Failure("ValueError")
    else
      var ia := IndexOf(l, a);
      if b !in l then Success(InsertAt(l, ia, b))
      else if ia < IndexOf(l, b) then Success(InsertAt(RemoveFirst(l, b), ia, b))
      else Success(l)
  }

  /** The result holds the elements of `l` and `b`, nothing else. */
  lemma InsertBeforeMembers<T>(l: seq<T>, a: T, b: T)
    requires a in l
    ensures forall y :: y in InsertBefore(l, a, b).value <==> y in l || y == b
  {
    var r := InsertBefore(l, a, b).value;
    forall y ensures y in r <==> y in l || y == b {
      assert y in r <==> y in multiset(r);
      assert y in l <==> y in multiset(l);
    }
  }

  /** Inserting `b` at the index where `a` first occurs puts `b`
      immediately in front of that `a`. */
  lemma PlacedBefore<T>(m: seq<T>, ia: nat, a: T, b: T)
    requires ia < |m| && m[ia] == a && a != b
    requires a !in m[..ia] && b !in m[..ia]
    ensures var r := InsertAt(m, ia, b);
      b in r && a in r && IndexOf(r, b) == ia && IndexOf(r, a) == ia + 1
  {
    var r := InsertAt(m, ia, b);
    assert r[ia + 1] == m[ia];
    assert r[..ia] == m[..ia];
    IndexOfAt(r, b, ia);
    assert r[..ia + 1] == m[..ia] + [b];
    IndexOfAt(r, a, ia + 1);
  }

  /** Afterwards `b` comes before `a`; when `b` was missing or after `a`,
      it now sits immediately in front of `a`, at a's old position. */
  lemma InsertBeforeOrder<T>(l: seq<T>, a: T, b: T)
    requires a in l && a != b
    ensures var r := InsertBefore(l, a, b).value;
      && a in r && b in r
      && IndexOf(r, b) < IndexOf(r, a)
      && (b !in l || IndexOf(l, a) < IndexOf(l, b) ==>
            IndexOf(r, b) == IndexOf(l, a) && IndexOf(r, a) == IndexOf(l, a) + 1)
  {
    var ia := IndexOf(l, a);
    if b !in l {
      PlacedBefore(l, ia, a, b);
    } else if ia < IndexOf(l, b) {
      var ib := IndexOf(l, b);
      var m := RemoveFirst(l, b);
      assert m[..ib] == l[..ib];
      assert m[..ia] == l[..ia] && m[ia] == l[ia];
      assert b !in l[..ia] by {
        assert l[..ia] == l[..ib][..ia];
      }
      PlacedBefore(m, ia, a, b);
    }
  }

  /** Apart from `b`, the list is unchanged: taking `b` out of the result
      gives the input with `b` taken out (or the input itself when `b` was
      not in it). */
  lemma InsertBeforeRest<T>(l: seq<T>, a: T, b: T)
    requires a in l
    ensures var r := InsertBefore(l, a, b).value;
      && b in r
      && RemoveFirst(r, b) == (if b in l then RemoveFirst(l, b) else l)
  {
    var ia := IndexOf(l, a);
    if b !in l {
      RemoveFirstInsertAt(l, ia, b);
    } else if ia < IndexOf(l, b) {
      var ib := IndexOf(l, b);
      var m := RemoveFirst(l, b);
      assert m[..ia] == l[..ia] by {
        assert m[..ib] == l[..ib];
      }
      assert b !in l[..ia] by {
        assert l[..ia] == l[..ib][..ia];
      }
      RemoveFirstInsertAt(m, ia, b);
    } else if a == b {
      assert b in l;
    }
  }

  /** A list without repeats keeps having none. */
  lemma InsertBeforeNoDup<T(!new)>(l: seq<T>, a: T, b: T)
    requires a in l && NoDup(l)
    ensures NoDup(InsertBefore(l, a, b).value)
  {
    var ia := IndexOf(l, a);
    if b !in l {
      NoDupInsert(l, ia, b);
    } else if ia < IndexOf(l, b) {
      RemoveFirstNoDup(l, b);
      NoDupInsert(RemoveFirst(l, b), ia, b);
    }
  }

  lemma NoDupInsert<T>(m: seq<T>, i: nat, x: T)
    requires i <= |m| && NoDup(m) && x !in m
    ensures NoDup(InsertAt(m, i, x))
  {
    var r := InsertAt(m, i, x);
    forall p, q | 0 <= p < q < |r| ensures r[p] != r[q] {
      if p < i {
        assert r[p] == m[p];
        if q > i { assert r[q] == m[q - 1]; }
      } else if p > i {
        assert r[p] == m[p - 1] && r[q] == m[q - 1];
      } else {
        assert r[q] == m[q - 1];
      }
    }
  }

  /** Calling `insertBefore` again with the same arguments changes nothing. */
  lemma InsertBeforeIdempotent<T>(l: seq<T>, a: T, b: T)
    requires a in l
    ensures var r := InsertBefore(l, a, b).value;
      a in r && InsertBefore(r, a, b) == Success(r)
  {
    var r := InsertBefore(l, a, b).value;
    if a != b {
      InsertBeforeOrder(l, a, b);
    } else {
      assert b in l;
      assert r == l;
    }
  }

  // ------------------------------------------------------------ item labels

  /** The text of a group's header item, `f'[[G{groupNo}]]'`. */
  function HeaderLabel(n: int): string {
    "[[G" + IntToString(n) + "]]"
  }

  /** The replacements of the label parser leave a text without `[`, `]`
      and `G` as it is. */
  lemma LabelMarkersAbsent(text: string)
    ensures '[' !in text && ']' !in text && 'G' !in text ==>
      RemoveAll(RemoveAll(RemoveAll(text, "[["), "]]"), "G") == text
  {
    if '[' !in text && ']' !in text && 'G' !in text {
      RemoveAllMissing(text, "[[", 0);
      RemoveAllMissing(text, "]]", 0);
      RemoveAllMissing(text, "G", 0);
    }
  }

  /** `int(text.replace('[[', '').replace(']]', '').replace('G', ''))`, the
      group number `getBBObjectFromItem` reads off an item's text. Text
      without the label's markers is read by `int` as it is. */
  function LabelNumber(text: string): (r: Result<int>)
    ensures '[' !in text && ']' !in text && 'G' !in text ==> r == ParseInt(text, 10)
  {
    LabelMarkersAbsent(text);
    ParseInt(RemoveAll(RemoveAll(RemoveAll(text, "[["), "]]"), "G"), 10)
  }

  /** `if groupNo:`: a parsed number other than 0. */
  function GroupNumberOf(text: string): (r: Option<int>)
    ensures r.Some? <==> LabelNumber(text).Success? && LabelNumber(text).value != 0
    ensures r.Some? ==> r.value == LabelNumber(text).value
  {
    match LabelNumber(text)
    case Success(n) => if n != 0 then Some(n) else None
    case Failure(_) => None
  }

  /** A header's label reads back as its group number. */
  lemma HeaderLabelNumber(n: int)
    ensures LabelNumber(HeaderLabel(n)) == Success(n)
  {
    var d := IntToString(n);
    IntToStringChars(n);
    assert '[' !in d && ']' !in d && 'G' !in d;
    var x := "G" + d;
    assert '[' !in x && ']' !in x;
    // "[[" + x + "]]" loses its leading "[[" and nothing else.
    assert HeaderLabel(n) == "[[" + (x + "]]");
    RemoveAllLeading("[[", x + "]]");
    RemoveAllSkipsPrefix(x, "]]", "[[");
    RemoveAllSkipsPrefix("]]", "", "[[");
    assert "]]" + "" == "]]";
    var t1 := RemoveAll(HeaderLabel(n), "[[");
    assert t1 == x + "]]";
    // then the trailing "]]" goes.
    RemoveAllSkipsPrefix(x, "]]", "]]");
    RemoveAllLeading("]]", "");
    var t2 := RemoveAll(t1, "]]");
    assert t2 == x;
    // then the "G".
    assert x == "G" + d;
    RemoveAllLeading("G", d);
    RemoveCharAll(d, 'G');
    assert RemoveAll(t2, "G") == d;
    ParseIntToString(n);
  }

  /** A header's label names its group, except the label of group 0,
      which `if groupNo:` rejects. */
  lemma HeaderGroupNumber(n: int)
    ensures GroupNumberOf(HeaderLabel(n)) == (if n != 0 then Some(n) else None)
  {
    HeaderLabelNumber(n);
  }

  // --------------------------------------------------------------- the tree

  /** An item of the tree `fillTree` builds. Items are told apart by
      identity, which the value itself stands for here. */
  datatype TreeItem =
    | Header(group: int)                   // `[[G<n>]]` at the top level
    | Child(group: int, region: RegionId)  // a member under its group's header
    | TopLevel(region: RegionId)           // a page region in no live group

  /** The regions an item refers to exist. */
  predicate Known(s: Session, item: TreeItem) {
    match item
    case Header(_) => true
    case Child(_, x) => x in s.regions
    case TopLevel(x) => x in s.regions
  }

  /** The item is one `fillTree` builds for this state: a header per live
      group, a child per member, a top-level item per ungrouped page region. */
  ghost predicate InTree(s: Session, item: TreeItem)
    requires WellFormed(s)
  {
    match item
    case Header(n) => Live(s, n)
    case Child(n, x) => Live(s, n) && x in s.members[n]
    case TopLevel(x) => x in s.bboxes && s.regions[x].group == None
  }

  /** The text an item displays. */
  function ItemText(s: Session, item: TreeItem): string
    requires Known(s, item)
  {
    match item
    case Header(n) => HeaderLabel(n)
    case Child(_, x) => s.regions[x].text
    case TopLevel(x) => s.regions[x].text
  }

  // ------------------------------------------------------ getBBObjectFromItem

  /** What `getBBObjectFromItem` hands back. */
  datatype Resolved =
    | AsGroup(group: Option<int>)          // ('bbg', groups[n]): None for an empty slot
    | AsRegion(region: Option<RegionId>)   // ('bbox', the item's region, or None)
    | Unresolved(error: string)            // the lookup raised

  /** A live group after `g` in key order also lists `x`. `fillTree`
      visits the groups in key order and points `x.treeItem` at the child
      item it makes last, so only the child under the last live group that
      lists `x` is found again by identity. */
  predicate ShownLater(s: Session, g: int, x: RegionId) {
    exists m :: m in s.members && g < m && Live(s, m) && x in s.members[m]
  }

  /** `getBBObjectFromItem` as written: the group number is read off the
      text of the item (for a top-level item) or of its parent header (for
      a child); a top-level item whose text yields a non-zero number is
      taken for a group header whatever it really is. A child finds its
      region among the group's members by the region's `treeItem`, which
      is the child under the last live group listing the region. */
  function ResolveAsWritten(s: Session, item: TreeItem): (r: (Resolved, Session))
    requires WellFormed(s) && Known(s, item)
    ensures WellFormed(r.1)
    ensures r.1.bboxes == s.bboxes && r.1.regions == s.regions && r.1.members == s.members
    ensures r.1.counter == s.counter && forall m :: Live(r.1, m) == Live(s, m)
    ensures r.0.AsGroup? && r.0.group.Some? ==> Live(s, r.0.group.value)
    ensures r.0.AsRegion? && r.0.region.Some? ==> r.0.region.value in s.regions
    ensures item.Header? && item.group != 0 ==>
      r.0 == AsGroup(if Live(s, item.group) then Some(item.group) else None)
    ensures item.Header? && item.group != 0 && Live(s, item.group) ==> r.1 == s
    ensures item.Child? && item.group != 0 && Live(s, item.group) ==>
      r == (AsRegion(if item.region in s.members[item.group] && !ShownLater(s, item.group, item.region)
                     then Some(item.region) else None), s)
  {
    match item
    case Child(n, x) =>
      HeaderGroupNumber(n);
      (match GroupNumberOf(HeaderLabel(n))
       case None => (Unresolved("TypeError"), s)
       case Some(g) =>
         var s1 := Lookup(s, g);
         if !Live(s1, g) then (Unresolved("AttributeError"), s1)
         else (AsRegion(if x in s1.members[g] && !ShownLater(s1, g, x) then Some(x) else None), s1))
    case Header(n) =>
      HeaderGroupNumber(n);
      ResolveTopLevel(s, HeaderLabel(n), None)
    case TopLevel(x) => ResolveTopLevel(s, s.regions[x].text, Some(x))
  }

  /** The top-level branch: a group when the text yields a number, else
      the page region whose item it is. */
  function ResolveTopLevel(s: Session, text: string, x: Option<RegionId>): (r: (Resolved, Session))
    requires WellFormed(s) && (x.Some? ==> x.value in s.regions)
    ensures WellFormed(r.1)
    ensures r.1.bboxes == s.bboxes && r.1.regions == s.regions && r.1.members == s.members
    ensures r.1.counter == s.counter && forall m :: Live(r.1, m) == Live(s, m)
    ensures r.0.AsGroup? && r.0.group.Some? ==> Live(s, r.0.group.value)
    ensures r.0.AsRegion? && r.0.region.Some? ==> r.0.region.value in s.regions
  {
    match GroupNumberOf(text)
    case Some(g) =>
      var s1 := Lookup(s, g);
      (AsGroup(if Live(s1, g) then Some(g) else None), s1)
    case None =>
      (AsRegion(if x.Some? && x.value in s.bboxes then x else None), s)
  }

  /** The corrected resolution: by what the item is, not by its text. */
  function ResolveByKind(s: Session, item: TreeItem): (r: Resolved)
    requires Known(s, item)
    ensures r.AsGroup? <==> item.Header?
    ensures item.Header? ==> r == AsGroup(if Live(s, item.group) then Some(item.group) else None)
    ensures !item.Header? ==> r == AsRegion(Some(item.region))
  {
    match item
    case Header(n) => AsGroup(if Live(s, n) then Some(n) else None)
    case Child(_, x) => AsRegion(Some(x))
    case TopLevel(x) => AsRegion(Some(x))
  }

  // --------------------------------------------------------------- dropEvent

  /** Where a drop handler ends: the state reached and the exception that
      ended it, if any. The Qt event loop reports an exception raised in a
      handler and carries on with the state as it was at that point. */
  datatype Outcome = Outcome(state: Session, raised: Option<string>)

  /** `if sourceGroup: sourceGroup.remove(sourceBB)`: the region leaves
      its group, if it has one. */
  function Detach(s: Session, x: RegionId): (r: Result<Session>)
    requires WellFormed(s) && x in s.regions
    ensures r.Failure? <==> s.regions[x].group.Some? && x !in s.members[s.regions[x].group.value]
    ensures r.Success? ==>
      && WellFormed(r.value) && x in r.value.regions && r.value.regions[x].group == None
      && r.value.bboxes == s.bboxes && r.value.registry == s.registry && r.value.counter == s.counter
      && r.value.regions.Keys == s.regions.Keys && r.value.members.Keys == s.members.Keys
  {
    match s.regions[x].group
    case None => Success(s)
    case Some(g) => Remove(s, g, x)
  }

  /** `sourceBB.group = destGroup`. */
  function Assign(s: Session, x: RegionId, m: int): (r: Session)
    requires WellFormed(s) && x in s.regions && m in s.members
    ensures WellFormed(r) && x in r.regions && r.regions[x].group == Some(m)
  {
    s.(regions := s.regions[x := s.regions[x].(group := Some(m))])
  }

  /** `self.parent.bboxes = self.insertBefore(self.parent.bboxes, a, b)`. */
  function ReorderPage(s: Session, a: RegionId, b: RegionId): (r: Result<Session>)
    requires WellFormed(s) && b in s.regions
    ensures r.Success? <==> a in s.bboxes
    ensures r.Success? ==> WellFormed(r.value) && r.value == s.(bboxes := InsertBefore(s.bboxes, a, b).value)
  {
    match InsertBefore(s.bboxes, a, b)
    case Failure(e) => Failure(e)
    case Success(p) =>
      assert forall y :: y in p ==> y in s.regions by {
        InsertBeforeMembers(s.bboxes, a, b);
      }
      PageWellFormed(s, p);
      Success(s.(bboxes := p))
  }

  /** Any page list of known regions keeps the state well formed. */
  lemma PageWellFormed(s: Session, p: seq<RegionId>)
    requires WellFormed(s) && forall y :: y in p ==> y in s.regions
    ensures WellFormed(s.(bboxes := p))
  {
  }

  /** `destGroup.items = self.insertBefore(destGroup.items, a, b)`. */
  function ReorderGroup(s: Session, m: int, a: RegionId, b: RegionId): (r: Result<Session>)
    requires WellFormed(s) && m in s.members && b in s.regions
    ensures r.Success? <==> a in s.members[m]
    ensures r.Success? ==> WellFormed(r.value) && r.value == s.(members := s.members[m := InsertBefore(s.members[m], a, b).value])
  {
    match InsertBefore(s.members[m], a, b)
    case Failure(e) => Failure(e)
    case Success(q) =>
      assert forall y :: y in q ==> y in s.regions by {
        InsertBeforeMembers(s.members[m], a, b);
      }
      MembersWellFormed(s, m, q);
      Success(s.(members := s.members[m := q]))
  }

  /** Any member list of known regions for an existing group keeps the
      state well formed. */
  lemma MembersWellFormed(s: Session, m: int, q: seq<RegionId>)
    requires WellFormed(s) && m in s.members && forall y :: y in q ==> y in s.regions
    ensures WellFormed(s.(members := s.members[m := q]))
  {
  }

  /** The handler ends after a last step that may raise. */
  function Finish(s: Session, r: Result<Session>): Outcome {
    match r
    case Failure(e) => Outcome(s, Some(e))
    case Success(s1) => Outcome(s1, None)
  }

  /** The resolved destination names objects that exist. */
  predicate DestOk(s: Session, dest: Option<Resolved>) {
    && (dest.Some? && dest.value.AsGroup? && dest.value.group.Some? ==> dest.value.group.value in s.members)
    && (dest.Some? && dest.value.AsRegion? && dest.value.region.Some? ==> dest.value.region.value in s.regions)
  }

  /** The body of `dropEvent` once the source is the region `x`: dropped on
      the root it leaves its group; dropped on a header it joins that group
      at the front; dropped on a grouped region it joins that region's
      group and is placed before it, in the group and on the page; dropped
      on an ungrouped region it leaves its group and is placed before it on
      the page. Placing follows `insertBefore`: immediately in front when
      the region came after the target, where it was when it came before.
      No group is disbanded, even when it empties. */
  function MoveRegion(s: Session, x: RegionId, dest: Option<Resolved>): (r: Outcome)
    requires WellFormed(s) && x in s.regions && DestOk(s, dest)
    ensures WellFormed(r.state)
  {
    match dest
    case None => Finish(s, Detach(s, x))
    case Some(Unresolved(e)) => Outcome(s, Some(e))
    case Some(AsRegion(None)) => Outcome(s, Some("AttributeError"))
    case Some(AsGroup(None)) =>
      // the region is detached and pointed at None, then `None.items` raises
      (match Detach(s, x)
       case Failure(e) => Outcome(s, Some(e))
       case Success(s1) => Outcome(s1, Some("AttributeError")))
    case Some(AsGroup(Some(m))) =>
      (match Detach(s, x)
       case Failure(e) => Outcome(s, Some(e))
       case Success(s1) =>
         var s2 := Assign(s1, x, m).(members := s1.members[m := [x] + s1.members[m]]);
         // `destBB.items[0]` is now the region itself
         Finish(s2, ReorderPage(s2, x, x)))
    case Some(AsRegion(Some(d))) =>
      match s.regions[d].group
      case Some(m) =>
        var moved :=
          if s.regions[x].group == Some(m) then Success(s)
          else match Detach(s, x)
            case Failure(e) => Failure(e)
            case Success(s1) => Success(Assign(s1, x, m));
        (match moved
         case Failure(e) => Outcome(s, Some(e))
         case Success(s1) =>
           match ReorderPage(s1, d, x)
           case Failure(e) => Outcome(s1, Some(e))
           case Success(s2) => Finish(s2, ReorderGroup(s2, m, d, x)))
      case None =>
        match Detach(s, x)
        case Failure(e) => Outcome(s, Some(e))
        case Success(s1) => Finish(s1, ReorderPage(s1, d, x))
  }

  /** `dropEvent` as written: nothing happens when an item is dropped on
      itself or the source resolves to a group; otherwise the source and the
      destination are resolved through their texts and the region moves. */
  function DropEvent(s: Session, src: TreeItem, dest: Option<TreeItem>): (r: Outcome)
    requires WellFormed(s) && Known(s, src) && (dest.Some? ==> Known(s, dest.value))
    ensures WellFormed(r.state)
    ensures dest == Some(src) ==> r == Outcome(s, None)
    ensures src.Header? && src.group != 0 ==>
      && r.raised == None
      && r.state.bboxes == s.bboxes && r.state.regions == s.regions && r.state.members == s.members
    ensures src.Header? && src.group != 0 && Live(s, src.group) ==> r == Outcome(s, None)
  {
    if dest == Some(src) then Outcome(s, None)
    else
      var sp := ResolveAsWritten(s, src);
      var s1 := sp.1;
      match sp.0
      case Unresolved(e) => Outcome(s1, Some(e))
      case AsGroup(_) => Outcome(s1, None)
      case AsRegion(xo) =>
        match dest
        case None =>
          if xo.None? then Outcome(s1, Some("AttributeError")) else MoveRegion(s1, xo.value, None)
        case Some(di) =>
          var dp := ResolveAsWritten(s1, di);
          if dp.0.Unresolved? then Outcome(dp.1, Some(dp.0.error))
          else if xo.None? then Outcome(dp.1, Some("AttributeError"))
          else MoveRegion(dp.1, xo.value, Some(dp.0))
  }

  /** The corrected destination: resolved by kind. */
  function DestByKind(s: Session, dest: Option<TreeItem>): (r: Option<Resolved>)
    requires WellFormed(s) && (dest.Some? ==> Known(s, dest.value))
    ensures DestOk(s, r)
  {
    if dest.None? then None else Some(ResolveByKind(s, dest.value))
  }

  /** The corrected `dropEvent`: the same moves, with items resolved by
      what they are. */
  function DropEventByKind(s: Session, src: TreeItem, dest: Option<TreeItem>): (r: Outcome)
    requires WellFormed(s) && Known(s, src) && (dest.Some? ==> Known(s, dest.value))
    ensures WellFormed(r.state)
    ensures dest == Some(src) || src.Header? ==> r == Outcome(s, None)
  {
    if dest == Some(src) then Outcome(s, None)
    else
      match src
      case Header(_) => Outcome(s, None)
      case Child(_, x) => MoveRegion(s, x, DestByKind(s, dest))
      case TopLevel(x) => MoveRegion(s, x, DestByKind(s, dest))
  }

  // ------------------------------------------ what the corrected drop keeps

  /** On a valid state detaching always succeeds, keeps the state valid
      and touches only the region and its old group. */
  lemma DetachValid(s: Session, x: RegionId)
    requires Valid(s) && x in s.regions
    ensures Detach(s, x).Success?
    ensures var s1 := Detach(s, x).value;
      && Valid(s1)
      && (forall n :: n in s.members ==> x !in s1.members[n])
      && (forall n :: n in s.members && s.regions[x].group != Some(n) ==> s1.members[n] == s.members[n])
      && (forall n :: n in s.members && s.regions[x].group == Some(n) ==> s1.members[n] == Without(s.members[n], {x}))
      && (forall y :: y in s.regions && y != x ==> s1.regions[y] == s.regions[y])
  {
    match s.regions[x].group {
      case None =>
        forall n | n in s.members ensures x !in s.members[n] {
          assert GroupOk(s, n);
        }
      case Some(g) =>
        assert x in s.members[g];
        RemoveValid(s, g, x);
        var s1 := Detach(s, x).value;
        assert GroupOk(s, g);
        WithoutSingle(s.members[g], x);
        forall n | n in s.members ensures x !in s1.members[n] {
          assert GroupOk(s1, n);
        }
    }
  }

  /** Dropped on the root, a region leaves its group; the page and the
      groups' numbering stay as they are. */
  lemma DropOnRoot(s: Session, x: RegionId)
    requires Valid(s) && x in s.regions
    ensures var o := MoveRegion(s, x, None);
      && o.raised == None && Valid(o.state)
      && o.state.bboxes == s.bboxes && o.state.registry == s.registry && o.state.counter == s.counter
      && x in o.state.regions && o.state.regions[x].group == None
  {
    DetachValid(s, x);
  }

  /** Dropped on the header of a live group, a page region becomes the
      group's first member; the page order stays as it is. */
  lemma DropOnHeader(s: Session, x: RegionId, m: int)
    requires Valid(s) && x in s.bboxes && Live(s, m)
    ensures var o := MoveRegion(s, x, Some(AsGroup(Some(m))));
      && o.raised == None && Valid(o.state)
      && o.state.bboxes == s.bboxes && o.state.registry == s.registry && o.state.counter == s.counter
      && x in o.state.regions && o.state.regions[x].group == Some(m)
      && m in o.state.members && o.state.members[m] == [x] + Without(s.members[m], {x})
  {
    DetachValid(s, x);
    var s1 := Detach(s, x).value;
    assert GroupOk(s, m);
    if s.regions[x].group != Some(m) {
      assert x !in s.members[m];
      WithoutSingle(s.members[m], x);
    }
    assert GroupOk(s1, m);
    JoinValid(s1, m, x, [x] + s1.members[m]);
  }

  /** Dropped on another region of group m, a page region joins m (if it
      was not a member) and comes before that region, both in m and on the
      page, each list being reordered by `insertBefore`; the page is a
      reordering of what it was. */
  lemma DropOnGroupedRegion(s: Session, x: RegionId, d: RegionId, m: int)
    requires Valid(s) && x in s.bboxes && d in s.bboxes && x != d
    requires s.regions[d].group == Some(m)
    ensures var o := MoveRegion(s, x, Some(AsRegion(Some(d))));
      && o.raised == None && Valid(o.state)
      && multiset(o.state.bboxes) == multiset(s.bboxes)
      && o.state.registry == s.registry && o.state.counter == s.counter
      && x in o.state.regions && o.state.regions[x].group == Some(m)
      && m in o.state.members && x in o.state.members[m] && d in o.state.members[m]
      && IndexOf(o.state.members[m], x) < IndexOf(o.state.members[m], d)
      && x in o.state.bboxes && d in o.state.bboxes
      && IndexOf(o.state.bboxes, x) < IndexOf(o.state.bboxes, d)
      && o.state.bboxes == InsertBefore(s.bboxes, d, x).value
      && o.state.members[m] == InsertBefore(s.members[m], d, x).value
  {
    assert d in s.members[m];
    if s.regions[x].group == Some(m) {
      SameGroupMove(s, x, d, m);
    } else {
      OtherGroupMove(s, x, d, m);
    }
  }

  lemma SameGroupMove(s: Session, x: RegionId, d: RegionId, m: int)
    requires Valid(s) && x in s.bboxes && d in s.bboxes && x != d
    requires s.regions[d].group == Some(m) && s.regions[x].group == Some(m)
    ensures var o := MoveRegion(s, x, Some(AsRegion(Some(d))));
      && o.raised == None && Valid(o.state)
      && multiset(o.state.bboxes) == multiset(s.bboxes)
      && o.state.registry == s.registry && o.state.counter == s.counter
      && x in o.state.regions && o.state.regions[x].group == Some(m)
      && m in o.state.members && x in o.state.members[m] && d in o.state.members[m]
      && IndexOf(o.state.members[m], x) < IndexOf(o.state.members[m], d)
      && x in o.state.bboxes && d in o.state.bboxes
      && IndexOf(o.state.bboxes, x) < IndexOf(o.state.bboxes, d)
      && o.state.bboxes == InsertBefore(s.bboxes, d, x).value
      && o.state.members[m] == InsertBefore(s.members[m], d, x).value
  {
    assert d in s.members[m] && x in s.members[m];
    assert GroupOk(s, m);
    var p := InsertBefore(s.bboxes, d, x).value;
    InsertBeforeMembers(s.bboxes, d, x);
    InsertBeforeNoDup(s.bboxes, d, x);
    InsertBeforeOrder(s.bboxes, d, x);
    ReorderPageValid(s, p);
    var s2 := s.(bboxes := p);
    var q := InsertBefore(s.members[m], d, x).value;
    InsertBeforeMembers(s.members[m], d, x);
    InsertBeforeNoDup(s.members[m], d, x);
    InsertBeforeOrder(s.members[m], d, x);
    ReorderGroupValid(s2, m, q);
    assert MoveRegion(s, x, Some(AsRegion(Some(d)))).state == s2.(members := s2.members[m := q]);
  }

  lemma OtherGroupMove(s: Session, x: RegionId, d: RegionId, m: int)
    requires Valid(s) && x in s.bboxes && d in s.bboxes && x != d
    requires s.regions[d].group == Some(m) && s.regions[x].group != Some(m)
    ensures var o := MoveRegion(s, x, Some(AsRegion(Some(d))));
      && o.raised == None && Valid(o.state)
      && multiset(o.state.bboxes) == multiset(s.bboxes)
      && o.state.registry == s.registry && o.state.counter == s.counter
      && x in o.state.regions && o.state.regions[x].group == Some(m)
      && m in o.state.members && x in o.state.members[m] && d in o.state.members[m]
      && IndexOf(o.state.members[m], x) < IndexOf(o.state.members[m], d)
      && x in o.state.bboxes && d in o.state.bboxes
      && IndexOf(o.state.bboxes, x) < IndexOf(o.state.bboxes, d)
      && o.state.bboxes == InsertBefore(s.bboxes, d, x).value
      && o.state.members[m] == InsertBefore(s.members[m], d, x).value
  {
    assert d in s.members[m];
    assert GroupOk(s, m);
    DetachValid(s, x);
    var s1 := Detach(s, x).value;
    assert s1.members[m] == s.members[m];
    var q := InsertBefore(s1.members[m], d, x).value;
    InsertBeforeMembers(s1.members[m], d, x);
    InsertBeforeNoDup(s1.members[m], d, x);
    InsertBeforeOrder(s1.members[m], d, x);
    JoinValid(s1, m, x, q);
    var j := s1.(regions := s1.regions[x := s1.regions[x].(group := Some(m))],
                 members := s1.members[m := q]);
    var p := InsertBefore(s.bboxes, d, x).value;
    InsertBeforeMembers(s.bboxes, d, x);
    InsertBeforeNoDup(s.bboxes, d, x);
    InsertBeforeOrder(s.bboxes, d, x);
    ReorderPageValid(j, p);
    assert MoveRegion(s, x, Some(AsRegion(Some(d)))).state == j.(bboxes := p);
  }

  /** Dropped on an ungrouped region, a page region leaves its group and
      comes before that region on the page. */
  lemma DropOnUngroupedRegion(s: Session, x: RegionId, d: RegionId)
    requires Valid(s) && x in s.bboxes && d in s.bboxes && x != d
    requires s.regions[d].group == None
    ensures var o := MoveRegion(s, x, Some(AsRegion(Some(d))));
      && o.raised == None && Valid(o.state)
      && multiset(o.state.bboxes) == multiset(s.bboxes)
      && o.state.registry == s.registry && o.state.counter == s.counter
      && x in o.state.regions && o.state.regions[x].group == None
      && o.state.bboxes == InsertBefore(s.bboxes, d, x).value
      && x in o.state.bboxes && d in o.state.bboxes
      && IndexOf(o.state.bboxes, x) < IndexOf(o.state.bboxes, d)
  {
    assert Detach(s, x).Success? && Valid(Detach(s, x).value) by {
      DetachValid(s, x);
    }
    var s1 := Detach(s, x).value;
    var p := InsertBefore(s.bboxes, d, x).value;
    assert MoveRegion(s, x, Some(AsRegion(Some(d)))) == Outcome(s1.(bboxes := p), None);
    assert multiset(p) == multiset(s.bboxes) && NoDup(p) && (forall y :: y in p <==> y in s.bboxes) by {
      InsertBeforeMembers(s.bboxes, d, x);
      InsertBeforeNoDup(s.bboxes, d, x);
    }
    assert x in p && d in p && IndexOf(p, x) < IndexOf(p, d) by {
      InsertBeforeOrder(s.bboxes, d, x);
    }
    ReorderPageValid(s1, p);
  }

  /** A region on the page dropped on a tree item that is not its own. */
  lemma DropRegionSpec(s: Session, x: RegionId, dest: Option<TreeItem>)
    requires Valid(s) && x in s.bboxes
    requires dest.Some? ==> InTree(s, dest.value) && (!dest.value.Header? ==> dest.value.region != x)
    ensures var o := MoveRegion(s, x, DestByKind(s, dest));
      && o.raised == None && Valid(o.state)
      && multiset(o.state.bboxes) == multiset(s.bboxes)
      && o.state.registry == s.registry && o.state.counter == s.counter
  {
    match dest {
      case None =>
        DropOnRoot(s, x);
      case Some(Header(m)) =>
        DropOnHeader(s, x, m);
      case Some(Child(m, d)) =>
        assert GroupOk(s, m);
        DropOnGroupedRegion(s, x, d, m);
      case Some(TopLevel(d)) =>
        DropOnUngroupedRegion(s, x, d);
    }
  }

  /** The corrected drop never raises on a valid state: it keeps the state
      valid, only reorders the page, and creates or disbands no group. */
  lemma DropByKindSpec(s: Session, src: TreeItem, dest: Option<TreeItem>)
    requires Valid(s) && InTree(s, src) && (dest.Some? ==> InTree(s, dest.value))
    ensures var o := DropEventByKind(s, src, dest);
      && o.raised == None && Valid(o.state)
      && multiset(o.state.bboxes) == multiset(s.bboxes)
      && o.state.registry == s.registry && o.state.counter == s.counter
  {
    if dest != Some(src) {
      match src {
        case Header(_) =>
        case Child(n, x) =>
          assert GroupOk(s, n);
          if dest.Some? && dest.value.Child? {
            assert GroupOk(s, dest.value.group);
          }
          DropRegionSpec(s, x, dest);
        case TopLevel(x) =>
          if dest.Some? && dest.value.Child? {
            assert GroupOk(s, dest.value.group);
          }
          DropRegionSpec(s, x, dest);
      }
    }
  }

  // ------------------------------------- the text-based and kind-based drop

  /** A top-level region whose text does not read as a group number. */
  predicate PlainItem(s: Session, item: TreeItem)
    requires Known(s, item)
  {
    item.TopLevel? ==> GroupNumberOf(s.regions[item.region].text).None?
  }

  /** For the items the tree shows, resolving by text finds what the item
      is, and reads no missing registry slot, unless a top-level region's
      text is itself a number. */
  lemma ResolveAgrees(s: Session, item: TreeItem)
    requires Valid(s) && InTree(s, item) && PlainItem(s, item)
    ensures ResolveAsWritten(s, item) == (ResolveByKind(s, item), s)
  {
    match item {
      case Header(n) =>
        HeaderLabelNumber(n);
      case Child(n, x) =>
        HeaderLabelNumber(n);
        // on a valid state no other group lists a member
        assert !ShownLater(s, n, x) by {
          forall m | m in s.members && x in s.members[m] ensures m == n {
            MemberOfOneGroup(s, n, m, x);
          }
        }
      case TopLevel(x) =>
    }
  }

  /** When two live groups list the same region, `fillTree` points the
      region at its child under the later group, so dragging the child
      under the earlier group resolves to None and `sourceBB.group`
      raises. */
  lemma EarlierChildRaises(s: Session, g: int, m: int, x: RegionId)
    requires WellFormed(s) && x in s.regions && 0 < g < m
    requires Live(s, g) && Live(s, m) && x in s.members[g] && x in s.members[m]
    ensures ResolveAsWritten(s, Child(g, x)).0 == AsRegion(None)
    ensures ResolveAsWritten(s, Child(m, x)).0.AsRegion?
    ensures DropEvent(s, Child(g, x), None) == Outcome(s, Some("AttributeError"))
  {
    assert ShownLater(s, g, x) by {
      assert m in s.members && x in s.members[m];
    }
    assert ResolveAsWritten(s, Child(g, x)) == (AsRegion(None), s);
  }

  /** The state of the grouping finding, where live groups 1 and 2 both list
      region 1: its child under group 1 cannot be dragged, while the child
      under group 2 resolves to the region. */
  lemma GroupedTwiceDragRaises()
    ensures var t := MakeGroupFromSelected(GroupedOne, {1}).value;
      && ResolveAsWritten(t, Child(2, 1)).0 == AsRegion(Some(1))
      && DropEvent(t, Child(1, 1), None) == Outcome(t, Some("AttributeError"))
  {
    MakeGroupListsTwice();
    var t := MakeGroupFromSelected(GroupedOne, {1}).value;
    assert Select(GroupedOne.bboxes, {1}) == [1] by {
      assert GroupedOne.bboxes[..0] == [];
      assert Select(GroupedOne.bboxes[..0], {1}) == [];
    }
    assert t == NewGroup(GroupedOne, [1]);
    assert t.registry.Keys == {1, 2};
    assert !ShownLater(t, 2, 1);
    EarlierChildRaises(t, 1, 2, 1);
  }

  /** Under the same condition the drop as written and the corrected drop
      do the same thing. */
  lemma DropAgrees(s: Session, src: TreeItem, dest: Option<TreeItem>)
    requires Valid(s) && InTree(s, src) && PlainItem(s, src)
    requires dest.Some? ==> InTree(s, dest.value) && PlainItem(s, dest.value)
    ensures DropEvent(s, src, dest) == DropEventByKind(s, src, dest)
  {
    if dest != Some(src) {
      ResolveAgrees(s, src);
      if dest.Some? {
        ResolveAgrees(s, dest.value);
      }
    }
  }

  /** Two ungrouped regions on the page, the second one showing the text
      "7". */
  const NumberedPage: Session := Session(
    [1, 2],
    map[1 := Region("a", 0, 0, 1, 1, false, None), 2 := Region("7", 0, 0, 1, 1, false, None)],
    map[], map[], 1)

  lemma NumberedPageValid()
    ensures Valid(NumberedPage)
  {
  }

  /** Dragging the "7" region onto the other one as written: the text is
      read as group number 7, so the drop does nothing but leave an empty
      registry slot 7 behind, which breaks the invariant. */
  lemma NumberedDropAsWritten()
    ensures var o := DropEvent(NumberedPage, TopLevel(2), Some(TopLevel(1)));
      && o.raised == None && o.state.bboxes == [1, 2]
      && 7 in o.state.registry && !Valid(o.state)
  {
    var s := NumberedPage;
    SevenIsAGroupNumber();
    assert s.regions[2].text == "7";
    var s1 := Lookup(s, 7);
    assert ResolveTopLevel(s, "7", Some(2)) == (AsGroup(None), s1);
    assert DropEvent(s, TopLevel(2), Some(TopLevel(1))) == Outcome(s1, None);
    assert 7 in s1.registry && 7 !in s1.members;
  }

  /** The corrected drop of the same item puts the region first on the
      page and keeps the invariant. */
  lemma NumberedDropByKind()
    ensures var o := DropEventByKind(NumberedPage, TopLevel(2), Some(TopLevel(1)));
      o.raised == None && o.state.bboxes == [2, 1] && Valid(o.state)
  {
    var s := NumberedPage;
    assert DestByKind(s, Some(TopLevel(1))) == Some(AsRegion(Some(1)));
    assert DropEventByKind(s, TopLevel(2), Some(TopLevel(1))) == MoveRegion(s, 2, Some(AsRegion(Some(1))));
    NumberedMove();
  }

  /** Moving region 2 before region 1 on the example page. */
  lemma NumberedMove()
    ensures var o := MoveRegion(NumberedPage, 2, Some(AsRegion(Some(1))));
      o.raised == None && o.state.bboxes == [2, 1] && Valid(o.state)
  {
    var s := NumberedPage;
    NumberedPageValid();
    DropOnUngroupedRegion(s, 2, 1);
    SwapTwo();
  }

  /** Inserting the second of two regions before the first swaps them. */
  lemma SwapTwo()
    ensures InsertBefore([1, 2], 1, 2) == Success([2, 1])
  {
    SwapPair(1, 2);
  }

  lemma SwapPair(a: RegionId, b: RegionId)
    requires a != b
    ensures InsertBefore([a, b], a, b) == Success([b, a])
  {
    var l := [a, b];
    assert l[0] == a && l[1] == b;
    assert a in l && b in l;
    assert IndexOf(l, a) == 0;
    assert IndexOf(l, b) == 1 by {
      assert IndexOf(l, b) != 0;
    }
    var m := RemoveFirst(l, b);
    assert |m| == 1 && m[0] == a by {
      assert m[..1] == l[..1];
    }
    var r := InsertAt(m, 0, b);
    assert |r| == 2 && r[0] == b && r[1] == a by {
      assert r[1..] == m[0..];
    }
    assert r == [b, a];
  }

  /** The text "7" reads as group number 7. */
  lemma SevenIsAGroupNumber()
    ensures GroupNumberOf("7") == Some(7)
  {
    assert IntToString(7) == "7";
    ParseIntToString(7);
    assert RemoveAll("7", "[[") == "7";
    assert RemoveAll("7", "]]") == "7";
    assert RemoveAll("7", "G") == "7";
  }
}

=== FILE: wrappers.dfy ===
/** Failure-carrying datatypes shared by every module of the model.

    Python raises exceptions where this model returns `Failure`; an
    operation that would loop forever returns a dedicated outcome instead
    (see `BoxImport.ImportOutcome`).
 */
module Wrappers {

  /** A value that may be missing: Python's `None` or a missing entry. */
  datatype Option<+T> = None | Some(value: T)

  /** The outcome of a Python call that either returns or raises.
      `error` names the exception the source would raise. */
  datatype Result<+T> = Success(value: T) | Failure(error: string)
}
